=== FILE: README.md ===
# Battery equivalent-circuit model pipeline, in Dafny

This project models the offline pipeline that builds an equivalent-circuit
model (ECM) of a lithium-ion cell, module or pack from laboratory logs, and
proves properties of that model. The pipeline has these stages:

- **Event markers and windows.** The loaders find the rows flagged `S`
  (start/stop) or `Q` (quit) in a test log. They group the start/stop markers
  five to a group into pulse sections (`get_idx`) and long-discharge sections
  (`get_idrc`). Each loader cuts its log to the window a later stage needs:
  - from the second marker on (HPPC cell logs);
  - one discharge/charge section chosen by the peak current (discharge logs);
  - markers 21 to 76 (module HPPC log);
  - up to the first sample at exactly 600 s (drive-cycle logs);
  - the samples nearest to a start and end time, on a 3 s timebase
    (thermocouple logs).
- **State of charge.** SOC is counted in coulombs from 1, with the charge
  efficiency used only for strictly positive current. It is never clamped.
- **Open-circuit voltage.** OCV is `np.interp` over anchors taken at the pulse
  markers plus the final sample, reversed so that SOC rises.
- **RC parameters.** `rctau_ttc` derives `tau1, tau2, r0, r1, r2, c1, c2` for
  each 10 % SOC section from current and voltage steps and from coefficients
  fitted to `a - b e^(-alpha t) - c e^(-beta t)`. The fit itself is outside
  the model: its coefficients are inputs. The model covers the windows handed
  to it.
- **RC row lookup.** The row for an SOC is the one whose centre on the grid
  0.9 … 0.1 is nearest, with ties going to the higher SOC.
- **Two-RC terminal voltage.** `v = ocv + r0 i + v1 + v2`, each branch
  relaxing by `e^(-dt/tau)`.
- **Lumped thermal model.** A forward-Euler step driven by `i (vt - ocv)` and
  by convection to the ambient air.
- **Parallel current split.** In the pack and module scripts, each series
  stage of parallel cells shares one terminal voltage, and each cell carries
  `(ocv - v) / r0`.

Floating-point numbers are modelled as `real`. The exponential function is a
parameter `exp: real -> real`: lemmas that need a fact about it take that fact
as a precondition.

Places where Python raises an exception become an `Err` result:
- `ids[k]` past the end of the marker list;
- `[0][0]` of an empty `np.where`;
- `max` or `argmin` of an empty array;
- a too-short coefficient row.

Places where numpy silently produces `inf`/`nan` (a division by zero while
deriving an RC row, the mean of an empty table) also become an `Err` result.
Here the model departs from the code. The code does not raise: it writes
`inf`/`nan` into the table. The model refuses to produce such a row.

There is one module per source file or shared component:

- `Outcome`, `Numeric`, `Markers`, `Segments`, `Logs`: shared infrastructure.
- `CellHppcData`, `BatteryData`, `HppcData`, `CellDischargeData`,
  `CellTemperatureData`, `ModuleHppcData`, `DriveCycle`, `PackUs06Data`,
  `ModulesData`: the loaders.
- `Coulomb`, `OpenCircVoltage`, `RcParams`, `SocBins`, `TwoRc`, `ThermalModel`:
  the shared ECM pieces.
- `ModuleEcm`, `EquivCircModel`, `HppcEcm`: the three ECM classes.
- `CurrentSplit`, `PackScripts`, `ModuleScript`: the scripts' current split.

## Model

| member | source | states |
|---|---|---|
| Outcome.Collect | ecm/module_ecm.py:269-284 | A loop whose iterations may raise yields all its values in order exactly when no iteration raises. |
| Outcome.CollectFirstError | ecm/module_ecm.py:269-284 | When iterations may raise, the error reported is that of the first iteration that raises; later iterations are never reached. |
| Numeric.ArgMin | ecmlib/voltage_ecm.py:11 | numpy `argmin` of a non-empty array: an index of a smallest element, and no earlier index holds one. |
| Numeric.ArgMax | ecm/cell_temperature_data.py:59 | pandas `idxmax` on the default index: an index of a largest element, and no earlier index holds one. |
| Numeric.MaxAbs | ecm/cell_discharge_data.py:68 | `max(abs(s))` bounds every magnitude of the array and is attained by one of them. |
| Markers.WhereFrom | ecm/cell_hppc_data.py:46 | From position `from` on, exactly the positions flagged c, in strictly increasing order. |
| Markers.Where | ecm/cell_hppc_data.py:46 | `np.where(flags == c)[0]` holds every position flagged c and no other, in strictly increasing order. |
| Markers.Stride | ecm/cell_hppc_data.py:77-81 | `s[start::5]` holds exactly the elements at start, start + 5, …, and every such position below the length is included. |
| Markers.DropLast | ecm/cell_hppc_data.py:100 | `s[:-1]` keeps every element but the last, and is empty for an empty array. |
| Markers.DeleteLast | ecm/module_ecm.py:262-264 | `np.delete(s, -1)` keeps every element but the last; on an empty array it raises. |
| Markers.Succ | ecm/cell_hppc_data.py:78 | `id0 + 1` adds one to every index and keeps the length. |
| Segments.PulseIndices | ecm/cell_hppc_data.py:76-82 | The pulse tuple is `ids[0::5]`, `ids[1::5]`, `ids[2::5]`, each taken to the end of the marker list, with `id1 = id0 + 1` and `id3 = id2 + 1`. |
| Segments.DischargeIndices | ecm/cell_hppc_data.py:99-105 | The long-discharge tuple is `ids[3::5][:-1]`, `ids[4::5]`, `ids[5::5]` with the successor arrays; `id0` has one entry fewer than `ids[3::5]`. |
| Segments.PulseGroupsOrdered | ecm/cell_hppc_data.py:76-81 | For increasing markers, the pulse arrays shrink by at most one entry from id0 to id4, and every complete group has `id0 < id1 <= id2 < id3 <= id4`. |
| Segments.DischargeGroupsComplete | ecm/cell_hppc_data.py:99-104 | Dropping the last `ids[3::5]` entry leaves an id2 and an id4 for every id0, and every group is ordered. |
| Logs.Slice | ecm/cell_hppc_data.py:118-121 | Slicing all four columns with the same bounds keeps exactly those rows of each, in order. |
| Logs.FromSecondMarker | ecmlib/hppc_data.py:37-41 | The cut from the second start/stop marker succeeds exactly when there are two markers; it keeps the suffix unchanged and starts on an `S` row. |
| CellHppcData.GetIds | ecm/cell_hppc_data.py:36-47 | Exactly the rows flagged `S`, strictly increasing. |
| CellHppcData.GetIdq | ecm/cell_hppc_data.py:49-59 | Exactly the rows flagged `Q`. |
| CellHppcData.GetIdx | ecm/cell_hppc_data.py:61-82 | The pulse layout of the markers, with at most one incomplete trailing group and every complete group ordered. |
| CellHppcData.GetIdrc | ecm/cell_hppc_data.py:84-105 | The long-discharge layout, every group complete and ordered. |
| CellHppcData.Process | ecm/cell_hppc_data.py:107-123 | All four columns are cut from `ids[1]` to the end; the cut fails exactly when there are fewer than two markers, and the kept log starts on an `S` row. |
| BatteryData.GetIds | ecmlib/battery_data.py:36-47 | Exactly the rows flagged `S`, strictly increasing. |
| BatteryData.GetIdq | ecmlib/battery_data.py:49-59 | Exactly the rows flagged `Q`. |
| BatteryData.GetIdx | ecmlib/battery_data.py:61-81 | Offsets 0, 1, 2 with stride 5 and successor arrays; each complete group is ordered. |
| BatteryData.GetIdrc | ecmlib/battery_data.py:83-103 | Offsets 3, 4, 5 with stride 5 and `len(id0) = len(ids[3::5]) - 1`; every group is complete and ordered. |
| HppcData.Init | ecmlib/hppc_data.py:31-41 | The stored log is the parsed log from its second `S` row on, unchanged in order and value; fewer than two markers is an error. |
| HppcData.ProcessData | ecmlib/hppc_data.py:43-54 | Repeating the cut on the stored arrays succeeds exactly when they hold two markers. It keeps all four columns from the stored log's second `S` row to the end, so the result starts on an `S` row and is always shorter. |
| HppcData.ProcessDataNotIdempotent | ecmlib/hppc_data.py:37-54 | On a freshly built object, `process_data` never returns that same log: the cut is not idempotent. |
| CellDischargeData.Load | ecm/cell_discharge_data.py:32-38 | A freshly built object keeps the parsed columns, with `ti = tf = 0`. |
| CellDischargeData.GetIds | ecm/cell_discharge_data.py:40-51 | Exactly the rows flagged `S`, strictly increasing. |
| CellDischargeData.GetIdx | ecm/cell_discharge_data.py:53-81 | The section is markers 3..6 when the peak absolute current exceeds 35 A, else markers 2..5, strictly increasing. An empty current column or too few markers is an error. |
| CellDischargeData.Cut | ecm/cell_discharge_data.py:93-97 | Rows lo..hi of current and voltage; `ti` and `tf` are the window's end times. The flags column is untouched. Time is rebased to its minimum or to its first sample, keeping every time difference. |
| CellDischargeData.Process | ecm/cell_discharge_data.py:83-99 | Keeps rows id0..id2 inclusive. `ti = time[id0]`, `tf = time[id2]`, and the rebased time has minimum 0. The flags are not cut. Fails exactly when `get_idx` fails. |
| CellDischargeData.ProcessDischargeOnly | ecm/cell_discharge_data.py:101-116 | Keeps rows id0..id1 inclusive. `ti = time[id0]`, `tf = time[id1]`, and the rebased time starts at 0. |
| CellDischargeData.RebaseToMin | ecm/cell_discharge_data.py:97 | Subtracting the window minimum gives a non-negative timebase that reaches 0 and keeps all differences. |
| CellDischargeData.RebaseToFirst | ecm/cell_discharge_data.py:114 | Subtracting the first time gives a timebase starting at 0 that keeps all differences. |
| CellTemperatureData.Max3 | ecm/cell_temperature_data.py:35 | The largest of three readings bounds them and is one of them. |
| CellTemperatureData.Min3 | ecm/cell_temperature_data.py:37 | The smallest of three readings is bounded by them and is one of them. |
| CellTemperatureData.Nearest | ecm/cell_temperature_data.py:43-44 | `argmin(abs(t - time))` is a sample nearest to t, and no earlier sample is as near: ties go to the lower index. |
| CellTemperatureData.Init | ecm/cell_temperature_data.py:30-44 | The channels are kept. Per sample, tmax and tmin are among tc1..tc3 and bound them, and tavg is their mean, between the two; tc4 takes no part. `time[k] = 3k`. id0 and id1 are the nearest samples to ti and tf. An empty log is an error. |
| CellTemperatureData.NearestMonotone | ecm/cell_temperature_data.py:40-44 | On the 3 s grid, `ti <= tf` implies `id0 <= id1`. |
| CellTemperatureData.Cut | ecm/cell_temperature_data.py:69-76 | The same rows of all seven data series, and a timebase rebased to start at 0 that keeps the grid spacing. |
| CellTemperatureData.Process | ecm/cell_temperature_data.py:46-78 | If `id0 != id1`, keeps samples id0..id1 of every series. If they are equal, keeps samples 0..max_id, max_id being the first index of the largest tc2 reading. `id0 > id1` is an error. All eight series keep one length. |
| ModuleHppcData.Rows | ecm/module_hppc_data.py:55-59 | All five columns keep exactly rows lo..hi-1. |
| ModuleHppcData.Load | ecm/module_hppc_data.py:36-59 | With `all_data`, every row is kept. Otherwise rows `ids[21]..ids[76]` inclusive are kept in all five columns; the window opens and closes on an `S` row. Fewer than 77 markers is an error. |
| DriveCycle.FirstIndexOf | ecm/pack_us06_data.py:37 | `np.where(time == x)[0][0]` is present exactly when x occurs, holds x, and no earlier sample holds x. |
| PackUs06Data.Load | ecm/pack_us06_data.py:18-43 | With `all_data`, every row is kept. Otherwise rows 0..idx of all six columns are kept: the last time is 600 and no earlier time is. No sample at 600 is an error. |
| ModulesData.Process | ecm/modules_data.py:24-32 | Time, current and voltage keep rows 0..idx, ending at the first 600 s sample. The other eight columns are untouched. No sample at 600 is an error. |
| Coulomb.Soc | ecmlib/state_of_charge.py:34-48 | One SOC per current sample; `z[0] = 1`; each `z[k]` is 1 plus the sum of the increments `eta i[j] dt / (3600 q)` for j = 1..k. |
| Coulomb.IncrementNonPositive | ecmlib/state_of_charge.py:42-46 | A discharge or idle sample with non-negative `eta_dis` and forward time never raises SOC. |
| Coulomb.IncrementNonNegative | ecmlib/state_of_charge.py:42-46 | A charge or idle sample with non-negative `eta_chg` and forward time never lowers SOC. |
| Coulomb.SocNonIncreasing | ecm/module_ecm.py:133-140 | With every current <= 0, non-decreasing time, `eta_dis >= 0` and positive capacity, SOC is non-increasing. |
| Coulomb.SocNonDecreasing | ecmlib/state_of_charge.py:40-46 | With every current >= 0, non-decreasing time, `eta_chg >= 0` and positive capacity, SOC is non-decreasing. |
| Coulomb.SocIdle | ecmlib/state_of_charge.py:38-46 | An all-zero current keeps SOC at exactly 1. |
| Coulomb.EtaChgOnlyWhenCharging | ecm/module_ecm.py:133-137 | When no sample is strictly positive, SOC does not depend on the charge efficiency at all: a zero sample counts as discharge. |
| Coulomb.SocNotClamped | ecmlib/state_of_charge.py:46 | SOC is not clamped: one hour of 1 A into a 1 Ah cell at unit efficiency reaches 2. |
| OpenCircVoltage.Reverse | ecmlib/open_circ_voltage.py:22 | `s[::-1]` keeps the length and puts element `n-1-k` at k. |
| OpenCircVoltage.ReverseOfDecreasing | ecmlib/open_circ_voltage.py:22 | Reversing strictly decreasing SOC anchors gives the strictly increasing grid `np.interp` needs. |
| OpenCircVoltage.InterpAbove | ecmlib/open_circ_voltage.py:22 | `np.interp` returns the last value at or past the last anchor. |
| OpenCircVoltage.InterpOnSegment | ecmlib/open_circ_voltage.py:22 | Between anchors j and j+1, both included, `np.interp` is the straight line through them. |
| OpenCircVoltage.InterpAtKnot | ecmlib/open_circ_voltage.py:22 | At an anchor, `np.interp` returns that anchor's value exactly. |
| OpenCircVoltage.Interp | ecmlib/open_circ_voltage.py:22 | `np.interp` for one point: below the first anchor it is `fp[0]`, numpy's default `left`. Its domain is non-decreasing anchors; the lemmas of this module pin it down on strictly increasing ones. |
| OpenCircVoltage.InterpAtLastCopy | ecmlib/open_circ_voltage.py:22 | On non-decreasing anchors, a repeated anchor gives the value of its last copy, as numpy's search for the last anchor at or below x does. |
| OpenCircVoltage.InterpWithinValues | ecmlib/open_circ_voltage.py:22 | For any anchors, the interpolated value lies within the range of the anchor values. |
| OpenCircVoltage.LerpBetween | ecmlib/open_circ_voltage.py:22 | A point of a segment lies between the segment's end values. |
| OpenCircVoltage.Ocv | ecmlib/open_circ_voltage.py:4-24 | One voltage per SOC value; fails exactly when the anchors are empty or of different lengths. |
| OpenCircVoltage.OcvAtAnchor | ecmlib/open_circ_voltage.py:22 | With strictly decreasing SOC anchors, an SOC equal to anchor j gives voltage j: reversing both arrays together keeps each pair. |
| OpenCircVoltage.OcvClamps | ecmlib/open_circ_voltage.py:22 | An SOC at or above the first anchor gives the first voltage; at or below the last anchor, the last voltage. |
| OpenCircVoltage.OcvBetweenAnchors | ecmlib/open_circ_voltage.py:22 | An SOC between anchors j+1 and j gives a voltage between voltages j+1 and j inclusive. |
| OpenCircVoltage.Pick | ecmlib/hppc_ecm.py:33-36 | `np.append(x[ids], x[-1])` is x at every marker followed by x's final sample. |
| OpenCircVoltage.OcvPoints | ecmlib/hppc_ecm.py:27-37 | The four anchor arrays are current, time, voltage and SOC at every marker plus the final sample. An empty column or an out-of-range marker is an error. |
| SocBins.NearestBin | ecmlib/voltage_ecm.py:9-11 | The chosen bin's centre is nearest to z, and no earlier (higher-SOC) centre is as near. |
| SocBins.BinFrom | ecmlib/voltage_ecm.py:10-11 | Reference choice by boundaries: the first bin whose lower boundary is at most z, otherwise the last bin. |
| SocBins.FirstNearestUnique | ecmlib/voltage_ecm.py:11 | The first nearest centre is unique. |
| SocBins.NearestBinByBoundaries | ecmlib/voltage_ecm.py:10-11 | The nearest-centre choice equals the boundary choice for every SOC; a boundary SOC goes to the bin above. |
| SocBins.NearestBinClamps | ecmlib/equiv_circ_model.py:227-237 | SOC >= 0.9 selects row 0, and SOC <= 0.1 selects row 8. |
| SocBins.NearestBinTieGoesUp | ecm/module_ecm.py:84-94 | An SOC exactly halfway between two centres selects the higher-SOC row. |
| SocBins.GetRtau | ecmlib/voltage_ecm.py:4-19 | Columns tau1, tau2, r0, r1, r2 of the nearest row; a table without that row is an error. |
| RcParams.FuncOtc | ecmlib/hppc_ecm.py:131-136 | The one-time-constant curve is worth `a - b` at t = 0, and `a` once its exponential vanishes. |
| RcParams.FuncTtc | ecmlib/hppc_ecm.py:138-143 | The two-time-constant curve is worth `a - b - c` at t = 0, and is the one-time-constant curve less `c e^(-beta t)`. |
| RcParams.TimeConstant | ecm/module_ecm.py:276-277 | `tau = 1/alpha` satisfies `tau alpha = 1` and is nonzero. |
| RcParams.BranchLaws | ecm/module_ecm.py:279-282 | `r = b / ((1 - e) di)` is nonzero, and with `c = tau / r` the branch satisfies `r (1 - e) di = b` and `c r = tau`. |
| RcParams.BranchRowLaws | ecm/module_ecm.py:276-284 | A row built from two time constants keeps them, has `r0 di = dv`, and both branches satisfy their law. |
| RcParams.MakeRowLaws | ecmlib/hppc_ecm.py:113-127 | A derivable step gives `tau1 alpha = 1`, `tau2 beta = 1`, `r0 di = dv` with `r0 >= 0`, `c1 r1 = tau1` and `c2 r2 = tau2`, and each branch reproduces its fitted coefficient. |
| RcParams.DeriveRow | ecmlib/hppc_ecm.py:108-127 | A row is produced exactly when every division is by a nonzero value; otherwise the row is reported degenerate. |
| RcParams.DeriveRowLaws | ecmlib/equiv_circ_model.py:198-219 | A derived row satisfies the RC laws with `|di|`, `|dv|` and the pulse-to-rest time of its step. |
| RcParams.RowAt | ecmlib/hppc_ecm.py:108-127 | Iteration k fails for a missing marker, sample or coefficient row. Where all exist, it succeeds exactly when the step is derivable, and the row is the one derived from those samples. |
| RcParams.Table | ecmlib/hppc_ecm.py:108-129 | The table has exactly one row per `id0` entry, row k being iteration k; otherwise the first failing iteration's error. |
| RcParams.TableRowLaws | ecmlib/hppc_ecm.py:113-127 | Every row of a computed table satisfies the RC laws with the data at its own markers and its own coefficient row. |
| RcParams.DeriveRowIgnoresOffset | ecmlib/hppc_ecm.py:117 | The fitted offset `a` does not affect a derived row. |
| RcParams.RowAtIgnoresOffset | ecmlib/hppc_ecm.py:117 | Changing column 0 of the coefficients changes no loop iteration. |
| RcParams.TableIgnoresOffset | ecmlib/hppc_ecm.py:108-129 | Two coefficient tables that agree on b, c, alpha and beta give the same RC table. |
| RcParams.PySlice | ecm/module_ecm.py:218-220 | Python slicing clamps both bounds to the length and is empty once lo reaches hi; it keeps the elements in order. |
| RcParams.FitProblemAt | ecm/module_ecm.py:215-226 | One fit window succeeds exactly when it has an end marker, ncoeff is 3 or 5, its time slice is not empty and its voltage slice has the same length. The errors come in the source's order: a missing end marker, then the `t[0]` IndexError of an empty window, then the unbound `guess` of a bad ncoeff. |
| RcParams.FitProblemPosed | ecmlib/equiv_circ_model.py:153-162 | A successful window holds the time rows from its start, rebased to 0, with the matching voltage rows, and a guess that starts with the window's last voltage. |
| RcParams.FitProblems | ecmlib/equiv_circ_model.py:150-165 | The fit loop yields one window per iteration, in order, exactly when every window has its end marker and fits, and ncoeff is 3 or 5. |
| RcParams.FitProblemsPosed | ecmlib/hppc_ecm.py:57-74 | Every window of a successful fit loop is posed over its own start and end markers. |
| TwoRc.LookupStep | ecmlib/voltage_ecm.py:37 | Step k has its RC row exactly when there is an SOC sample for it and the table has the row of its bin. |
| TwoRc.LookupSteps | ecm/module_ecm.py:298-302 | The loop's RC lookups succeed exactly when every step 1..m has its row, and entry j is the row of `soc[j+1]`. |
| TwoRc.LookupKeepsTaus | ecmlib/voltage_ecm.py:37-50 | Rows looked up from a table with nonzero time constants have nonzero time constants. |
| TwoRc.TracksStep | ecmlib/voltage_ecm.py:33-50 | One loop pass extends the three arrays by the next sample of the recurrence. |
| TwoRc.Advance | ecmlib/voltage_ecm.py:34-50 | One loop pass: `v0[k] = r0 i`, and both branches advance over `time[k] - time[k-1]` with the step's row. |
| TwoRc.Run | ecmlib/equiv_circ_model.py:255-266 | The three loop arrays start from rest and follow the series drop and both branch recurrences at every sample. |
| TwoRc.Simulate | ecm/module_ecm.py:288-318 | One voltage per current sample; `vt[0] = ocv[0]`; `vt[k]` is ocv plus the series drop and both branch voltages. |
| TwoRc.VEcm | ecmlib/voltage_ecm.py:22-53 | An IndexError exactly when some loop step k lacks its SOC sample, its table row or its time step `dt[k-1]`. Otherwise a ValueError exactly when `ocv` does not broadcast against the loop arrays. On success the result follows numpy broadcasting. A one-sample run gives `ocv` itself. Otherwise there is one voltage per sample, starting at `ocv[0]`. Each is the (broadcast) OCV plus the overpotential under the looked-up rows. |
| TwoRc.ZeroCurrentRests | ecmlib/voltage_ecm.py:33-52 | With no current at any sample, both branches stay at rest and the voltage equals the OCV throughout. |
| TwoRc.BranchFixedPoint | ecmlib/voltage_ecm.py:43-45 | Under constant current and parameters, `r i` is a fixed point of the branch update. |
| TwoRc.BranchStepLinear | ecmlib/voltage_ecm.py:43-50 | The branch update is linear in the branch voltage and the current together. |
| TwoRc.StepScaled | ecmlib/voltage_ecm.py:43-50 | Scaling the state and the current by c scales the next state by c. |
| TwoRc.ScaledBranches | ecmlib/voltage_ecm.py:33-50 | Scaling every current by c scales both branch voltages by c at every sample. |
| TwoRc.ScaledCurrent | ecmlib/voltage_ecm.py:33-52 | For fixed rows, scaling the current by c scales `vecm - ocv` by c. |
| TwoRc.Causal | ecmlib/equiv_circ_model.py:255-266 | The voltage at sample k depends on the current only up to sample k. |
| ThermalModel.CalcQ | ecm/thermal_model.py:129-156 | An IndexError exactly when the current or OCV array is shorter than `len(vt) - 1`. Otherwise one heat value per voltage sample: none at sample 0, and `i[n] (vt[n] - ocv[n])` at sample n+1. |
| ThermalModel.TracksStep | ecm/thermal_model.py:189-194 | One loop pass extends the heat and temperature arrays by the next Euler step. |
| ThermalModel.CalcQTemp | ecm/thermal_model.py:158-196 | `tk[0] = ti` and `q_gen[0] = 0`. Every temperature is the forward-Euler history from ti. Each `q_gen[n+1]` is `calc_q`'s heat plus the convective term `h sa (tf - tk[n])`. No voltage sample is an error. |
| ThermalModel.AmbientFixedPoint | ecm/thermal_model.py:189-194 | With no current, a body at ambient temperature stays at ambient for the next step. |
| ThermalModel.RelaxesTowardAmbient | ecm/thermal_model.py:189-194 | With no current and positive h, sa, m, cp and dt, the temperature rises exactly when below ambient and falls exactly when above. |
| ThermalModel.SignOfStep | ecm/thermal_model.py:194 | The Euler step has the sign of `tf - t` for positive coefficients. |
| ThermalModel.IdleAtAmbient | ecm/thermal_model.py:182-196 | With no current at any step, a body that starts at ambient stays at ambient. |
| ModuleEcm.Ocv | ecm/module_ecm.py:142-188 | With `pts`, the anchors come from the data and are returned. Otherwise caller anchors, when given, are used alone. Otherwise the data's own anchors are used. Each branch fails only on its own out-of-range markers or empty arrays. |
| ModuleEcm.DefaultMatchesPoints | ecm/module_ecm.py:171-188 | The default and `pts=True` branches give identical OCV. |
| ModuleEcm.PointsBranchIgnoresAnchors | ecm/module_ecm.py:171-179 | With `pts=True`, caller anchors are ignored. |
| ModuleEcm.GivenAnchorsIgnoreData | ecm/module_ecm.py:179-182 | With caller anchors only, nothing of the module log is read. |
| ModuleEcm.OcvAtMarkers | ecm/module_ecm.py:184-188 | With strictly falling anchor SOC, the data-anchored OCV equals the measured voltage at every `idd[0]` marker. |
| ModuleEcm.CurveFitInputs | ecm/module_ecm.py:190-228 | One fit window per group but the last of `id2`, produced exactly when ncoeff is 3 or 5 and every window `id2[i]` .. `id4[i]` inclusive has its `id4` entry and fits. A bad ncoeff is an error as soon as there is a window. |
| ModuleEcm.CurveFitWindows | ecm/module_ecm.py:215-226 | Window i is rows `id2[i]..id4[i]` inclusive, time rebased to 0, with the module's initial guess. |
| ModuleEcm.RctauTtc | ecm/module_ecm.py:230-286 | The last index of id0, id1 and id2 is deleted first, so the table has `len(idd[0]) - 1` rows. Empty arrays are errors. The table is produced exactly when every iteration over the shortened arrays finds its markers, samples and coefficients and its step is derivable. Row k satisfies the RC laws with group k. |
| ModuleEcm.RowsKeepGroups | ecm/module_ecm.py:261-284 | After the deletion, row k still comes from group k of the original `idd`. |
| ModuleEcm.Temps | ecm/module_ecm.py:327-335 | The temperatures start at ti and form a forward-Euler history. |
| ModuleEcm.TempsStep | ecm/module_ecm.py:330-335 | The thermal recurrence at every sample is one Euler step from the one before. |
| ModuleEcm.CalcTemperature | ecm/module_ecm.py:320-337 | `temps[0] = ti`; each next temperature adds irreversible and convective heat over `m cp`. Fails exactly for an empty current or short `ocv`, `vt` or `time`. |
| ModuleEcm.CoversPrefix | ecm/module_ecm.py:330 | Arrays long enough for n steps are long enough for fewer. |
| ModuleEcm.IdleModuleStaysAtAmbient | ecm/module_ecm.py:324-337 | With zero current, a module starting at `tinf` stays at `tinf` at every sample. |
| EquivCircModel.Soc | ecmlib/equiv_circ_model.py:44-91 | One SOC per sample, each 1 plus the counted charge. |
| EquivCircModel.PulseMarkersInsideLog | ecmlib/equiv_circ_model.py:36-40 | Every pulse marker indexes every column of the log. |
| EquivCircModel.Points | ecmlib/equiv_circ_model.py:32-41 | Four anchor arrays of length `len(id0) + 1`, each x at the pulse markers then the final sample. Only an empty log fails. |
| EquivCircModel.Ocv | ecmlib/equiv_circ_model.py:94-115 | One OCV per sample; only an empty log fails. |
| EquivCircModel.OcvThroughMarkers | ecmlib/equiv_circ_model.py:113-115 | With strictly falling anchor SOC, the OCV equals the measured voltage at every pulse marker and at the final sample. |
| EquivCircModel.OcvClampsOutsideAnchors | ecmlib/equiv_circ_model.py:113-115 | OCV clamps to the end voltages outside the anchor SOC range. |
| EquivCircModel.DischargeMarkersInsideLog | ecmlib/equiv_circ_model.py:198-205 | Every `get_idrc` marker lies inside the log, so a row can fail only for its coefficients or a degenerate step. |
| EquivCircModel.RctauTtc | ecmlib/equiv_circ_model.py:167-219 | One row per `get_idrc` group, none dropped. The table is produced exactly when every group's iteration succeeds, and each row satisfies the RC laws with its group. |
| EquivCircModel.TableRows | ecmlib/equiv_circ_model.py:205-217 | Every row of the table satisfies the RC laws with its own group. |
| EquivCircModel.CurveFitInputs | ecmlib/equiv_circ_model.py:131-165 | One fit window per `id2` group, produced exactly when ncoeff is 3 or 5 and every window `id2[i]` up to `id4[i]` has its `id4` entry and fits. A bad ncoeff is an error as soon as there is a window. |
| EquivCircModel.CurveFitWindows | ecmlib/equiv_circ_model.py:150-162 | Window i is rows `id2[i]` up to but excluding `id4[i]`, time rebased to 0, with the cell's initial guess. |
| HppcEcm.Points | ecmlib/hppc_ecm.py:27-37 | Anchors at every pulse marker plus the final sample, the SOC given by the caller; an SOC vector too short for a marker is an error. |
| HppcEcm.PointsAgree | ecmlib/hppc_ecm.py:32-37 | Given the SOC that `EquivCircModel` computes, both `points` give the same anchors. |
| CurrentSplit.Ratio | ecm/driver/run_pack_ecm_discharge.py:82 | `ocv / r0` elementwise: each entry times its resistance is the OCV. |
| CurrentSplit.Recip | ecm/driver/run_pack_ecm_discharge.py:82 | `1 / r0` elementwise: positive conductances. |
| CurrentSplit.SumPositive | ecm/driver/run_pack_ecm_discharge.py:82 | The total conductance of a non-empty stage is positive, so the stage voltage is defined. |
| CurrentSplit.SumAffine | ecm/driver/run_pack_ecm_discharge.py:82-83 | `np.sum` is linear: if `c = a - v b` elementwise, then `sum c = sum a - v sum b`. |
| CurrentSplit.SumConstant | examples/cell-to-module/hppc_vt1.py:65-66 | A stage of n equal currents x sums to `n x`. |
| CurrentSplit.StageVoltage | ecm/driver/run_pack_ecm_discharge.py:82 | The stage voltage balances the currents: `v sum(1/r0) = sum(ocv/r0) - i`. |
| CurrentSplit.StageCurrents | ecm/driver/run_pack_ecm_discharge.py:83 | Each cell's current times its resistance is `ocv - v`: every cell sees the same stage voltage. |
| CurrentSplit.StageConserves | ecm/driver/run_pack_ecm_discharge.py:81-83 | The cell currents of a stage add up exactly to the stage current. |
| CurrentSplit.EvenSplit | examples/cell-to-pack/discharge_6cells_vt.py:62-72 | With equal ocv and r0 across a stage, each cell carries `i / n_parallel`. |
| CurrentSplit.PackCurrents | ecm/driver/run_pack_ecm_discharge.py:79-83 | `i_cells[0]` is all zeros; for every k >= 1 and stage s the cells carry the balanced split, and their sum is `i_pack[k]`. |
| CurrentSplit.CellDivMod | ecm/driver/run_pack_ecm_discharge.py:85 | Row `s n_parallel + p` is stage s, position p. |
| CurrentSplit.CellOf | ecm/driver/run_pack_ecm_discharge.py:85 | Every flattened row belongs to exactly one cell. |
| CurrentSplit.Flatten | ecm/driver/run_pack_ecm_discharge.py:85 | For a non-empty history (`i_cells[0]` must exist), `transpose(1, 2, 0).reshape` gives one row per cell, each as long as the history. |
| CurrentSplit.FlattenCell | ecm/driver/run_pack_ecm_discharge.py:85 | Row `s n_parallel + p` at sample k is cell (s, p) at sample k: flattening loses nothing. |
| CurrentSplit.FlattenStage | examples/cell-to-pack/us06_6cells_vt.py:81 | Each stage reads back unchanged from the flattened rows. |
| CurrentSplit.MeanR0 | ecm/driver/run_pack_ecm_discharge.py:74 | The mean of the r0 column times the row count is the column's sum; an empty table is an error. |
| CurrentSplit.MeanR0Positive | ecm/driver/run_pack_ecm_discharge.py:74 | Rows with positive r0 have a positive mean. |
| CurrentSplit.Fill | ecm/driver/run_pack_ecm_discharge.py:74 | `x * np.ones((n_series, n_parallel))` holds x in every cell of the grid. |
| CurrentSplit.OcvCells | examples/cell-to-pack/discharge_6cells_vt.py:62 | The cell OCVs are each stage's initial SOCs interpolated against the reversed anchors. |
| CurrentSplit.SplitStage | examples/cell-to-pack/us06_6cells_vt.py:77-81 | Read back from the flattened rows, a stage carries the stage current in total, and an even share when its cells agree. |
| CurrentSplit.EvenStageOcv | examples/cell-to-pack/us06_6cells_vt.py:69 | Cells of a stage that start at one SOC start at one OCV. |
| CurrentSplit.FlattenedSplit | ecm/driver/run_pack_ecm_discharge.py:79-85 | The flattened split of a non-empty history has one row per cell and is zero at sample 0. Every stage sums to the pack current, evenly when its cells start at one SOC. |
| CurrentSplit.SplitPack | ecm/driver/run_pack_ecm_discharge.py:73-85 | The whole split (cell OCVs, mean r0, balanced split, flattening) succeeds exactly with usable anchors, a non-empty table and a non-empty pack current. An empty pack current is the IndexError of `i_cells[0]`. For any initial SOCs, every stage at every sample after the first is the balanced split of the pack current: each cell's current times the mean `r0` is its OCV less the shared stage voltage. The stage carries the pack current in total, and shares it evenly when its cells start at one SOC. |
| PackScripts.ScaledSplit | examples/cell-to-pack/discharge_6cells_vt.py:56-74 | Succeeds exactly with usable anchors, a non-empty table and a non-empty current. An empty current is the IndexError of `i_cells[0]`. For any grid size and any initial SOCs, with `i_pack = 3 × current`, every stage is the balanced split of three times the cell current after sample 0. It carries that current in total, with an equal share per cell when the stage starts at one SOC. |
| PackScripts.SixCells | examples/cell-to-pack/us06_6cells_vt.py:56-81 | Succeeds exactly with usable anchors, a non-empty table and a non-empty current. Two stages of three cells give six rows. For any initial SOCs, each stage after sample 0 is the balanced split of the 3C pack current over its own cell OCVs and the mean `r0`, and carries that current in total. A stage whose cells start at one SOC gives each cell exactly the 1C current. |
| ModuleScript.InitialSoc | examples/cell-to-module/hppc_vt1.py:55 | `np.ones((2, 2))`: every stage starts at one SOC. |
| ModuleScript.CellCurrents | examples/cell-to-module/hppc_vt1.py:43-68 | Succeeds exactly with usable anchors, a non-empty table and a non-empty module current. Every one of the four cells carries half the module current after sample 0 and nothing at sample 0: the even split the script assumes. |
| ModuleScript.UniformOcv | examples/cell-to-module/hppc_vt1.py:55-56 | With every cell full and the first anchor at or below SOC 1, every cell's OCV is the first anchor voltage. |
| ModuleScript.ModuleVoltage | examples/cell-to-module/hppc_vt1.py:80 | `v_module = n_series × v_cells[0]`; no cell rows is an error. |
| ModuleScript.ModuleVoltageFirstCellOnly | examples/cell-to-module/hppc_vt1.py:80 | Only the first cell's voltage reaches the module voltage. |

## Left out

- CSV parsing (every `pd.read_csv` in the loaders): the loaders take
  already-parsed columns.
- Flag columns are modelled as one character per row (a blank when the row
  marks no event); pandas' `fillna(' ')` is assumed done.
- The `curve_fit` optimiser: it is a foreign library call. Its coefficient
  rows are inputs to `rctau_ttc`. Only the windows and guesses handed to it
  are modelled.
- `ThermalModel.solve_tc_ts`: it calls an ODE solver and reads attributes
  that are never assigned.
- `EquivCircModel.therm`: its last loop pass indexes past the end of `dt` and
  `temp`, an IndexError on every log of two or more samples. A one-sample log
  only yields its starting temperature `tc4[0] + 273.15`.
- Plotting, console printing, the command-line entry points and the parameter
  modules (constants only; they become parameters here).
- The orchestration over the `CellEcm` class and the scripts built on it: that
  class is not part of this model.
- `get_indices_discharge`, which yields `ModuleEcm`'s `idd`: it is not part of
  this model, so `idd` is an input.
- The random initial SOCs `np.random.uniform(0.95, 1.00, …)`: `zi` is a
  parameter.
- The scripts' per-cell loops that run `soc`, `ocv`, `vt` and `calc_q_temp`
  on each flattened row: they compose members modelled here
  (`Coulomb.Soc`, `ModuleEcm.Ocv`, `TwoRc.VEcm`, `ThermalModel.CalcQTemp`)
  and add nothing of their own.
- The printed conservation check of the discharge script: it is output. Its
  claim is `CurrentSplit.StageConserves`.
- `exp` is a parameter, not the exponential function. Facts about it (such as
  `exp(0) = 1`) are taken as preconditions where needed.
- Floating point in general is not modelled: reals are exact.
- The SOC grid `np.arange(0.1, 1.0, 0.1)` is taken as the exact centres
  0.9 … 0.1, not as its inexact floating-point values.
- Division by zero: numpy's `inf`/`nan` results become `Err`. This covers a
  zero current step, a zero fitted rate, or a zero branch denominator in
  `rctau_ttc`, and the mean of an empty table.
- `np.interp` on anchors that are not non-decreasing: numpy's binary search
  is not the left-to-right scan of `OpenCircVoltage.Interp`, and nothing
  is proved there beyond `InterpWithinValues`.
- Coulomb.Soc: requires a non-zero capacity and the time array to be at least as long as the current
  array when there is more than one sample. A shorter time array raises an
  IndexError in the source, and that error path is not modelled.
- TwoRc.Simulate: requires non-zero time constants in the rows; with a zero
  `tau` numpy divides by zero, and this is not modelled.
- TwoRc.VEcm: requires non-zero time constants in every table row, for the
  same reason. Rows made by `RcParams.DeriveRow` always have them.
  `ocv` is taken as an array; a scalar `ocv`, which numpy would also
  broadcast, is not modelled.
- ThermalModel.CalcQTemp: requires `m cp` to be non-zero, and requires the
  current, OCV and time arrays to be at least as long as the voltage array
  needs. The source's IndexError for shorter arrays is not modelled.
- ModuleEcm.CalcTemperature: requires `m cp` to be non-zero. With zero,
  numpy would divide by zero. The scripts pass the positive constants of
  `ecm/params.py`.
- CurrentSplit.SplitPack: requires positive series resistances in every
  table row; a zero or negative `r0` would make numpy divide by zero or give
  negative conductances.

=== FILE: bins.dfy ===
/** Choice of the RC row for a state of charge (`get_rtau` in ecm/module_ecm.py
    and ecmlib/equiv_circ_model.py, `_get_rtau` in ecmlib/voltage_ecm.py): the
    row whose SOC centre, on the grid 0.9, 0.8, ..., 0.1, is nearest. */
module SocBins {
  import opened Outcome
  import opened Numeric
  import opened RcParams

  /** Number of 10 % SOC sections with an RC row. */
  const Bins: nat := 9

  /** Half the spacing of the centres: the distance from a centre to the
      boundary of its bin. */
  const HalfStep: real := 0.05

  /** Centre j of `np.arange(0.1, 1.0, 0.1)[::-1]`, taken exactly: 0.9 for j = 0
      down to 0.1 for j = 8. */
  function Centre(j: nat): real
    requires j < Bins
  {
    (9 - j) as real / 10.0
  }

  /** `abs(soc - z).argmin()`: the first bin whose centre is nearest to z, so a
      tie goes to the bin of higher SOC. */
  function NearestBin(z: real): (idx: nat)
    ensures idx < Bins
    ensures forall j :: 0 <= j < Bins ==> Abs(Centre(idx) - z) <= Abs(Centre(j) - z)
    ensures forall j :: 0 <= j < idx ==> Abs(Centre(j) - z) > Abs(Centre(idx) - z)
  {
    var d := seq(Bins, j requires 0 <= j < Bins => Abs(Centre(j) - z));
    assert forall j :: 0 <= j < Bins ==> d[j] == Abs(Centre(j) - z);
    ArgMin(d)
  }

  /** Reference definition by boundaries: the first bin j whose lower boundary
      `Centre(j) - 0.05` is at most z, else the last bin. */
  function BinFrom(z: real, j: nat): (idx: nat)
    requires j < Bins
    ensures j <= idx < Bins
    ensures idx < Bins - 1 ==> z >= Centre(idx) - HalfStep
    ensures forall i :: j <= i < idx ==> z < Centre(i) - HalfStep
    decreases Bins - j
  {
    if j == Bins - 1 || z >= Centre(j) - HalfStep then j else BinFrom(z, j + 1)
  }

  /** Two indices that are both a first nearest centre are the same index. */
  lemma FirstNearestUnique(z: real, a: nat, b: nat)
    requires a < Bins && b < Bins
    requires forall j :: 0 <= j < Bins ==> Abs(Centre(a) - z) <= Abs(Centre(j) - z)
    requires forall j :: 0 <= j < a ==> Abs(Centre(j) - z) > Abs(Centre(a) - z)
    requires forall j :: 0 <= j < Bins ==> Abs(Centre(b) - z) <= Abs(Centre(j) - z)
    requires forall j :: 0 <= j < b ==> Abs(Centre(j) - z) > Abs(Centre(b) - z)
    ensures a == b
  {
    assert Abs(Centre(a) - z) <= Abs(Centre(b) - z);
    assert Abs(Centre(b) - z) <= Abs(Centre(a) - z);
  }

  /** The nearest-centre choice and the boundary choice agree for every z; in
      particular z on a boundary goes to the bin above it. */
  lemma NearestBinByBoundaries(z: real)
    ensures NearestBin(z) == BinFrom(z, 0)
  {
    var t := BinFrom(z, 0);
    forall j | 0 <= j < Bins
      ensures Abs(Centre(t) - z) <= Abs(Centre(j) - z)
      ensures j < t ==> Abs(Centre(j) - z) > Abs(Centre(t) - z)
    {
      if j < t {
        assert z < Centre(t - 1) - HalfStep;
        assert Centre(j) >= Centre(t - 1);
      } else if j > t {
        assert t < Bins - 1;
        assert Centre(j) <= Centre(t + 1);
      }
    }
    FirstNearestUnique(z, NearestBin(z), t);
  }

  /** SOC at or above 0.9 selects row 0, at or below 0.1 row 8. */
  lemma NearestBinClamps(z: real)
    ensures z >= 0.9 ==> NearestBin(z) == 0
    ensures z <= 0.1 ==> NearestBin(z) == Bins - 1
  {
    NearestBinByBoundaries(z);
  }

  /** An SOC halfway between two centres selects the higher-SOC row. */
  lemma NearestBinTieGoesUp(j: nat)
    requires j < Bins - 1
    ensures NearestBin(Centre(j) - HalfStep) == j
  {
    var z := Centre(j) - HalfStep;
    NearestBinByBoundaries(z);
    assert forall i :: 0 <= i < j ==> Centre(i) - HalfStep > z;
  }

  /** Columns 0-4 of an RC row: what the voltage recurrence needs. */
  datatype Rtau = Rtau(tau1: real, tau2: real, r0: real, r1: real, r2: real)

  /** `get_rtau(rctau, z)`: columns tau1, tau2, r0, r1, r2 of the row of the
      nearest SOC centre. A table without that row is numpy's IndexError. */
  function GetRtau(rctau: seq<RcRow>, z: real): (r: Result<Rtau>)
    ensures r.Ok? <==> NearestBin(z) < |rctau|
    ensures r.Ok? ==>
      var row := rctau[NearestBin(z)];
      r.value == Rtau(row.tau1, row.tau2, row.r0, row.r1, row.r2)
  {
    var idx := NearestBin(z);
    if idx >= |rctau| then Err(IndexOutOfRange)
    else
      var row := rctau[idx];
      Ok(Rtau(row.tau1, row.tau2, row.r0, row.r1, row.r2))
  }
}

=== FILE: discharge_loaders.dfy ===
/** `CellDischargeData` (ecm/cell_discharge_data.py): one charge/discharge
    window of a discharge test, chosen by the peak current. */
module CellDischargeData {
  import opened Outcome
  import opened Markers
  import opened Numeric

  /** Peak current above which a log is a 2C or 3C test [A]. */
  const HighRateCurrent: real := 35.0

  /** The loader's state: the four columns plus the window start and end times. */
  datatype DischargeLog = DischargeLog(
    time: seq<real>, current: seq<real>, voltage: seq<real>, flags: seq<char>,
    ti: real, tf: real)

  /** The four markers of one section: discharge start and end, charge start and end. */
  datatype Section = Section(id0: nat, id1: nat, id2: nat, id3: nat)

  /** `__init__` after parsing: the columns as read, with `ti = tf = 0`. */
  function Load(time: seq<real>, current: seq<real>, voltage: seq<real>, flags: seq<char>): (d: DischargeLog)
    ensures d.ti == 0.0 && d.tf == 0.0
    ensures d.time == time && d.current == current && d.voltage == voltage && d.flags == flags
  {
    DischargeLog(time, current, voltage, flags, 0.0, 0.0)
  }

  /** `get_ids`: exactly the rows flagged 'S', in increasing order. */
  function GetIds(d: DischargeLog): (ids: seq<nat>)
    ensures forall j :: 0 <= j < |ids| ==> ids[j] < |d.flags| && d.flags[ids[j]] == StartStop
    ensures forall k :: 0 <= k < |d.flags| && d.flags[k] == StartStop ==> k in ids
    ensures Increasing(ids)
  {
    Where(d.flags, StartStop)
  }

  /** Marker offset of the section: 3 for a 2C/3C test, 2 for a 1C test. */
  function SectionOffset(current: seq<real>): nat
    requires |current| > 0
  {
    if MaxAbs(current) > HighRateCurrent then 3 else 2
  }

  /** `get_idx`: four consecutive markers starting at `ids[3]` when the peak
      |current| exceeds 35 A, else at `ids[2]`. An empty current column (the
      ValueError of `max`) and too few markers (an IndexError) are errors. */
  function GetIdx(d: DischargeLog): (r: Result<Section>)
    ensures r.Ok? <==> |d.current| > 0 && |GetIds(d)| >= SectionOffset(d.current) + 4
    ensures r.Ok? ==>
      var ids := GetIds(d);
      var o := SectionOffset(d.current);
      && (MaxAbs(d.current) > HighRateCurrent ==> o == 3)
      && (MaxAbs(d.current) <= HighRateCurrent ==> o == 2)
      && r.value == Section(ids[o], ids[o + 1], ids[o + 2], ids[o + 3])
      && r.value.id0 < r.value.id1 < r.value.id2 < r.value.id3 < |d.flags|
  {
    var ids := GetIds(d);
    if |d.current| == 0 then Err(EmptyInput)
    else
      var o := SectionOffset(d.current);
      if |ids| < o + 4 then Err(TooFewMarkers(o + 4, |ids|))
      else Ok(Section(ids[o], ids[o + 1], ids[o + 2], ids[o + 3]))
  }

  /** `time` is `window` shifted so that its smallest value is 0, with every
      difference between samples kept. */
  ghost predicate RebasedToMin(time: seq<real>, window: seq<real>) {
    && |time| == |window|
    && (forall k :: 0 <= k < |time| ==> time[k] >= 0.0)
    && (exists k :: 0 <= k < |time| && time[k] == 0.0)
    && (forall j, k :: 0 <= j < |time| && 0 <= k < |time| ==> time[k] - time[j] == window[k] - window[j])
  }

  /** `time` is `window` shifted so that it starts at 0, with every difference kept. */
  ghost predicate RebasedToFirst(time: seq<real>, window: seq<real>) {
    && |time| == |window| > 0
    && time[0] == 0.0
    && (forall k :: 0 <= k < |time| ==> time[k] - time[0] == window[k] - window[0])
  }

  /** Rows lo .. hi of current and voltage, with `ti = time[lo]` and
      `tf = time[hi]`; the flags column is not cut. */
  predicate Window(d: DischargeLog, r: DischargeLog, lo: nat, hi: nat)
    requires lo <= hi < |d.time| && hi < |d.current| && hi < |d.voltage|
  {
    && r.ti == d.time[lo] && r.tf == d.time[hi]
    && |r.current| == |r.voltage| == hi - lo + 1
    && (forall k :: 0 <= k <= hi - lo ==> r.current[k] == d.current[lo + k])
    && (forall k :: 0 <= k <= hi - lo ==> r.voltage[k] == d.voltage[lo + k])
    && r.flags == d.flags
  }

  /** The cut both `process` methods make, with the window's time rebased to
      its minimum (`toMin`) or to its first sample. */
  function Cut(d: DischargeLog, lo: nat, hi: nat, toMin: bool): (r: DischargeLog)
    requires lo <= hi < |d.time| && hi < |d.current| && hi < |d.voltage|
    ensures Window(d, r, lo, hi)
    ensures toMin ==> RebasedToMin(r.time, d.time[lo..hi + 1])
    ensures !toMin ==> RebasedToFirst(r.time, d.time[lo..hi + 1])
  {
    var window := d.time[lo..hi + 1];
    RebaseToMin(window);
    RebaseToFirst(window);
    d.(ti := d.time[lo], tf := d.time[hi],
       current := d.current[lo..hi + 1],
       voltage := d.voltage[lo..hi + 1],
       time := Rebase(window, if toMin then Min(window) else window[0]))
  }

  /** `process`: keep rows id0 .. id2 (discharge, rest and charge) of current,
      voltage and time, rebase time to its window minimum, record
      `ti = time[id0]` and `tf = time[id2]`; the flags column is not cut. */
  function Process(d: DischargeLog): (r: Result<DischargeLog>)
    requires |d.time| == |d.current| == |d.voltage| == |d.flags|
    ensures r.Ok? <==> GetIdx(d).Ok?
    ensures r.Ok? ==>
      var s := GetIdx(d).value;
      s.id2 < |d.time| && Window(d, r.value, s.id0, s.id2) && RebasedToMin(r.value.time, d.time[s.id0..s.id2 + 1])
  {
    var s :- GetIdx(d);
    Ok(Cut(d, s.id0, s.id2, true))
  }

  /** `process_discharge_only`: keep rows id0 .. id1 (the discharge alone), rebase
      time to its first sample, record `ti = time[id0]` and `tf = time[id1]`. */
  function ProcessDischargeOnly(d: DischargeLog): (r: Result<DischargeLog>)
    requires |d.time| == |d.current| == |d.voltage| == |d.flags|
    ensures r.Ok? <==> GetIdx(d).Ok?
    ensures r.Ok? ==>
      var s := GetIdx(d).value;
      s.id1 < |d.time| && Window(d, r.value, s.id0, s.id1) && RebasedToFirst(r.value.time, d.time[s.id0..s.id1 + 1])
  {
    var s :- GetIdx(d);
    Ok(Cut(d, s.id0, s.id1, false))
  }

  lemma RebaseToMin(window: seq<real>)
    requires |window| > 0
    ensures RebasedToMin(Rebase(window, Min(window)), window)
  {
    var m, time := Min(window), Rebase(window, Min(window));
    var j0 :| 0 <= j0 < |window| && window[j0] == m;
    assert time[j0] == 0.0;
  }

  lemma RebaseToFirst(window: seq<real>)
    requires |window| > 0
    ensures RebasedToFirst(Rebase(window, window[0]), window)
  {
  }
}

=== FILE: equiv_circ_model.dfy ===
/** `EquivCircModel` (ecmlib/equiv_circ_model.py) and `HppcEcm`
    (ecmlib/hppc_ecm.py): the cell ECM built from an HPPC log whose markers
    come from `BatteryData`. SOC lookup and the voltage recurrence are the shared
    `SocBins.GetRtau` and `TwoRc.VEcm`. */
module EquivCircModel {
  import opened Outcome
  import opened Markers
  import opened Segments
  import opened Logs
  import opened Coulomb
  import OpenCircVoltage
  import opened RcParams
  import BatteryData

  /** The cell constants `soc` reads: coulombic efficiencies and capacity [Ah]. */
  datatype Params = Params(etaChg: real, etaDis: real, qCell: real)

  /** The `soc` property over the whole log. */
  function Soc(data: TestLog, p: Params): (z: seq<real>)
    requires data.WellFormed() && p.qCell != 0.0
    ensures |z| == data.Rows()
    ensures forall k :: 0 <= k < |z| ==> z[k] == 1.0 + Charge(data.current, data.time, p.etaChg, p.etaDis, p.qCell, k)
  {
    seq(|data.current|, k requires 0 <= k < |data.current| => 1.0 + Charge(data.current, data.time, p.etaChg, p.etaDis, p.qCell, k))
  }

  /** Every marker of `get_idx()[0]` is a row of the log, so it indexes any
      column as long as the log. */
  lemma PulseMarkersInsideLog(data: TestLog, x: seq<real>)
    requires data.WellFormed() && |x| == data.Rows()
    ensures OpenCircVoltage.IndexesInto(BatteryData.GetIdx(data).id0, x)
  {
    var ids := BatteryData.GetIds(data);
    var id0 := BatteryData.GetIdx(data).id0;
    forall j | 0 <= j < |id0|
      ensures id0[j] < |x|
    {
      assert id0[j] == ids[5 * j];
    }
  }

  /** `points`: current, time, voltage and SOC at every pulse marker, each
      followed by the final sample. Only an empty log fails (IndexError of `[-1]`). */
  function Points(data: TestLog, p: Params): (r: Result<OpenCircVoltage.Points>)
    requires data.WellFormed() && p.qCell != 0.0
    ensures r.Ok? <==> data.Rows() > 0
    ensures r.Ok? ==>
      var id0 := BatteryData.GetIdx(data).id0;
      && OpenCircVoltage.MarkersThenLast(r.value.i, data.current, id0)
      && OpenCircVoltage.MarkersThenLast(r.value.t, data.time, id0)
      && OpenCircVoltage.MarkersThenLast(r.value.v, data.voltage, id0)
      && OpenCircVoltage.MarkersThenLast(r.value.z, Soc(data, p), id0)
  {
    var id0, z := BatteryData.GetIdx(data).id0, Soc(data, p);
    PulseMarkersInsideLog(data, data.current);
    PulseMarkersInsideLog(data, data.time);
    PulseMarkersInsideLog(data, data.voltage);
    PulseMarkersInsideLog(data, z);
    OpenCircVoltage.OcvPoints(data.current, data.time, data.voltage, z, id0)
  }

  /** `ocv`: the SOC of every sample interpolated against the reversed anchors
      of `points`; one voltage per sample. */
  function Ocv(data: TestLog, p: Params): (r: Result<seq<real>>)
    requires data.WellFormed() && p.qCell != 0.0
    ensures r.Ok? <==> data.Rows() > 0
    ensures r.Ok? ==> |r.value| == data.Rows()
  {
    var pts :- Points(data, p);
    OpenCircVoltage.Ocv(pts.v, pts.z, Soc(data, p))
  }

  /** When the SOC falls strictly from anchor to anchor, the OCV equals the
      measured voltage at every pulse marker and at the final sample. */
  lemma OcvThroughMarkers(data: TestLog, p: Params)
    requires data.WellFormed() && p.qCell != 0.0 && data.Rows() > 0
    requires OpenCircVoltage.StrictlyDecreasing(Points(data, p).value.z)
    ensures var id0 := BatteryData.GetIdx(data).id0;
      forall j :: 0 <= j < |id0| ==> id0[j] < data.Rows() && Ocv(data, p).value[id0[j]] == data.voltage[id0[j]]
    ensures Ocv(data, p).value[data.Rows() - 1] == data.voltage[data.Rows() - 1]
  {
    var id0 := BatteryData.GetIdx(data).id0;
    var pts, z := Points(data, p).value, Soc(data, p);
    assert Ocv(data, p) == OpenCircVoltage.Ocv(pts.v, pts.z, z);
    forall j | 0 <= j < |id0|
      ensures id0[j] < data.Rows() && Ocv(data, p).value[id0[j]] == data.voltage[id0[j]]
    {
      OpenCircVoltage.OcvAtAnchor(pts.v, pts.z, z, id0[j], j);
    }
    var n := data.Rows() - 1;
    assert pts.z[|id0|] == z[n] && pts.v[|id0|] == data.voltage[n];
    OpenCircVoltage.OcvAtAnchor(pts.v, pts.z, z, n, |id0|);
  }

  /** At or above the first anchor's SOC the OCV is the first anchor voltage;
      at or below the last anchor's SOC it is the last anchor voltage. */
  lemma OcvClampsOutsideAnchors(data: TestLog, p: Params, k: nat)
    requires data.WellFormed() && p.qCell != 0.0 && k < data.Rows()
    requires OpenCircVoltage.StrictlyDecreasing(Points(data, p).value.z)
    ensures var pts, z := Points(data, p).value, Soc(data, p);
      && |pts.v| == |pts.z| > 0
      && (z[k] >= pts.z[0] ==> Ocv(data, p).value[k] == pts.v[0])
      && (z[k] <= pts.z[|pts.z| - 1] ==> Ocv(data, p).value[k] == pts.v[|pts.v| - 1])
  {
    var pts, z := Points(data, p).value, Soc(data, p);
    assert Ocv(data, p).value == OpenCircVoltage.Ocv(pts.v, pts.z, z).value;
    OpenCircVoltage.OcvClamps(pts.v, pts.z, z, k);
  }

  /** Every marker of a `get_idrc` group is a row of the log, so a row of
      `rctau_ttc` can fail only for a missing or malformed coefficient row or
      a degenerate step, never for a marker past the end of the data. */
  lemma DischargeMarkersInsideLog(data: TestLog, coeff: seq<seq<real>>)
    requires data.WellFormed()
    ensures var g := BatteryData.GetIdrc(data);
      forall k :: 0 <= k < |g.id0| && k < |coeff| && |coeff[k]| == 5 ==>
        Covers(data.current, data.time, data.voltage, g.id0, g.id1, g.id2, coeff, k)
  {
    var ids := BatteryData.GetIds(data);
    var g := BatteryData.GetIdrc(data);
    forall k | 0 <= k < |g.id0| && k < |coeff| && |coeff[k]| == 5
      ensures Covers(data.current, data.time, data.voltage, g.id0, g.id1, g.id2, coeff, k)
    {
      assert g.id2[k] == ids[5 * k + 4];
      assert GroupOrdered(g, k);
    }
  }

  /** `rctau_ttc(coeff)`: one row per `get_idrc` group (none dropped), row k
      satisfying the RC laws with the data at group k and coefficient row k;
      the table is produced exactly when every iteration is. */
  function RctauTtc(data: TestLog, coeff: seq<seq<real>>, exp: real -> real): (r: Result<seq<RcRow>>)
    ensures var g := BatteryData.GetIdrc(data);
      r.Ok? <==> forall k :: 0 <= k < |g.id0| ==> RowAt(data.current, data.time, data.voltage, g.id0, g.id1, g.id2, coeff, k, exp).Ok?
    ensures r.Ok? ==> |r.value| == |BatteryData.GetIdrc(data).id0|
    ensures r.Ok? ==> var g := BatteryData.GetIdrc(data);
      forall k :: 0 <= k < |r.value| ==> RowFromData(r.value[k], data.current, data.time, data.voltage, g.id0, g.id1, g.id2, coeff, k, exp)
  {
    var g := BatteryData.GetIdrc(data);
    var r := Table(data.current, data.time, data.voltage, g.id0, g.id1, g.id2, coeff, |g.id0|, exp);
    if r.Ok? then
      TableRows(data.current, data.time, data.voltage, g.id0, g.id1, g.id2, coeff, exp);
      r
    else r
  }

  lemma TableRows(current: seq<real>, time: seq<real>, voltage: seq<real>,
                  id0: seq<nat>, id1: seq<nat>, id2: seq<nat>, coeff: seq<seq<real>>, exp: real -> real)
    requires Table(current, time, voltage, id0, id1, id2, coeff, |id0|, exp).Ok?
    ensures forall k :: 0 <= k < |id0| ==>
      RowFromData(Table(current, time, voltage, id0, id1, id2, coeff, |id0|, exp).value[k], current, time, voltage, id0, id1, id2, coeff, k, exp)
  {
    forall k | 0 <= k < |id0|
      ensures RowFromData(Table(current, time, voltage, id0, id1, id2, coeff, |id0|, exp).value[k], current, time, voltage, id0, id1, id2, coeff, k, exp)
    {
      TableRowLaws(current, time, voltage, id0, id1, id2, coeff, |id0|, exp, k);
    }
  }

  /** Initial-guess tails of the cell fits, after the window's last voltage. */
  const FitTail3: seq<real> := [0.01, 0.01]
  const FitTail5: seq<real> := [0.01, 0.01, 0.001, 0.01]

  /** The windows `curve_fit_coeff(func, ncoeff)` fits: one for every `id2`
      group, produced exactly when every window `id2[i]` up to but excluding
      `id4[i]` fits and ncoeff is 3 or 5; an ncoeff other than 3 or 5 raises as
      soon as there is a window to fit. */
  function CurveFitInputs(data: TestLog, ncoeff: nat): (r: Result<seq<FitProblem>>)
    ensures var g := BatteryData.GetIdrc(data);
      r.Ok? <==> forall i :: 0 <= i < |g.id2| ==> WindowOk(data.time, data.voltage, g.id2, g.id4, ncoeff, false, i)
    ensures r.Ok? ==> |r.value| == |BatteryData.GetIdrc(data).id2|
    ensures |BatteryData.GetIdrc(data).id2| > 0 && ncoeff != 3 && ncoeff != 5 ==> r.Err?
  {
    var g := BatteryData.GetIdrc(data);
    var r := FitProblems(data.time, data.voltage, g.id2, g.id4, ncoeff, false, FitTail3, FitTail5, |g.id2|);
    assert |g.id2| > 0 && ncoeff != 3 && ncoeff != 5 ==>
      !FitProblemAt(data.time, data.voltage, g.id2, g.id4, ncoeff, false, FitTail3, FitTail5, 0).Ok?;
    r
  }

  /** Window i holds rows `id2[i]` up to but excluding `id4[i]`, time rebased
      to 0, and the cell's initial guess after the window's last voltage. */
  lemma CurveFitWindows(data: TestLog, ncoeff: nat)
    requires CurveFitInputs(data, ncoeff).Ok?
    ensures var ps, g := CurveFitInputs(data, ncoeff).value, BatteryData.GetIdrc(data);
      |ps| <= |g.id4| && forall i :: 0 <= i < |ps| ==>
        Posed(ps[i], data.time, data.voltage, g.id2[i], g.id4[i], if ncoeff == 3 then FitTail3 else FitTail5)
  {
    var g := BatteryData.GetIdrc(data);
    FitProblemsPosed(data.time, data.voltage, g.id2, g.id4, ncoeff, false, FitTail3, FitTail5, CurveFitInputs(data, ncoeff).value);
  }
}

/** `HppcEcm` (ecmlib/hppc_ecm.py): the same RC table and fit windows as
    `EquivCircModel`, with the SOC vector handed to `points` by the caller. */
module HppcEcm {
  import opened Outcome
  import opened Logs
  import OpenCircVoltage
  import BatteryData
  import EquivCircModel

  /** `points(soc)`: current, time, voltage and the given SOC at every pulse
      marker of the stored `idx`, each followed by the final sample. An SOC
      vector too short for a marker, or an empty one, is an IndexError. */
  function Points(data: TestLog, soc: seq<real>): (r: Result<OpenCircVoltage.Points>)
    requires data.WellFormed()
    ensures r.Ok? <==> data.Rows() > 0 && |soc| > 0 && OpenCircVoltage.IndexesInto(BatteryData.GetIdx(data).id0, soc)
    ensures r.Ok? ==>
      var id0 := BatteryData.GetIdx(data).id0;
      && OpenCircVoltage.MarkersThenLast(r.value.i, data.current, id0)
      && OpenCircVoltage.MarkersThenLast(r.value.t, data.time, id0)
      && OpenCircVoltage.MarkersThenLast(r.value.v, data.voltage, id0)
      && OpenCircVoltage.MarkersThenLast(r.value.z, soc, id0)
  {
    EquivCircModel.PulseMarkersInsideLog(data, data.current);
    EquivCircModel.PulseMarkersInsideLog(data, data.time);
    EquivCircModel.PulseMarkersInsideLog(data, data.voltage);
    OpenCircVoltage.OcvPoints(data.current, data.time, data.voltage, soc, BatteryData.GetIdx(data).id0)
  }

  /** The two `points` agree: given the SOC `EquivCircModel` computes, they
      return the same anchors. */
  lemma PointsAgree(data: TestLog, p: EquivCircModel.Params)
    requires data.WellFormed() && p.qCell != 0.0
    ensures Points(data, EquivCircModel.Soc(data, p)) == EquivCircModel.Points(data, p)
  {
  }
}

=== FILE: hppc_loaders.dfy ===
/** `CellHppcData` (ecm/cell_hppc_data.py): marker lookup, pulse and
    long-discharge index groups, and the cut from the second marker. */
module CellHppcData {
  import opened Outcome
  import opened Markers
  import opened Segments
  import opened Logs

  /** `get_ids`: exactly the rows flagged 'S', in increasing order. */
  function GetIds(log: TestLog): (ids: seq<nat>)
    ensures forall j :: 0 <= j < |ids| ==> ids[j] < |log.flags| && log.flags[ids[j]] == StartStop
    ensures forall k :: 0 <= k < |log.flags| && log.flags[k] == StartStop ==> k in ids
    ensures Increasing(ids)
  {
    log.StartStops()
  }

  /** `get_idq`: exactly the rows flagged 'Q'. */
  function GetIdq(log: TestLog): (idq: seq<nat>)
    ensures forall j :: 0 <= j < |idq| ==> idq[j] < |log.flags| && log.flags[idq[j]] == Quit
    ensures forall k :: 0 <= k < |log.flags| && log.flags[k] == Quit ==> k in idq
  {
    Where(log.flags, Quit)
  }

  /** `get_idx`: the pulse groups, each complete group ordered. */
  function GetIdx(log: TestLog): (r: IndexSet)
    ensures PulseLayout(GetIds(log), r)
    ensures |r.id4| <= |r.id2| <= |r.id0| <= |r.id4| + 1
    ensures forall j :: 0 <= j < |r.id4| ==> GroupOrdered(r, j)
  {
    var ids := GetIds(log);
    var r := PulseIndices(ids);
    PulseGroupsOrdered(ids, r);
    r
  }

  /** `get_idrc`: the long-discharge groups; the dropped last `ids[3::5]`
      entry leaves every group complete and ordered. */
  function GetIdrc(log: TestLog): (r: IndexSet)
    ensures DischargeLayout(GetIds(log), r)
    ensures |r.id0| <= |r.id4| <= |r.id2|
    ensures forall j :: 0 <= j < |r.id0| ==> GroupOrdered(r, j)
  {
    var ids := GetIds(log);
    var r := DischargeIndices(ids);
    DischargeGroupsComplete(ids, r);
    r
  }

  /** `process`: all four columns cut from `ids[1]`; the new log starts on an
      'S' row, and fewer than two markers is an error. */
  function Process(log: TestLog): (r: Result<TestLog>)
    requires log.WellFormed()
    ensures r.Ok? <==> |GetIds(log)| >= 2
    ensures r.Ok? ==>
      var s := GetIds(log)[1];
      && RowsOf(r.value, log, s, log.Rows() - s)
      && r.value.flags[0] == StartStop
  {
    FromSecondMarker(log)
  }
}

/** `BatteryData` (ecmlib/battery_data.py): the same marker arithmetic as
    `CellHppcData`, in the second package of the repository. */
module BatteryData {
  import CellHppcData
  import opened Markers
  import opened Segments
  import opened Logs

  /** `get_ids`: exactly the rows flagged 'S', in increasing order. */
  function GetIds(log: TestLog): (ids: seq<nat>)
    ensures forall j :: 0 <= j < |ids| ==> ids[j] < |log.flags| && log.flags[ids[j]] == StartStop
    ensures forall k :: 0 <= k < |log.flags| && log.flags[k] == StartStop ==> k in ids
    ensures Increasing(ids)
  {
    CellHppcData.GetIds(log)
  }

  /** `get_idq`: exactly the rows flagged 'Q'. */
  function GetIdq(log: TestLog): (idq: seq<nat>)
    ensures forall j :: 0 <= j < |idq| ==> idq[j] < |log.flags| && log.flags[idq[j]] == Quit
    ensures forall k :: 0 <= k < |log.flags| && log.flags[k] == Quit ==> k in idq
  {
    CellHppcData.GetIdq(log)
  }

  /** `get_idx`: offsets 0, 1, 2 with stride 5; complete groups are ordered. */
  function GetIdx(log: TestLog): (r: IndexSet)
    ensures PulseLayout(GetIds(log), r)
    ensures forall j :: 0 <= j < |r.id4| ==> j < |r.id2| <= |r.id0| && GroupOrdered(r, j)
  {
    var ids := GetIds(log);
    var r := PulseIndices(ids);
    PulseGroupsOrdered(ids, r);
    r
  }

  /** `get_idrc`: offsets 3, 4, 5 with stride 5 and `len(id0) = len(ids[3::5]) - 1`;
      every group is complete and ordered. */
  function GetIdrc(log: TestLog): (r: IndexSet)
    ensures DischargeLayout(GetIds(log), r)
    ensures |r.id0| <= |r.id4| <= |r.id2|
    ensures forall j :: 0 <= j < |r.id0| ==> GroupOrdered(r, j)
  {
    CellHppcData.GetIdrc(log)
  }
}

/** `HppcData` (ecmlib/hppc_data.py): the constructor cuts the parsed log at the
    second marker, and `process_data` repeats that cut on the stored arrays. */
module HppcData {
  import opened Outcome
  import opened Markers
  import opened Logs

  /** `__init__` after parsing: the suffix from the second 'S' row, unchanged in
      order and value. */
  function Init(raw: TestLog): (r: Result<TestLog>)
    requires raw.WellFormed()
    ensures r.Ok? <==> |raw.StartStops()| >= 2
    ensures r.Ok? ==>
      var s := raw.StartStops()[1];
      && RowsOf(r.value, raw, s, raw.Rows() - s)
      && r.value.flags[0] == StartStop
  {
    FromSecondMarker(raw)
  }

  /** `process_data`: the same cut, taken again from the stored arrays: all
      four columns from the stored log's second 'S' row on. */
  function ProcessData(d: TestLog): (r: Result<TestLog>)
    requires d.WellFormed()
    ensures r.Ok? <==> |d.StartStops()| >= 2
    ensures r.Ok? ==>
      var s := d.StartStops()[1];
      && RowsOf(r.value, d, s, d.Rows() - s)
      && r.value.flags[0] == StartStop
    ensures r.Ok? ==> r.value.Rows() < d.Rows()
  {
    FromSecondMarker(d)
  }

  /** `process_data` on a freshly built object never returns that object: the
      stored log already starts on its first marker, so the second cut drops at
      least that row. */
  lemma ProcessDataNotIdempotent(raw: TestLog, d: TestLog)
    requires raw.WellFormed() && Init(raw) == Ok(d)
    ensures d.WellFormed()
    ensures ProcessData(d) != Ok(d)
  {
  }
}

=== FILE: logs.dfy ===
/** A parsed test log and the row windows the data loaders cut from it. */
module Logs {
  import opened Outcome
  import opened Markers

  /** Columns of one HPPC or discharge log: time [s], current [A], voltage [V]
      and the event flag of each row (blank when the row marks no event). */
  datatype TestLog = TestLog(time: seq<real>, current: seq<real>, voltage: seq<real>, flags: seq<char>) {
    /** All four columns come from one table, so they have one length. */
    predicate WellFormed() {
      |time| == |current| == |voltage| == |flags|
    }

    function Rows(): nat {
      |flags|
    }

    /** `np.where(data == 'S')[0]`. */
    function StartStops(): seq<nat> {
      Where(flags, StartStop)
    }
  }

  /** `r` holds exactly the rows lo .. lo + len - 1 of `log`, in order, in all four columns. */
  ghost predicate RowsOf(r: TestLog, log: TestLog, lo: nat, len: nat) {
    && r.WellFormed()
    && lo + len <= |log.time| && lo + len <= |log.current|
    && lo + len <= |log.voltage| && lo + len <= |log.flags|
    && r.Rows() == len
    && (forall k :: 0 <= k < len ==> r.time[k] == log.time[lo + k])
    && (forall k :: 0 <= k < len ==> r.current[k] == log.current[lo + k])
    && (forall k :: 0 <= k < len ==> r.voltage[k] == log.voltage[lo + k])
    && (forall k :: 0 <= k < len ==> r.flags[k] == log.flags[lo + k])
  }

  /** numpy `x[lo:lo + len]` applied to every column. */
  function Slice(log: TestLog, lo: nat, len: nat): (r: TestLog)
    requires log.WellFormed() && lo + len <= log.Rows()
    ensures RowsOf(r, log, lo, len)
  {
    TestLog(log.time[lo..lo + len], log.current[lo..lo + len],
            log.voltage[lo..lo + len], log.flags[lo..lo + len])
  }

  /** Keep the rows from the second start/stop marker on (`x[ids[1]:]` for all
      four columns); the first marker is a priming event. Fewer than two markers
      is the IndexError of `ids[1]`. */
  function FromSecondMarker(log: TestLog): (r: Result<TestLog>)
    requires log.WellFormed()
    ensures r.Ok? <==> |log.StartStops()| >= 2
    ensures r.Ok? ==>
      var s := log.StartStops()[1];
      && RowsOf(r.value, log, s, log.Rows() - s)
      && r.value.flags[0] == StartStop
      && r.value.Rows() < log.Rows()
  {
    var ids := log.StartStops();
    if |ids| < 2 then Err(TooFewMarkers(2, |ids|))
    else Ok(Slice(log, ids[1], log.Rows() - ids[1]))
  }
}

=== FILE: markers.dfy ===
/** Event-marker positions and numpy-style strided slicing of index arrays. */
module Markers {
  import opened Outcome

  /** Flag of a start/stop event row. */
  const StartStop: char := 'S'
  /** Flag of the row that ends the experiment. */
  const Quit: char := 'Q'

  predicate Increasing(s: seq<nat>) {
    forall i, j :: 0 <= i < j < |s| ==> s[i] < s[j]
  }

  /** The positions k >= from whose flag is c, in ascending order. */
  function WhereFrom(flags: seq<char>, c: char, from: nat): (ids: seq<nat>)
    requires from <= |flags|
    ensures forall j :: 0 <= j < |ids| ==> from <= ids[j] < |flags| && flags[ids[j]] == c
    ensures forall k :: from <= k < |flags| && flags[k] == c ==> k in ids
    ensures Increasing(ids)
    decreases |flags| - from
  {
    if from == |flags| then []
    else
      var rest := WhereFrom(flags, c, from + 1);
      if flags[from] == c then [from] + rest else rest
  }

  /** `np.where(flags == c)[0]`: every position flagged c, and nothing else. */
  function Where(flags: seq<char>, c: char): (ids: seq<nat>)
    ensures forall j :: 0 <= j < |ids| ==> ids[j] < |flags| && flags[ids[j]] == c
    ensures forall k :: 0 <= k < |flags| && flags[k] == c ==> k in ids
    ensures Increasing(ids)
  {
    WhereFrom(flags, c, 0)
  }

  /** numpy `s[start::5]`: the elements at start, start + 5, ... below |s|.
      Markers come five to a group in every test protocol. */
  function Stride<T>(s: seq<T>, start: nat): (r: seq<T>)
    ensures forall j :: 0 <= j < |r| ==> start + 5 * j < |s| && r[j] == s[start + 5 * j]
    ensures start + 5 * |r| >= |s|
  {
    if start >= |s| then []
    else
      var n := (|s| - start + 4) / 5;
      assert 5 * n <= |s| - start + 4 < 5 * n + 5;
      seq(n, j requires 0 <= j < n => s[start + 5 * j])
  }

  /** numpy `s[:-1]`: everything but the last element, and nothing from an empty array. */
  function DropLast<T>(s: seq<T>): (r: seq<T>)
    ensures |s| > 0 ==> |r| == |s| - 1
    ensures |s| == 0 ==> r == []
    ensures forall j :: 0 <= j < |r| ==> r[j] == s[j]
  {
    if |s| == 0 then [] else s[..|s| - 1]
  }

  /** `np.delete(s, -1)`: like DropLast, but an empty array raises an IndexError. */
  function DeleteLast<T>(s: seq<T>): (r: Result<seq<T>>)
    ensures r.Ok? <==> |s| > 0
    ensures r.Ok? ==> |r.value| == |s| - 1 && forall j :: 0 <= j < |r.value| ==> r.value[j] == s[j]
  {
    if |s| == 0 then Err(IndexOutOfRange) else Ok(s[..|s| - 1])
  }

  /** numpy `s + 1`. */
  function Succ(s: seq<nat>): (r: seq<nat>)
    ensures |r| == |s|
    ensures forall j :: 0 <= j < |s| ==> r[j] == s[j] + 1
  {
    seq(|s|, j requires 0 <= j < |s| => s[j] + 1)
  }
}

=== FILE: module_ecm.dfy ===
/** `ModuleEcm` (ecm/module_ecm.py): the ECM of a battery module built from its
    HPPC log. Its SOC, RC lookup and voltage recurrence are the shared ones
    (`Coulomb.Soc`, `SocBins.GetRtau`, `TwoRc.VEcm`); what is particular to it
    is the three-way `ocv`, the inclusive fit windows with the module's initial
    guesses, the table that drops the last discharge group, and the module
    temperature. */
module ModuleEcm {
  import opened Outcome
  import opened Markers
  import opened Segments
  import OpenCircVoltage
  import opened RcParams
  import opened ThermalModel

  /** What a `ModuleEcm` reads from the module log: its columns and the
      discharge index tuple `idd` (computed by a loader outside this model). */
  datatype Data = Data(current: seq<real>, time: seq<real>, voltage: seq<real>, idd: IndexSet)

  /** The module constants the thermal step needs. */
  datatype Params = Params(tinf: real, mModule: real, hConv: real, cpModule: real, aSurf: real)

  /** Voltage and SOC anchors supplied by the caller (`vz_pts`). */
  datatype Anchors = Anchors(v: seq<real>, z: seq<real>)

  /** What `ocv` returns: the OCV, and with `pts=True` also the four anchor arrays. */
  datatype OcvOutput = OcvOutput(ocv: seq<real>, points: Option<OpenCircVoltage.Points>)

  /** `ocv` is the interpolation through the data's own anchors: voltage and
      SOC at every `idd[0]` marker, then at the final sample. */
  predicate Anchored(ocv: seq<real>, voltage: seq<real>, soc: seq<real>, id0: seq<nat>) {
    && |voltage| > 0 && |soc| > 0
    && OpenCircVoltage.IndexesInto(id0, voltage) && OpenCircVoltage.IndexesInto(id0, soc)
    && ocv == OpenCircVoltage.Ocv(OpenCircVoltage.Pick(voltage, id0), OpenCircVoltage.Pick(soc, id0), soc).value
  }

  /** `ocv(soc, pts, vz_pts)`. With `pts` the anchors come from the data and are
      returned too; otherwise caller anchors, when given, are used alone;
      otherwise the data's anchors are used without being returned. A marker
      past the end of a column, or an empty column, is numpy's IndexError. */
  function Ocv(d: Data, soc: seq<real>, pts: bool, vzPts: Option<Anchors>): (r: Result<OcvOutput>)
    ensures pts ==> (r.Ok? <==> OpenCircVoltage.OcvPoints(d.current, d.time, d.voltage, soc, d.idd.id0).Ok?)
    ensures !pts && vzPts.Some? ==> (r.Ok? <==> |vzPts.value.v| == |vzPts.value.z| > 0)
    ensures !pts && vzPts.None? ==> (r.Ok? <==>
      && |d.voltage| > 0 && |soc| > 0
      && OpenCircVoltage.IndexesInto(d.idd.id0, d.voltage) && OpenCircVoltage.IndexesInto(d.idd.id0, soc))
    ensures r.Ok? ==> |r.value.ocv| == |soc| && (r.value.points.Some? <==> pts)
    ensures r.Ok? && (pts || vzPts.None?) ==> Anchored(r.value.ocv, d.voltage, soc, d.idd.id0)
    ensures r.Ok? && pts ==>
      var p := r.value.points.value;
      && OpenCircVoltage.MarkersThenLast(p.i, d.current, d.idd.id0)
      && OpenCircVoltage.MarkersThenLast(p.t, d.time, d.idd.id0)
      && OpenCircVoltage.MarkersThenLast(p.v, d.voltage, d.idd.id0)
      && OpenCircVoltage.MarkersThenLast(p.z, soc, d.idd.id0)
    ensures r.Ok? && !pts && vzPts.Some? ==>
      r.value.ocv == OpenCircVoltage.Ocv(vzPts.value.v, vzPts.value.z, soc).value
  {
    var id0 := d.idd.id0;
    if pts then
      var p :- OpenCircVoltage.OcvPoints(d.current, d.time, d.voltage, soc, id0);
      Ok(OcvOutput(OpenCircVoltage.Ocv(p.v, p.z, soc).value, Some(p)))
    else if vzPts.Some? then
      var ocv :- OpenCircVoltage.Ocv(vzPts.value.v, vzPts.value.z, soc);
      Ok(OcvOutput(ocv, None))
    else if |d.voltage| == 0 || |soc| == 0 then Err(IndexOutOfRange)
    else if !(OpenCircVoltage.IndexesInto(id0, d.voltage) && OpenCircVoltage.IndexesInto(id0, soc)) then Err(IndexOutOfRange)
    else
      var vp, zp := OpenCircVoltage.Pick(d.voltage, id0), OpenCircVoltage.Pick(soc, id0);
      Ok(OcvOutput(OpenCircVoltage.Ocv(vp, zp, soc).value, None))
  }

  /** The default branch and the `pts=True` branch compute the same OCV: where
      the latter succeeds, so does the former, with an equal vector. */
  lemma DefaultMatchesPoints(d: Data, soc: seq<real>, given: Option<Anchors>)
    requires Ocv(d, soc, true, given).Ok?
    ensures Ocv(d, soc, false, None).Ok?
    ensures Ocv(d, soc, false, None).value.ocv == Ocv(d, soc, true, given).value.ocv
  {
  }

  /** `pts=True` takes precedence: caller anchors are then ignored. */
  lemma PointsBranchIgnoresAnchors(d: Data, soc: seq<real>, a: Anchors)
    ensures Ocv(d, soc, true, Some(a)) == Ocv(d, soc, true, None)
  {
  }

  /** With caller anchors (and no `pts`), nothing of the module log is read. */
  lemma GivenAnchorsIgnoreData(d: Data, d': Data, soc: seq<real>, a: Anchors)
    ensures Ocv(d, soc, false, Some(a)) == Ocv(d', soc, false, Some(a))
  {
  }

  /** When the SOC falls strictly from marker to marker, the data-anchored OCV
      passes through the measured voltage at every `idd[0]` marker. */
  lemma OcvAtMarkers(d: Data, soc: seq<real>, pts: bool)
    requires Ocv(d, soc, pts, None).Ok?
    requires OpenCircVoltage.StrictlyDecreasing(OpenCircVoltage.Pick(soc, d.idd.id0))
    ensures forall j :: 0 <= j < |d.idd.id0| ==>
      d.idd.id0[j] < |d.voltage| && Ocv(d, soc, pts, None).value.ocv[d.idd.id0[j]] == d.voltage[d.idd.id0[j]]
  {
    var id0 := d.idd.id0;
    var vp, zp := OpenCircVoltage.Pick(d.voltage, id0), OpenCircVoltage.Pick(soc, id0);
    forall j | 0 <= j < |id0|
      ensures id0[j] < |d.voltage| && Ocv(d, soc, pts, None).value.ocv[id0[j]] == d.voltage[id0[j]]
    {
      OpenCircVoltage.OcvAtAnchor(vp, zp, soc, id0[j], j);
    }
  }

  /** Initial-guess tails of the module fits, after the window's last voltage. */
  const FitTail3: seq<real> := [0.0644, 0.0012]
  const FitTail5: seq<real> := [0.0724, 0.0575, 0.0223, 0.0007]

  /** The windows `curve_fit_coeff(func, ncoeff)` fits: one for each group
      but the last of `id2`, produced exactly when every window `id2[i]` ..
      `id4[i]` inclusive fits and ncoeff is 3 or 5; an ncoeff other than 3 or 5
      raises as soon as there is a window to fit. */
  function CurveFitInputs(d: Data, ncoeff: nat): (r: Result<seq<FitProblem>>)
    ensures r.Ok? <==> forall i :: 0 <= i < |DropLast(d.idd.id2)| ==>
      WindowOk(d.time, d.voltage, DropLast(d.idd.id2), d.idd.id4, ncoeff, true, i)
    ensures r.Ok? ==> |r.value| == |DropLast(d.idd.id2)|
    ensures |d.idd.id2| >= 2 && ncoeff != 3 && ncoeff != 5 ==> r.Err?
  {
    var starts := DropLast(d.idd.id2);
    var r := FitProblems(d.time, d.voltage, starts, d.idd.id4, ncoeff, true, FitTail3, FitTail5, |starts|);
    assert |starts| > 0 && ncoeff != 3 && ncoeff != 5 ==>
      !FitProblemAt(d.time, d.voltage, starts, d.idd.id4, ncoeff, true, FitTail3, FitTail5, 0).Ok?;
    r
  }

  /** Window i holds rows `id2[i]` through `id4[i]` inclusive, time rebased to
      0, and the module's initial guess after the window's last voltage. */
  lemma CurveFitWindows(d: Data, ncoeff: nat)
    requires CurveFitInputs(d, ncoeff).Ok?
    ensures var ps := CurveFitInputs(d, ncoeff).value;
      |ps| <= |d.idd.id2| && |ps| <= |d.idd.id4| && forall i :: 0 <= i < |ps| ==>
        Posed(ps[i], d.time, d.voltage, d.idd.id2[i], d.idd.id4[i] + 1, if ncoeff == 3 then FitTail3 else FitTail5)
  {
    var starts := DropLast(d.idd.id2);
    var ps := CurveFitInputs(d, ncoeff).value;
    FitProblemsPosed(d.time, d.voltage, starts, d.idd.id4, ncoeff, true, FitTail3, FitTail5, ps);
    forall i | 0 <= i < |ps|
      ensures Posed(ps[i], d.time, d.voltage, d.idd.id2[i], d.idd.id4[i] + 1, if ncoeff == 3 then FitTail3 else FitTail5)
    {
      assert starts[i] == d.idd.id2[i];
    }
  }

  /** `rctau_ttc(coeff)`: the last entry of `id0`, `id1` and `id2` is deleted
      first (an empty array cannot lose it: IndexError), so the table has one
      row fewer than `idd[0]`, and row k comes from group k of `idd`. The table
      is produced exactly when every iteration over the shortened arrays is. */
  function RctauTtc(d: Data, coeff: seq<seq<real>>, exp: real -> real): (r: Result<seq<RcRow>>)
    ensures |d.idd.id0| == 0 || |d.idd.id1| == 0 || |d.idd.id2| == 0 ==> r.Err?
    ensures r.Ok? <==>
      && |d.idd.id0| > 0 && |d.idd.id1| > 0 && |d.idd.id2| > 0
      && forall k :: 0 <= k < |d.idd.id0| - 1 ==>
           RowAt(d.current, d.time, d.voltage, DropLast(d.idd.id0), DropLast(d.idd.id1), DropLast(d.idd.id2), coeff, k, exp).Ok?
    ensures r.Ok? ==> |r.value| == |d.idd.id0| - 1
    ensures r.Ok? ==> forall k :: 0 <= k < |r.value| ==>
      RowFromData(r.value[k], d.current, d.time, d.voltage, d.idd.id0, d.idd.id1, d.idd.id2, coeff, k, exp)
  {
    var id0 :- DeleteLast(d.idd.id0);
    var id1 :- DeleteLast(d.idd.id1);
    var id2 :- DeleteLast(d.idd.id2);
    assert id0 == DropLast(d.idd.id0) && id1 == DropLast(d.idd.id1) && id2 == DropLast(d.idd.id2);
    var r := Table(d.current, d.time, d.voltage, id0, id1, id2, coeff, |id0|, exp);
    if r.Ok? then
      RowsKeepGroups(d, coeff, exp, id0, id1, id2);
      r
    else r
  }

  lemma RowsKeepGroups(d: Data, coeff: seq<seq<real>>, exp: real -> real, id0: seq<nat>, id1: seq<nat>, id2: seq<nat>)
    requires DeleteLast(d.idd.id0) == Ok(id0) && DeleteLast(d.idd.id1) == Ok(id1) && DeleteLast(d.idd.id2) == Ok(id2)
    requires Table(d.current, d.time, d.voltage, id0, id1, id2, coeff, |id0|, exp).Ok?
    ensures forall k :: 0 <= k < |id0| ==>
      RowFromData(Table(d.current, d.time, d.voltage, id0, id1, id2, coeff, |id0|, exp).value[k],
                  d.current, d.time, d.voltage, d.idd.id0, d.idd.id1, d.idd.id2, coeff, k, exp)
  {
    forall k | 0 <= k < |id0|
      ensures RowFromData(Table(d.current, d.time, d.voltage, id0, id1, id2, coeff, |id0|, exp).value[k],
                          d.current, d.time, d.voltage, d.idd.id0, d.idd.id1, d.idd.id2, coeff, k, exp)
    {
      TableRowLaws(d.current, d.time, d.voltage, id0, id1, id2, coeff, |id0|, exp, k);
    }
  }

  /** The lumped body of the module: ambient `tinf`, `m_module`, `h_conv`,
      `cp_module` and `a_surf`. */
  function Body(p: Params): Lumped {
    Lumped(p.tinf, p.mModule, p.hConv, p.cpModule, p.aSurf)
  }

  /** Each temperature after the first is one forward-Euler step from the one
      before: irreversible plus convective heat of that sample over `m cp`. */
  predicate EulerHistory(b: Lumped, i: seq<real>, ocv: seq<real>, vt: seq<real>, time: seq<real>, temps: seq<real>)
    requires Valid(b)
  {
    && (|temps| <= 1 || (|temps| - 1 <= |i| && |temps| - 1 <= |ocv| && |temps| - 1 <= |vt| && |temps| <= |time|))
    && forall n :: 0 <= n < |temps| - 1 && n < |i| && n < |ocv| && n < |vt| && n + 1 < |time| ==>
      temps[n + 1] == EulerStep(b, temps[n], Irreversible(i[n], vt[n], ocv[n]) + Convection(b, temps[n]),
                                time[n + 1] - time[n])
  }

  /** The temperatures `Temp` assigns to samples 0 .. nc - 1: they start at ti
      and form an Euler history. */
  function Temps(b: Lumped, i: seq<real>, ocv: seq<real>, vt: seq<real>, time: seq<real>, ti: real, nc: nat)
    : (temps: seq<real>)
    requires Valid(b) && nc > 0 && ThermalModel.Covers(i, ocv, vt, time, nc - 1)
    ensures |temps| == nc && temps[0] == ti
    ensures EulerHistory(b, i, ocv, vt, time, temps)
  {
    CoversPrefix(i, ocv, vt, time, nc - 1);
    var temps := seq(nc, n requires 0 <= n < nc && ThermalModel.Covers(i, ocv, vt, time, n) => Temp(b, i, ocv, vt, time, ti, n));
    TempsStep(b, i, ocv, vt, time, ti, temps);
    temps
  }

  lemma TempsStep(b: Lumped, i: seq<real>, ocv: seq<real>, vt: seq<real>, time: seq<real>, ti: real, temps: seq<real>)
    requires Valid(b) && |temps| > 0 && ThermalModel.Covers(i, ocv, vt, time, |temps| - 1)
    requires forall n :: 0 <= n < |temps| ==> ThermalModel.Covers(i, ocv, vt, time, n)
    requires forall n :: 0 <= n < |temps| ==> temps[n] == Temp(b, i, ocv, vt, time, ti, n)
    ensures EulerHistory(b, i, ocv, vt, time, temps)
  {
    forall n | 0 <= n < |temps| - 1 && n < |i| && n < |ocv| && n < |vt| && n + 1 < |time|
      ensures temps[n + 1] == EulerStep(b, temps[n], Irreversible(i[n], vt[n], ocv[n]) + Convection(b, temps[n]),
                                        time[n + 1] - time[n])
    {
      assert temps[n + 1] == Temp(b, i, ocv, vt, time, ti, n + 1);
    }
  }

  /** `calc_temperature(ti, ocv, vt)`: one temperature per current sample from
      `ti`, each step adding the irreversible and the convective heat over the
      module's heat capacity. An empty current is the IndexError of
      `temps[0]`; short `ocv`, `vt` or `time` arrays are IndexErrors too. */
  function CalcTemperature(d: Data, p: Params, ti: real, ocv: seq<real>, vt: seq<real>): (r: Result<seq<real>>)
    requires Valid(Body(p))
    ensures r.Ok? <==> |d.current| > 0 && ThermalModel.Covers(d.current, ocv, vt, d.time, |d.current| - 1)
    ensures r.Ok? ==> |r.value| == |d.current| && r.value[0] == ti
    ensures r.Ok? ==> EulerHistory(Body(p), d.current, ocv, vt, d.time, r.value)
  {
    var nc := |d.current|;
    if nc == 0 then Err(IndexOutOfRange)
    else if !ThermalModel.Covers(d.current, ocv, vt, d.time, nc - 1) then Err(IndexOutOfRange)
    else Ok(Temps(Body(p), d.current, ocv, vt, d.time, ti, nc))
  }

  lemma CoversPrefix(i: seq<real>, ocv: seq<real>, vt: seq<real>, time: seq<real>, n: nat)
    requires ThermalModel.Covers(i, ocv, vt, time, n)
    ensures forall m :: 0 <= m <= n ==> ThermalModel.Covers(i, ocv, vt, time, m)
  {
  }

  /** With no current, a module that starts at the ambient temperature stays
      at it for the whole profile. */
  lemma IdleModuleStaysAtAmbient(d: Data, p: Params, ocv: seq<real>, vt: seq<real>)
    requires Valid(Body(p))
    requires forall k :: 0 <= k < |d.current| ==> d.current[k] == 0.0
    requires CalcTemperature(d, p, p.tinf, ocv, vt).Ok?
    ensures forall n :: 0 <= n < |d.current| ==> CalcTemperature(d, p, p.tinf, ocv, vt).value[n] == p.tinf
  {
    var nc := |d.current|;
    CoversPrefix(d.current, ocv, vt, d.time, nc - 1);
    forall n | 0 <= n < nc
      ensures CalcTemperature(d, p, p.tinf, ocv, vt).value[n] == p.tinf
    {
      IdleAtAmbient(Body(p), d.current, ocv, vt, d.time, n);
    }
  }
}

=== FILE: numeric.dfy ===
/** Real-valued helpers shared by the loaders: absolute value, numpy-style
    first argmin/argmax, sums and elementwise scaling. */
module Numeric {

  function Abs(x: real): real {
    if x < 0.0 then -x else x
  }

  /** numpy `argmin`: the FIRST index of a smallest element. */
  function ArgMin(s: seq<real>): (k: nat)
    requires |s| > 0
    ensures k < |s|
    ensures forall j :: 0 <= j < |s| ==> s[k] <= s[j]
    ensures forall j :: 0 <= j < k ==> s[j] > s[k]
  {
    if |s| == 1 then 0
    else
      var k := ArgMin(s[..|s| - 1]);
      assert forall j :: 0 <= j < |s| - 1 ==> s[..|s| - 1][j] == s[j];
      if s[|s| - 1] < s[k] then |s| - 1 else k
  }

  /** numpy `argmax` / pandas `idxmax` on a default index: the FIRST index of a
      largest element. */
  function ArgMax(s: seq<real>): (k: nat)
    requires |s| > 0
    ensures k < |s|
    ensures forall j :: 0 <= j < |s| ==> s[j] <= s[k]
    ensures forall j :: 0 <= j < k ==> s[j] < s[k]
  {
    if |s| == 1 then 0
    else
      var k := ArgMax(s[..|s| - 1]);
      assert forall j :: 0 <= j < |s| - 1 ==> s[..|s| - 1][j] == s[j];
      if s[|s| - 1] > s[k] then |s| - 1 else k
  }

  /** `s.min()`. */
  function Min(s: seq<real>): (m: real)
    requires |s| > 0
    ensures forall j :: 0 <= j < |s| ==> m <= s[j]
    ensures exists j :: 0 <= j < |s| && s[j] == m
  {
    s[ArgMin(s)]
  }

  /** Python `max(abs(s))`. */
  function MaxAbs(s: seq<real>): (m: real)
    requires |s| > 0
    ensures forall j :: 0 <= j < |s| ==> Abs(s[j]) <= m
    ensures exists j :: 0 <= j < |s| && Abs(s[j]) == m
  {
    var a := seq(|s|, j requires 0 <= j < |s| => Abs(s[j]));
    assert forall j :: 0 <= j < |s| ==> a[j] == Abs(s[j]);
    a[ArgMax(a)]
  }

  /** numpy `np.sum`. */
  function Sum(s: seq<real>): real {
    if |s| == 0 then 0.0 else Sum(s[..|s| - 1]) + s[|s| - 1]
  }

  /** numpy `c * s`. */
  function Scale(s: seq<real>, c: real): (r: seq<real>)
    ensures |r| == |s|
    ensures forall j :: 0 <= j < |s| ==> r[j] == c * s[j]
  {
    seq(|s|, j requires 0 <= j < |s| => c * s[j])
  }

  /** numpy `s - s0`: every element shifted down by `s0`. */
  function Rebase(s: seq<real>, s0: real): (r: seq<real>)
    ensures |r| == |s|
    ensures forall j :: 0 <= j < |s| ==> r[j] == s[j] - s0
  {
    seq(|s|, j requires 0 <= j < |s| => s[j] - s0)
  }
}

=== FILE: ocv.dfy ===
/** Open-circuit voltage from the HPPC anchors (ecmlib/open_circ_voltage.py):
    the anchors are taken at the first pulse of every 10 % SOC section plus the
    final sample, SOC falling, and `np.interp` is applied to them reversed. */
module OpenCircVoltage {
  import opened Outcome

  predicate StrictlyIncreasing(s: seq<real>) {
    forall i, j :: 0 <= i < j < |s| ==> s[i] < s[j]
  }

  predicate StrictlyDecreasing(s: seq<real>) {
    forall i, j :: 0 <= i < j < |s| ==> s[i] > s[j]
  }

  /** x lies between a and b, in either order. */
  predicate Between(x: real, a: real, b: real) {
    (a <= x <= b) || (b <= x <= a)
  }

  /** numpy `s[::-1]`. */
  function Reverse(s: seq<real>): (r: seq<real>)
    ensures |r| == |s|
    ensures forall k :: 0 <= k < |s| ==> r[k] == s[|s| - 1 - k]
  {
    seq(|s|, k requires 0 <= k < |s| => s[|s| - 1 - k])
  }

  /** The straight line through (x0, f0) and (x1, f1), taken at x. */
  function Lerp(x0: real, x1: real, f0: real, f1: real, x: real): real
    requires x0 != x1
  {
    f0 + (x - x0) * (f1 - f0) / (x1 - x0)
  }

  /** numpy `np.interp(x, xp, fp)` for one point on non-decreasing anchors:
      `fp[0]` below `xp[0]`, the straight line between the last anchor at or
      below x and the next one, and the last `fp` at or above the last anchor.
      At a repeated anchor this is the value of its last copy, as numpy's
      search gives. */
  function Interp(x: real, xp: seq<real>, fp: seq<real>): (r: real)
    requires |xp| == |fp| > 0
    ensures x < xp[0] ==> r == fp[0]
    decreases |xp|
  {
    if |xp| == 1 || x < xp[0] then fp[0]
    else if x < xp[1] then Lerp(xp[0], xp[1], fp[0], fp[1], x)
    else Interp(x, xp[1..], fp[1..])
  }

  predicate NonDecreasing(s: seq<real>) {
    forall i, j :: 0 <= i < j < |s| ==> s[i] <= s[j]
  }

  /** On non-decreasing anchors the value at an anchor is that of its last
      copy: anchor j gives `fp[j]` when no later anchor repeats it. */
  lemma {:induction false} InterpAtLastCopy(xp: seq<real>, fp: seq<real>, j: nat)
    requires |xp| == |fp| && j < |xp| && NonDecreasing(xp)
    requires j + 1 == |xp| || xp[j] < xp[j + 1]
    ensures Interp(xp[j], xp, fp) == fp[j]
    decreases j
  {
    if j == 0 {
      if |xp| > 1 {
        LerpAtEnds(xp[0], xp[1], fp[0], fp[1]);
      }
    } else {
      assert xp[0] <= xp[1] <= xp[j];
      assert xp[1..][j - 1] == xp[j] && fp[1..][j - 1] == fp[j];
      assert j < |xp| - 1 ==> xp[1..][j] == xp[j + 1];
      InterpAtLastCopy(xp[1..], fp[1..], j - 1);
    }
  }

  /** Whatever the anchors, the interpolated value never leaves the range of
      the anchor values. */
  lemma {:induction false} InterpWithinValues(x: real, xp: seq<real>, fp: seq<real>, lo: real, hi: real)
    requires |xp| == |fp| > 0
    requires forall j :: 0 <= j < |fp| ==> lo <= fp[j] <= hi
    ensures lo <= Interp(x, xp, fp) <= hi
    decreases |xp|
  {
    if |xp| == 1 || x < xp[0] {
    } else if x < xp[1] {
      LerpBetween(xp[0], xp[1], fp[0], fp[1], x);
    } else {
      assert forall j :: 0 <= j < |fp| - 1 ==> fp[1..][j] == fp[j + 1];
      InterpWithinValues(x, xp[1..], fp[1..], lo, hi);
    }
  }

  lemma ReverseOfDecreasing(s: seq<real>)
    requires StrictlyDecreasing(s)
    ensures StrictlyIncreasing(Reverse(s))
  {
  }

  /** The line passes through both of its points. */
  lemma LerpAtEnds(x0: real, x1: real, f0: real, f1: real)
    requires x0 != x1
    ensures Lerp(x0, x1, f0, f1, x0) == f0
    ensures Lerp(x0, x1, f0, f1, x1) == f1
  {
    var d, df := x1 - x0, f1 - f0;
    assert (x0 - x0) * df == 0.0;
    assert d * df / d == df;
  }

  /** Clamping above the anchors: at or past the last anchor, the last value. */
  lemma {:induction false} InterpAbove(x: real, xp: seq<real>, fp: seq<real>)
    requires |xp| == |fp| > 0 && StrictlyIncreasing(xp)
    requires x >= xp[|xp| - 1]
    ensures Interp(x, xp, fp) == fp[|fp| - 1]
    decreases |xp|
  {
    if |xp| > 1 {
      assert xp[0] < xp[1] <= xp[|xp| - 1];
      InterpAbove(x, xp[1..], fp[1..]);
    }
  }

  /** Straight line between anchors j and j + 1, both ends included. */
  lemma {:induction false} InterpOnSegment(x: real, xp: seq<real>, fp: seq<real>, j: nat)
    requires |xp| == |fp| && j + 1 < |xp| && StrictlyIncreasing(xp)
    requires xp[j] <= x <= xp[j + 1]
    ensures Interp(x, xp, fp) == Lerp(xp[j], xp[j + 1], fp[j], fp[j + 1], x)
    decreases j
  {
    if j == 0 {
      LerpAtEnds(xp[0], xp[1], fp[0], fp[1]);
      if x == xp[1] {
        assert xp[1..][0] == x;
        assert Interp(x, xp, fp) == Interp(x, xp[1..], fp[1..]) == fp[1];
      }
    } else {
      assert xp[0] < xp[1] <= xp[j] <= x;
      assert xp[1..][j - 1] == xp[j] && xp[1..][j] == xp[j + 1];
      assert fp[1..][j - 1] == fp[j] && fp[1..][j] == fp[j + 1];
      InterpOnSegment(x, xp[1..], fp[1..], j - 1);
    }
  }

  /** At an anchor, exactly the anchor's value. */
  lemma InterpAtKnot(xp: seq<real>, fp: seq<real>, j: nat)
    requires |xp| == |fp| && j < |xp| && StrictlyIncreasing(xp)
    ensures Interp(xp[j], xp, fp) == fp[j]
  {
    if j + 1 < |xp| {
      InterpOnSegment(xp[j], xp, fp, j);
      LerpAtEnds(xp[j], xp[j + 1], fp[j], fp[j + 1]);
    } else {
      InterpAbove(xp[j], xp, fp);
    }
  }

  /** A point of the straight line between (x0, f0) and (x1, f1) taken at
      x in [x0, x1] lies between f0 and f1. */
  lemma LerpBetween(x0: real, x1: real, f0: real, f1: real, x: real)
    requires x0 < x1 && x0 <= x <= x1
    ensures Between(Lerp(x0, x1, f0, f1, x), f0, f1)
  {
    var d, u, df := x1 - x0, x - x0, f1 - f0;
    assert 0.0 <= u <= d;
    if df >= 0.0 {
      assert 0.0 <= u * df <= d * df;
      assert 0.0 <= u * df / d <= df;
    } else {
      assert d * df <= u * df <= 0.0;
      assert df <= u * df / d <= 0.0;
    }
  }

  /** `ocv(v_pts, z_pts, soc)`: one interpolated voltage per SOC value, over the
      anchors reversed together so that each voltage keeps its SOC. Empty
      anchors, or anchor arrays of different lengths, are numpy's ValueError. */
  function Ocv(vPts: seq<real>, zPts: seq<real>, soc: seq<real>): (r: Result<seq<real>>)
    ensures r.Ok? <==> |vPts| == |zPts| > 0
    ensures r.Ok? ==> |r.value| == |soc|
  {
    if |zPts| == 0 then Err(EmptyInput)
    else if |vPts| != |zPts| then Err(LengthMismatch)
    else
      var zp, vp := Reverse(zPts), Reverse(vPts);
      Ok(seq(|soc|, k requires 0 <= k < |soc| => Interp(soc[k], zp, vp)))
  }

  /** With strictly decreasing SOC anchors, an SOC equal to anchor j gives voltage j. */
  lemma OcvAtAnchor(vPts: seq<real>, zPts: seq<real>, soc: seq<real>, k: nat, j: nat)
    requires |vPts| == |zPts| > 0 && StrictlyDecreasing(zPts)
    requires k < |soc| && j < |zPts| && soc[k] == zPts[j]
    ensures Ocv(vPts, zPts, soc).value[k] == vPts[j]
  {
    var n := |zPts|;
    ReverseOfDecreasing(zPts);
    InterpAtKnot(Reverse(zPts), Reverse(vPts), n - 1 - j);
  }

  /** With strictly decreasing SOC anchors, SOC at or above the first anchor
      gives the first voltage, and at or below the last anchor the last voltage. */
  lemma OcvClamps(vPts: seq<real>, zPts: seq<real>, soc: seq<real>, k: nat)
    requires |vPts| == |zPts| > 0 && StrictlyDecreasing(zPts) && k < |soc|
    ensures soc[k] >= zPts[0] ==> Ocv(vPts, zPts, soc).value[k] == vPts[0]
    ensures soc[k] <= zPts[|zPts| - 1] ==> Ocv(vPts, zPts, soc).value[k] == vPts[|vPts| - 1]
  {
    ReverseOfDecreasing(zPts);
    if soc[k] >= zPts[0] {
      InterpAbove(soc[k], Reverse(zPts), Reverse(vPts));
    }
  }

  /** With strictly decreasing SOC anchors, an SOC between anchors j + 1 and j
      gives a voltage between voltages j + 1 and j, both included. */
  lemma OcvBetweenAnchors(vPts: seq<real>, zPts: seq<real>, soc: seq<real>, k: nat, j: nat)
    requires |vPts| == |zPts| > 0 && StrictlyDecreasing(zPts)
    requires k < |soc| && j + 1 < |zPts| && zPts[j + 1] <= soc[k] <= zPts[j]
    ensures Between(Ocv(vPts, zPts, soc).value[k], vPts[j + 1], vPts[j])
  {
    var n := |zPts|;
    var zp, vp := Reverse(zPts), Reverse(vPts);
    var m := n - 2 - j;
    ReverseOfDecreasing(zPts);
    assert zp[m] == zPts[j + 1] && zp[m + 1] == zPts[j];
    assert vp[m] == vPts[j + 1] && vp[m + 1] == vPts[j];
    assert Ocv(vPts, zPts, soc).value[k] == Interp(soc[k], zp, vp);
    InterpOnSegment(soc[k], zp, vp, m);
    LerpBetween(zp[m], zp[m + 1], vp[m], vp[m + 1], soc[k]);
  }

  /** Every index of `ids` selects a sample of `x`. */
  predicate IndexesInto(ids: seq<nat>, x: seq<real>) {
    forall j :: 0 <= j < |ids| ==> ids[j] < |x|
  }

  /** `r` is `np.append(x[ids], x[-1])`: x at every marker, then x's final sample. */
  predicate MarkersThenLast(r: seq<real>, x: seq<real>, ids: seq<nat>) {
    && |x| > 0 && IndexesInto(ids, x)
    && |r| == |ids| + 1 && r[|ids|] == x[|x| - 1]
    && forall j :: 0 <= j < |ids| ==> r[j] == x[ids[j]]
  }

  /** The four anchor arrays: current, time, voltage and SOC. */
  datatype Points = Points(i: seq<real>, t: seq<real>, v: seq<real>, z: seq<real>)

  function Pick(x: seq<real>, ids: seq<nat>): (r: seq<real>)
    requires |x| > 0 && IndexesInto(ids, x)
    ensures MarkersThenLast(r, x, ids)
  {
    seq(|ids|, j requires 0 <= j < |ids| => x[ids[j]]) + [x[|x| - 1]]
  }

  /** `points`: current, time, voltage and SOC at every marker of `id0`, each
      followed by the final sample. An empty column or a marker past the end
      of one is numpy's IndexError. */
  function OcvPoints(current: seq<real>, time: seq<real>, voltage: seq<real>, soc: seq<real>, id0: seq<nat>)
    : (r: Result<Points>)
    ensures r.Ok? <==>
      && |current| > 0 && |time| > 0 && |voltage| > 0 && |soc| > 0
      && IndexesInto(id0, current) && IndexesInto(id0, time) && IndexesInto(id0, voltage) && IndexesInto(id0, soc)
    ensures r.Ok? ==>
      && MarkersThenLast(r.value.i, current, id0) && MarkersThenLast(r.value.t, time, id0)
      && MarkersThenLast(r.value.v, voltage, id0) && MarkersThenLast(r.value.z, soc, id0)
  {
    if |current| == 0 || |time| == 0 || |voltage| == 0 || |soc| == 0 then Err(IndexOutOfRange)
    else if !(IndexesInto(id0, current) && IndexesInto(id0, time) && IndexesInto(id0, voltage) && IndexesInto(id0, soc))
    then Err(IndexOutOfRange)
    else Ok(Points(Pick(current, id0), Pick(time, id0), Pick(voltage, id0), Pick(soc, id0)))
  }
}

=== FILE: outcome.dfy ===
/** Failure-compatible result type for the places where the Python code raises
    (an IndexError on too few markers, a ValueError on an empty array, ...) or
    where numpy would silently produce inf/nan. */
module Outcome {

  /** Why an operation of the pipeline has no value. */
  datatype Error =
    | TooFewMarkers(needed: nat, found: nat)   // `ids[k]` past the end of the marker list
    | IndexOutOfRange                         // any other out-of-range subscript
    | EmptyInput                              // max/min/argmin/[-1] of an empty array
    | NoSuchSample                            // `np.where(x == v)[0][0]` with no match
    | DegenerateSegment(row: nat)             // a division by zero while deriving RC row `row`
    | UnsupportedCoefficientCount(n: nat)     // `guess` never bound, or a coefficient row not of 5 values
    | LengthMismatch                          // arrays of different lengths: `np.interp` anchors, a failed broadcast

  datatype Result<+T> = Ok(value: T) | Err(error: Error) {

    predicate IsFailure() {
      Err?
    }

    function PropagateFailure<U>(): Result<U>
      requires Err?
    {
      Err(error)
    }

    function Extract(): T
      requires Ok?
    {
      value
    }
  }

  datatype Option<+T> = None | Some(value: T)

  /** The values of a loop whose iterations may raise: every value when no
      iteration raises, otherwise the error of the first one that does. */
  function Collect<T>(rs: seq<Result<T>>): (r: Result<seq<T>>)
    ensures r.Ok? <==> forall i :: 0 <= i < |rs| ==> rs[i].Ok?
    ensures r.Ok? ==> |r.value| == |rs| && forall i :: 0 <= i < |rs| ==> r.value[i] == rs[i].value
  {
    if |rs| == 0 then Ok([])
    else if rs[0].Err? then Err(rs[0].error)
    else
      var rest := Collect(rs[1..]);
      if rest.Err? then Err(rest.error)
      else
        assert forall i :: 1 <= i < |rs| ==> rs[i] == rs[1..][i - 1];
        Ok([rs[0].value] + rest.value)
  }

  /** Collect stops at the first raising iteration: its error is the result. */
  lemma {:induction false} CollectFirstError<T>(rs: seq<Result<T>>, k: nat)
    requires k < |rs| && rs[k].Err? && forall i :: 0 <= i < k ==> rs[i].Ok?
    ensures Collect(rs) == Err(rs[k].error)
  {
    if k > 0 {
      assert forall i :: 0 <= i < k - 1 ==> rs[1..][i] == rs[i + 1];
      CollectFirstError(rs[1..], k - 1);
    }
  }
}

=== FILE: pack_loaders.dfy ===
/** `ModuleHppcData` (ecm/module_hppc_data.py): the HPPC section of a module
    test, between start/stop markers 21 and 76. */
module ModuleHppcData {
  import opened Outcome
  import opened Markers

  /** Marker opening the HPPC section of the module test. */
  const FirstMarker: nat := 21
  /** Marker closing the HPPC section of the module test. */
  const LastMarker: nat := 76

  /** Columns time, current, voltage, temperature A1 and acquisition flag. */
  datatype ModuleLog = ModuleLog(
    time: seq<real>, current: seq<real>, voltage: seq<real>, tempA1: seq<real>, flags: seq<char>)
  {
    predicate WellFormed() {
      |time| == |current| == |voltage| == |tempA1| == |flags|
    }
  }

  /** `m` holds rows lo .. hi - 1 of all five columns of `raw`. */
  predicate KeepsRows(m: ModuleLog, raw: ModuleLog, lo: nat, hi: nat)
    requires raw.WellFormed() && lo <= hi <= |raw.time|
  {
    && m.WellFormed() && |m.time| == hi - lo
    && (forall k :: 0 <= k < hi - lo ==> m.time[k] == raw.time[lo + k] && m.current[k] == raw.current[lo + k])
    && (forall k :: 0 <= k < hi - lo ==> m.voltage[k] == raw.voltage[lo + k] && m.tempA1[k] == raw.tempA1[lo + k])
    && (forall k :: 0 <= k < hi - lo ==> m.flags[k] == raw.flags[lo + k])
  }

  /** `x[lo:hi]` of every column. */
  function Rows(raw: ModuleLog, lo: nat, hi: nat): (m: ModuleLog)
    requires raw.WellFormed() && lo <= hi <= |raw.time|
    ensures KeepsRows(m, raw, lo, hi)
  {
    ModuleLog(raw.time[lo..hi], raw.current[lo..hi], raw.voltage[lo..hi], raw.tempA1[lo..hi], raw.flags[lo..hi])
  }

  /** `__init__` after parsing. With `all_data` every row is kept; otherwise all
      five columns keep rows `ids[21] .. ids[76]` inclusive, which open and close
      on a marker, and fewer than 77 markers is the IndexError of `ids[76]`. */
  function Load(raw: ModuleLog, allData: bool): (r: Result<ModuleLog>)
    requires raw.WellFormed()
    ensures allData ==> r == Ok(raw)
    ensures !allData ==> (r.Ok? <==> |Where(raw.flags, StartStop)| > LastMarker)
    ensures !allData && r.Ok? ==>
      var ids := Where(raw.flags, StartStop);
      var lo, hi := ids[FirstMarker], ids[LastMarker] + 1;
      && lo < hi <= |raw.time| && KeepsRows(r.value, raw, lo, hi)
      && r.value.flags[0] == StartStop && r.value.flags[hi - lo - 1] == StartStop
  {
    if allData then Ok(raw)
    else
      var ids := Where(raw.flags, StartStop);
      if |ids| <= LastMarker then Err(TooFewMarkers(LastMarker + 1, |ids|))
      else
        var lo, hi := ids[FirstMarker], ids[LastMarker] + 1;
        assert lo < hi <= |raw.flags| && raw.flags[lo] == StartStop && raw.flags[hi - 1] == StartStop;
        Ok(Rows(raw, lo, hi))
  }
}

/** Truncation of drive-cycle logs at the first sample taken at 600 s. */
module DriveCycle {
  import opened Outcome

  /** End of the modelled part of the US06 drive cycle [s]. */
  const EndTime: real := 600.0

  /** `np.where(time == x)[0][0]`: the first index holding x, if any. */
  function FirstIndexOf(time: seq<real>, x: real): (r: Option<nat>)
    ensures r.Some? <==> x in time
    ensures r.Some? ==> r.value < |time| && time[r.value] == x
    ensures r.Some? ==> forall k :: 0 <= k < r.value ==> time[k] != x
  {
    if |time| == 0 then None
    else if time[0] == x then Some(0)
    else match FirstIndexOf(time[1..], x)
      case None => None
      case Some(k) => Some(k + 1)
  }
}

/** `PackUs06Data` (ecm/pack_us06_data.py): the first 600 s of the pack's US06 test. */
module PackUs06Data {
  import opened Outcome
  import opened DriveCycle

  /** Columns time, current, voltage and temperatures A1..A3. */
  datatype PackLog = PackLog(
    time: seq<real>, current: seq<real>, voltage: seq<real>,
    tempA1: seq<real>, tempA2: seq<real>, tempA3: seq<real>)
  {
    predicate WellFormed() {
      |time| == |current| == |voltage| == |tempA1| == |tempA2| == |tempA3|
    }
  }

  /** `__init__` after parsing. With `all_data` every row is kept; otherwise the
      six columns keep rows 0 .. idx, idx being the first index whose time is
      exactly 600; no such sample is the IndexError of `[0][0]`. */
  function Load(raw: PackLog, allData: bool): (r: Result<PackLog>)
    requires raw.WellFormed()
    ensures allData ==> r == Ok(raw)
    ensures !allData ==> (r.Ok? <==> EndTime in raw.time)
    ensures !allData && r.Ok? ==>
      var p := r.value;
      && p.WellFormed() && 0 < |p.time| <= |raw.time|
      && p.time[|p.time| - 1] == EndTime
      && (forall k :: 0 <= k < |p.time| - 1 ==> p.time[k] != EndTime)
      && (forall k :: 0 <= k < |p.time| ==> p.time[k] == raw.time[k] && p.current[k] == raw.current[k])
      && (forall k :: 0 <= k < |p.time| ==> p.voltage[k] == raw.voltage[k] && p.tempA1[k] == raw.tempA1[k])
      && (forall k :: 0 <= k < |p.time| ==> p.tempA2[k] == raw.tempA2[k] && p.tempA3[k] == raw.tempA3[k])
  {
    if allData then Ok(raw)
    else match FirstIndexOf(raw.time, EndTime)
      case None => Err(NoSuchSample)
      case Some(idx) =>
        Ok(PackLog(raw.time[..idx + 1], raw.current[..idx + 1], raw.voltage[..idx + 1],
                   raw.tempA1[..idx + 1], raw.tempA2[..idx + 1], raw.tempA3[..idx + 1]))
  }
}

/** `ModulesData` (ecm/modules_data.py): three modules in series on a drive cycle. */
module ModulesData {
  import opened Outcome
  import opened DriveCycle

  /** Every column of the log, as parsed. */
  datatype ModulesLog = ModulesLog(
    time: seq<real>, step: seq<real>, current: seq<real>, voltage: seq<real>,
    charge: seq<real>, discharge: seq<real>, power: seq<real>,
    tempA1: seq<real>, tempA2: seq<real>, tempA3: seq<real>, flag: seq<char>)

  /** `process`: time, current and voltage keep rows 0 .. idx, idx being the first
      index whose time is exactly 600; every other column is left as it was, so
      the columns no longer share one length. No such sample is an IndexError. */
  function Process(d: ModulesLog): (r: Result<ModulesLog>)
    requires |d.time| == |d.current| == |d.voltage|
    ensures r.Ok? <==> EndTime in d.time
    ensures r.Ok? ==>
      var m := r.value;
      && 0 < |m.time| == |m.current| == |m.voltage| <= |d.time|
      && m.time[|m.time| - 1] == EndTime
      && (forall k :: 0 <= k < |m.time| - 1 ==> m.time[k] != EndTime)
      && (forall k :: 0 <= k < |m.time| ==> m.time[k] == d.time[k] && m.current[k] == d.current[k] && m.voltage[k] == d.voltage[k])
      && m.step == d.step && m.charge == d.charge && m.discharge == d.discharge && m.power == d.power
      && m.tempA1 == d.tempA1 && m.tempA2 == d.tempA2 && m.tempA3 == d.tempA3 && m.flag == d.flag
  {
    match FirstIndexOf(d.time, EndTime)
    case None => Err(NoSuchSample)
    case Some(idx) =>
      Ok(d.(time := d.time[..idx + 1], current := d.current[..idx + 1], voltage := d.voltage[..idx + 1]))
  }
}

=== FILE: rc.dfy ===
/** RC parameters of the two-time-constant model from HPPC pulses
    (`rctau_ttc` in ecmlib/hppc_ecm.py, ecmlib/equiv_circ_model.py and
    ecm/module_ecm.py), the fitted exponentials, and the windows handed to the
    curve fit. The fit itself is not modelled: its coefficients are inputs. */
module RcParams {
  import opened Outcome
  import opened Numeric

  /** One row of `rctau`: time constants, series and branch resistances, and
      branch capacitances of one 10 % SOC section. */
  datatype RcRow = RcRow(tau1: real, tau2: real, r0: real, r1: real, r2: real, c1: real, c2: real)

  /** Coefficients of `a - b e^(-alpha t) - c e^(-beta t)`, the row `popt` of the fit. */
  datatype Coeff = Coeff(a: real, b: real, c: real, alpha: real, beta: real)

  /** `func_otc(t, a, b, alpha)`: the one-time-constant curve, worth `a - b` at t = 0. */
  function FuncOtc(t: real, a: real, b: real, alpha: real, exp: real -> real): (v: real)
    ensures t == 0.0 && exp(0.0) == 1.0 ==> v == a - b
    ensures exp(-alpha * t) == 0.0 ==> v == a
  {
    assert t == 0.0 ==> -alpha * t == 0.0;
    a - b * exp(-alpha * t)
  }

  /** `func_ttc(t, a, b, c, alpha, beta)`: the two-time-constant curve, worth
      `a - b - c` at t = 0. */
  function FuncTtc(t: real, a: real, b: real, c: real, alpha: real, beta: real, exp: real -> real): (v: real)
    ensures t == 0.0 && exp(0.0) == 1.0 ==> v == a - b - c
    ensures v == FuncOtc(t, a, b, alpha, exp) - c * exp(-beta * t)
  {
    assert t == 0.0 ==> -alpha * t == 0.0 && -beta * t == 0.0;
    a - b * exp(-alpha * t) - c * exp(-beta * t)
  }

  /** The relations a derived row satisfies with the step it came from: current
      step `di`, voltage step `dv`, pulse-to-rest time `dt` and coefficients `k`. */
  predicate RowLaws(row: RcRow, di: real, dv: real, dt: real, k: Coeff, exp: real -> real)
    requires row.tau1 != 0.0 && row.tau2 != 0.0
  {
    && row.tau1 * k.alpha == 1.0 && row.tau2 * k.beta == 1.0
    && row.r0 * di == dv && row.r0 >= 0.0
    && BranchLaw(row.r1, row.c1, row.tau1, k.b, exp(-dt / row.tau1), di)
    && BranchLaw(row.r2, row.c2, row.tau2, k.c, exp(-dt / row.tau2), di)
  }

  /** One RC branch with resistance r, capacitance c and time constant tau,
      fitted coefficient b and decay e over the pulse: `r (1 - e) di = b` and
      `c r = tau`. */
  predicate BranchLaw(r: real, c: real, tau: real, b: real, e: real, di: real) {
    r * ((1.0 - e) * di) == b && c * r == tau
  }

  /** `tau = 1 / alpha`: the time constant of a fitted decay rate. */
  function TimeConstant(rate: real): (tau: real)
    requires rate != 0.0
    ensures tau * rate == 1.0 && tau != 0.0
  {
    1.0 / rate
  }

  /** Every division of the row has a nonzero divisor (numpy would give inf or nan otherwise). */
  predicate Derivable(di: real, dt: real, k: Coeff, exp: real -> real) {
    && di != 0.0 && k.alpha != 0.0 && k.beta != 0.0 && k.b != 0.0 && k.c != 0.0
    && exp(-dt / TimeConstant(k.alpha)) != 1.0 && exp(-dt / TimeConstant(k.beta)) != 1.0
  }

  lemma QuotientTimesDivisor(x: real, y: real)
    requires y != 0.0
    ensures (x / y) * y == x
  {
  }

  /** The row of a derivable step: `tau = 1/alpha`, `r0 = dv/di`,
      `r = b / ((1 - e^(-dt/tau)) di)` and `c = tau / r` for each branch. */
  function MakeRow(di: real, dv: real, dt: real, k: Coeff, exp: real -> real): RcRow
    requires Derivable(di, dt, k, exp)
  {
    var tau1, tau2 := TimeConstant(k.alpha), TimeConstant(k.beta);
    BranchRow(di, dv, k.b, k.c, tau1, tau2, exp(-dt / tau1), exp(-dt / tau2))
  }

  /** One RC branch: `r = b / ((1 - e) di)` is nonzero and satisfies the
      branch law with `c = tau / r`. */
  lemma BranchLaws(b: real, e: real, di: real, tau: real)
    requires (1.0 - e) * di != 0.0 && b != 0.0
    ensures b / ((1.0 - e) * di) != 0.0
    ensures BranchLaw(b / ((1.0 - e) * di), tau / (b / ((1.0 - e) * di)), tau, b, e, di)
  {
    var d := (1.0 - e) * di;
    var r := b / d;
    QuotientTimesDivisor(b, d);
    assert r != 0.0;
    QuotientTimesDivisor(tau, r);
  }

  /** The row from its two time constants, the decays `e1`, `e2` of the
      branches over the pulse, and the branch coefficients b and c. */
  function BranchRow(di: real, dv: real, b: real, c: real, tau1: real, tau2: real, e1: real, e2: real): RcRow
    requires di != 0.0 && e1 != 1.0 && e2 != 1.0 && b != 0.0 && c != 0.0
  {
    var r1 := b / ((1.0 - e1) * di);
    var r2 := c / ((1.0 - e2) * di);
    RcRow(tau1, tau2, dv / di, r1, r2, tau1 / r1, tau2 / r2)
  }

  /** The series resistance undoes its division, and each branch satisfies its law. */
  lemma BranchRowLaws(di: real, dv: real, b: real, c: real, tau1: real, tau2: real, e1: real, e2: real)
    requires di != 0.0 && e1 != 1.0 && e2 != 1.0 && b != 0.0 && c != 0.0
    ensures var row := BranchRow(di, dv, b, c, tau1, tau2, e1, e2);
      && row.tau1 == tau1 && row.tau2 == tau2 && row.r0 * di == dv
      && BranchLaw(row.r1, row.c1, tau1, b, e1, di) && BranchLaw(row.r2, row.c2, tau2, c, e2, di)
  {
    assert (1.0 - e1) * di != 0.0 && (1.0 - e2) * di != 0.0;
    QuotientTimesDivisor(dv, di);
    BranchLaws(b, e1, di, tau1);
    BranchLaws(c, e2, di, tau2);
  }

  lemma MakeRowLaws(di: real, dv: real, dt: real, k: Coeff, exp: real -> real)
    requires Derivable(di, dt, k, exp) && di >= 0.0 && dv >= 0.0
    ensures MakeRow(di, dv, dt, k, exp).tau1 != 0.0 && MakeRow(di, dv, dt, k, exp).tau2 != 0.0
    ensures RowLaws(MakeRow(di, dv, dt, k, exp), di, dv, dt, k, exp)
  {
    var tau1, tau2 := TimeConstant(k.alpha), TimeConstant(k.beta);
    BranchRowLaws(di, dv, k.b, k.c, tau1, tau2, exp(-dt / tau1), exp(-dt / tau2));
    assert dv / di >= 0.0;
  }

  /** One row of `rctau_ttc`: currents i0, i1 and voltages v0, v1 at the start
      and end of the pulse, times t0 and t2 at its start and at the next rest,
      and the fit coefficients. `a` is unpacked and discarded. */
  function DeriveRow(i0: real, i1: real, t0: real, t2: real, v0: real, v1: real, k: Coeff, exp: real -> real, row: nat)
    : (r: Result<RcRow>)
    ensures r.Ok? <==> Derivable(Abs(i1 - i0), t2 - t0, k, exp)
    ensures !r.Ok? ==> r.error == DegenerateSegment(row)
    ensures r.Ok? ==> r.value == MakeRow(Abs(i1 - i0), Abs(v1 - v0), t2 - t0, k, exp)
  {
    var di, dt, dv := Abs(i1 - i0), t2 - t0, Abs(v1 - v0);
    if !Derivable(di, dt, k, exp) then Err(DegenerateSegment(row))
    else Ok(MakeRow(di, dv, dt, k, exp))
  }

  /** A derived row satisfies the RC laws with the step it was derived from. */
  lemma DeriveRowLaws(i0: real, i1: real, t0: real, t2: real, v0: real, v1: real, k: Coeff, exp: real -> real, row: nat)
    requires DeriveRow(i0, i1, t0, t2, v0, v1, k, exp, row).Ok?
    ensures DeriveRow(i0, i1, t0, t2, v0, v1, k, exp, row).value.tau1 != 0.0
    ensures DeriveRow(i0, i1, t0, t2, v0, v1, k, exp, row).value.tau2 != 0.0
    ensures RowLaws(DeriveRow(i0, i1, t0, t2, v0, v1, k, exp, row).value, Abs(i1 - i0), Abs(v1 - v0), t2 - t0, k, exp)
  {
    MakeRowLaws(Abs(i1 - i0), Abs(v1 - v0), t2 - t0, k, exp);
  }

  /** The rows 0 .. n - 1 of the marker arrays and of the coefficients exist, and
      every coefficient row has the five values the unpacking needs. */
  predicate Covers(current: seq<real>, time: seq<real>, voltage: seq<real>,
                   id0: seq<nat>, id1: seq<nat>, id2: seq<nat>, coeff: seq<seq<real>>, k: nat) {
    && k < |id0| && k < |id1| && k < |id2| && k < |coeff| && |coeff[k]| == 5
    && id0[k] < |current| && id1[k] < |current| && id0[k] < |time| && id2[k] < |time|
    && id0[k] < |voltage| && id1[k] < |voltage|
  }

  function CoeffOf(c: seq<real>): Coeff
    requires |c| == 5
  {
    Coeff(c[0], c[1], c[2], c[3], c[4])
  }

  /** Row k of `rctau_ttc` matches the data at markers id0[k], id1[k], id2[k] and
      coefficient row k. */
  predicate RowFromData(row: RcRow, current: seq<real>, time: seq<real>, voltage: seq<real>,
                        id0: seq<nat>, id1: seq<nat>, id2: seq<nat>, coeff: seq<seq<real>>, k: nat, exp: real -> real) {
    && Covers(current, time, voltage, id0, id1, id2, coeff, k)
    && row.tau1 != 0.0 && row.tau2 != 0.0
    && RowLaws(row, Abs(current[id1[k]] - current[id0[k]]), Abs(voltage[id1[k]] - voltage[id0[k]]),
               time[id2[k]] - time[id0[k]], CoeffOf(coeff[k]), exp)
  }

  /** Iteration k of the `rctau_ttc` loop: an IndexError for a missing marker,
      sample or coefficient row, a ValueError for a row that is not five values. */
  function RowAt(current: seq<real>, time: seq<real>, voltage: seq<real>,
                 id0: seq<nat>, id1: seq<nat>, id2: seq<nat>, coeff: seq<seq<real>>, k: nat, exp: real -> real)
    : (r: Result<RcRow>)
    ensures r.Ok? ==> Covers(current, time, voltage, id0, id1, id2, coeff, k)
    ensures Covers(current, time, voltage, id0, id1, id2, coeff, k) ==>
      (r.Ok? <==> Derivable(Abs(current[id1[k]] - current[id0[k]]), time[id2[k]] - time[id0[k]], CoeffOf(coeff[k]), exp))
    ensures r.Ok? ==> r.value == MakeRow(Abs(current[id1[k]] - current[id0[k]]), Abs(voltage[id1[k]] - voltage[id0[k]]),
                                         time[id2[k]] - time[id0[k]], CoeffOf(coeff[k]), exp)
  {
    if !(k < |id0| && k < |id1| && k < |id2|) then Err(IndexOutOfRange)
    else if !(id0[k] < |current| && id1[k] < |current| && id0[k] < |time| && id2[k] < |time|
              && id0[k] < |voltage| && id1[k] < |voltage|) then Err(IndexOutOfRange)
    else if k >= |coeff| then Err(IndexOutOfRange)
    else if |coeff[k]| != 5 then Err(UnsupportedCoefficientCount(|coeff[k]|))
    else
      DeriveRow(current[id0[k]], current[id1[k]], time[id0[k]], time[id2[k]],
                voltage[id0[k]], voltage[id1[k]], CoeffOf(coeff[k]), exp, k)
  }

  /** The first n iterations of the `rctau_ttc` loop; the loop runs for
      `nrow = len(id0)`. */
  function Table(current: seq<real>, time: seq<real>, voltage: seq<real>,
                 id0: seq<nat>, id1: seq<nat>, id2: seq<nat>, coeff: seq<seq<real>>, n: nat, exp: real -> real)
    : (r: Result<seq<RcRow>>)
    requires n <= |id0|
    ensures r.Ok? <==> forall k :: 0 <= k < n ==> RowAt(current, time, voltage, id0, id1, id2, coeff, k, exp).Ok?
    ensures r.Ok? ==> |r.value| == n
    ensures r.Ok? ==> forall k :: 0 <= k < n ==> r.value[k] == RowAt(current, time, voltage, id0, id1, id2, coeff, k, exp).value
  {
    if n == 0 then Ok([])
    else
      var rows :- Table(current, time, voltage, id0, id1, id2, coeff, n - 1, exp);
      var row :- RowAt(current, time, voltage, id0, id1, id2, coeff, n - 1, exp);
      assert forall k :: 0 <= k < n - 1 ==> (rows + [row])[k] == rows[k];
      Ok(rows + [row])
  }

  /** Every row of a computed table satisfies the RC laws with the data at its
      markers and its coefficient row: `tau1 alpha = 1`, `tau2 beta = 1`,
      `r0 |di| = |dv|` with `r0 >= 0`, and `c r = tau` in both branches. */
  lemma TableRowLaws(current: seq<real>, time: seq<real>, voltage: seq<real>,
                     id0: seq<nat>, id1: seq<nat>, id2: seq<nat>, coeff: seq<seq<real>>, n: nat, exp: real -> real, k: nat)
    requires n <= |id0| && k < n
    requires Table(current, time, voltage, id0, id1, id2, coeff, n, exp).Ok?
    ensures |Table(current, time, voltage, id0, id1, id2, coeff, n, exp).value| == n
    ensures RowFromData(Table(current, time, voltage, id0, id1, id2, coeff, n, exp).value[k],
                        current, time, voltage, id0, id1, id2, coeff, k, exp)
  {
    var r := RowAt(current, time, voltage, id0, id1, id2, coeff, k, exp);
    assert r.Ok?;
    DeriveRowLaws(current[id0[k]], current[id1[k]], time[id0[k]], time[id2[k]],
                  voltage[id0[k]], voltage[id1[k]], CoeffOf(coeff[k]), exp, k);
  }

  lemma DeriveRowIgnoresOffset(i0: real, i1: real, t0: real, t2: real, v0: real, v1: real,
                               k: Coeff, a: real, exp: real -> real, row: nat)
    ensures DeriveRow(i0, i1, t0, t2, v0, v1, k, exp, row) == DeriveRow(i0, i1, t0, t2, v0, v1, k.(a := a), exp, row)
  {
    var di, dt, dv := Abs(i1 - i0), t2 - t0, Abs(v1 - v0);
    var k' := k.(a := a);
    assert k'.b == k.b && k'.c == k.c && k'.alpha == k.alpha && k'.beta == k.beta;
    assert Derivable(di, dt, k, exp) == Derivable(di, dt, k', exp);
  }

  lemma RowAtIgnoresOffset(current: seq<real>, time: seq<real>, voltage: seq<real>,
                           id0: seq<nat>, id1: seq<nat>, id2: seq<nat>,
                           coeff: seq<seq<real>>, coeff': seq<seq<real>>, k: nat, exp: real -> real)
    requires |coeff| == |coeff'|
    requires forall k :: 0 <= k < |coeff| ==> |coeff[k]| == |coeff'[k]|
    requires forall k, j :: 0 <= k < |coeff| && 1 <= j < |coeff[k]| ==> coeff[k][j] == coeff'[k][j]
    ensures RowAt(current, time, voltage, id0, id1, id2, coeff, k, exp)
         == RowAt(current, time, voltage, id0, id1, id2, coeff', k, exp)
  {
    if Covers(current, time, voltage, id0, id1, id2, coeff, k) {
      var c := CoeffOf(coeff[k]);
      assert CoeffOf(coeff'[k]) == c.(a := coeff'[k][0]);
      DeriveRowIgnoresOffset(current[id0[k]], current[id1[k]], time[id0[k]], time[id2[k]],
                             voltage[id0[k]], voltage[id1[k]], c, coeff'[k][0], exp, k);
    }
  }

  /** The fitted offset `a` never reaches the table: two coefficient tables that
      agree on b, c, alpha and beta give the same rows. */
  lemma {:induction false} TableIgnoresOffset(current: seq<real>, time: seq<real>, voltage: seq<real>,
                                              id0: seq<nat>, id1: seq<nat>, id2: seq<nat>,
                                              coeff: seq<seq<real>>, coeff': seq<seq<real>>, n: nat, exp: real -> real)
    requires n <= |id0| && |coeff| == |coeff'|
    requires forall k :: 0 <= k < |coeff| ==> |coeff[k]| == |coeff'[k]|
    requires forall k, j :: 0 <= k < |coeff| && 1 <= j < |coeff[k]| ==> coeff[k][j] == coeff'[k][j]
    ensures Table(current, time, voltage, id0, id1, id2, coeff, n, exp)
         == Table(current, time, voltage, id0, id1, id2, coeff', n, exp)
  {
    if n > 0 {
      TableIgnoresOffset(current, time, voltage, id0, id1, id2, coeff, coeff', n - 1, exp);
      RowAtIgnoresOffset(current, time, voltage, id0, id1, id2, coeff, coeff', n - 1, exp);
    }
  }

  /** Python's `s[lo:hi]` for non-negative bounds: both bounds clamp to |s|, and
      the slice is empty once lo reaches hi. */
  function PySlice(s: seq<real>, lo: nat, hi: nat): (r: seq<real>)
    ensures lo < hi && lo < |s| ==> |r| == (if hi < |s| then hi else |s|) - lo
    ensures lo >= hi || lo >= |s| ==> r == []
    ensures forall k :: 0 <= k < |r| ==> lo + k < |s| && r[k] == s[lo + k]
  {
    var h := if hi < |s| then hi else |s|;
    if lo >= h then [] else s[lo..h]
  }

  /** What one iteration of `curve_fit_coeff` hands to the optimiser: the time
      window rebased to start at 0, the voltage window and the initial guess. */
  datatype FitProblem = FitProblem(t: seq<real>, v: seq<real>, guess: seq<real>)

  /** `p` holds rows lo .. of the time and voltage columns, at least one and
      below hi (all of them when both columns reach hi), time rebased to start at
      0, and a guess made of the window's last voltage followed by `tail`. */
  predicate Posed(p: FitProblem, time: seq<real>, voltage: seq<real>, lo: nat, hi: nat, tail: seq<real>) {
    && 0 < |p.t| == |p.v|
    && p.t[0] == 0.0
    && (forall k :: 0 <= k < |p.t| ==> lo + k < |time| && p.t[k] == time[lo + k] - time[lo])
    && (forall k :: 0 <= k < |p.v| ==> lo + k < |voltage| && p.v[k] == voltage[lo + k])
    && lo + |p.t| <= hi
    && (hi <= |time| && hi <= |voltage| ==> |p.t| == hi - lo)
    && |p.guess| == |tail| + 1 && p.guess[0] == p.v[|p.v| - 1] && p.guess[1..] == tail
  }

  /** Where the window of iteration i stops (exclusive): `ends[i] + 1` for the
      module's `[start:end + 1]`, `ends[i]` for the cell's `[start:end]`. */
  function WindowEnd(ends: seq<nat>, inclusiveEnd: bool, i: nat): nat
    requires i < |ends|
  {
    if inclusiveEnd then ends[i] + 1 else ends[i]
  }

  /** The slice `s[lo:hi]` is not empty. */
  predicate Reaches(s: seq<real>, lo: nat, hi: nat) {
    lo < hi && lo < |s|
  }

  /** A window the optimiser can be handed: its time slice is not empty and its
      voltage slice ends where the time slice does, so both have one length. */
  predicate WindowFits(time: seq<real>, voltage: seq<real>, lo: nat, hi: nat) {
    && Reaches(time, lo, hi)
    && (if hi < |time| then hi else |time|) == (if hi < |voltage| then hi else |voltage|)
  }

  /** Iteration i of `curve_fit_coeff` can succeed: `ends[i]` exists, ncoeff is
      3 or 5, and the window fits. */
  predicate WindowOk(time: seq<real>, voltage: seq<real>, starts: seq<nat>, ends: seq<nat>, ncoeff: nat,
                     inclusiveEnd: bool, i: nat)
    requires i < |starts|
  {
    i < |ends| && (ncoeff == 3 || ncoeff == 5) && WindowFits(time, voltage, starts[i], WindowEnd(ends, inclusiveEnd, i))
  }

  /** Iteration i of `curve_fit_coeff`: the rows from `starts[i]` up to
      `WindowEnd(ends, inclusiveEnd, i)`, and the guess: the last voltage of the
      window followed by `tail3` or `tail5`. The errors come in the source's
      order: `ends[i]` past the end, then the IndexError of `t[0]` on an empty
      time window, then the unbound `guess` of an ncoeff other than 3 or 5, then
      the IndexError of `v[-1]`, then the optimiser's refusal of windows of
      different lengths. */
  function FitProblemAt(time: seq<real>, voltage: seq<real>, starts: seq<nat>, ends: seq<nat>, ncoeff: nat,
                        inclusiveEnd: bool, tail3: seq<real>, tail5: seq<real>, i: nat)
    : (r: Result<FitProblem>)
    requires i < |starts|
    ensures r.Ok? <==> WindowOk(time, voltage, starts, ends, ncoeff, inclusiveEnd, i)
    ensures i >= |ends| ==> r == Err(IndexOutOfRange)
    ensures i < |ends| && !Reaches(time, starts[i], WindowEnd(ends, inclusiveEnd, i)) ==> r == Err(IndexOutOfRange)
    ensures i < |ends| && Reaches(time, starts[i], WindowEnd(ends, inclusiveEnd, i)) && ncoeff != 3 && ncoeff != 5 ==>
      r == Err(UnsupportedCoefficientCount(ncoeff))
  {
    if i >= |ends| then Err(IndexOutOfRange)
    else
      var lo, hi := starts[i], WindowEnd(ends, inclusiveEnd, i);
      var t, v := PySlice(time, lo, hi), PySlice(voltage, lo, hi);
      if |t| == 0 then Err(IndexOutOfRange)
      else if ncoeff != 3 && ncoeff != 5 then Err(UnsupportedCoefficientCount(ncoeff))
      else if |v| == 0 then Err(IndexOutOfRange)
      else if |t| != |v| then Err(LengthMismatch)
      else
        var guess := [v[|v| - 1]] + (if ncoeff == 3 then tail3 else tail5);
        Ok(FitProblem(Rebase(t, t[0]), v, guess))
  }

  /** What a successful iteration hands to the optimiser. */
  lemma FitProblemPosed(time: seq<real>, voltage: seq<real>, starts: seq<nat>, ends: seq<nat>, ncoeff: nat,
                        inclusiveEnd: bool, tail3: seq<real>, tail5: seq<real>, i: nat)
    requires i < |starts|
    requires FitProblemAt(time, voltage, starts, ends, ncoeff, inclusiveEnd, tail3, tail5, i).Ok?
    ensures Posed(FitProblemAt(time, voltage, starts, ends, ncoeff, inclusiveEnd, tail3, tail5, i).value,
                  time, voltage, starts[i], if inclusiveEnd then ends[i] + 1 else ends[i],
                  if ncoeff == 3 then tail3 else tail5)
  {
  }

  /** The first n iterations of `curve_fit_coeff`: all n problems, or the
      error of the first iteration that raises. */
  function FitProblems(time: seq<real>, voltage: seq<real>, starts: seq<nat>, ends: seq<nat>, ncoeff: nat,
                       inclusiveEnd: bool, tail3: seq<real>, tail5: seq<real>, n: nat)
    : (r: Result<seq<FitProblem>>)
    requires n <= |starts|
    ensures r.Ok? <==> forall i :: 0 <= i < n ==> FitProblemAt(time, voltage, starts, ends, ncoeff, inclusiveEnd, tail3, tail5, i).Ok?
    ensures r.Ok? <==> forall i :: 0 <= i < n ==> WindowOk(time, voltage, starts, ends, ncoeff, inclusiveEnd, i)
    ensures r.Ok? ==> |r.value| == n
    ensures r.Ok? ==> forall i :: 0 <= i < n ==>
      r.value[i] == FitProblemAt(time, voltage, starts, ends, ncoeff, inclusiveEnd, tail3, tail5, i).value
  {
    var rs := seq(n, i requires 0 <= i < n => FitProblemAt(time, voltage, starts, ends, ncoeff, inclusiveEnd, tail3, tail5, i));
    assert forall i :: 0 <= i < n ==> rs[i] == FitProblemAt(time, voltage, starts, ends, ncoeff, inclusiveEnd, tail3, tail5, i);
    assert forall i :: 0 <= i < n ==> (rs[i].Ok? <==> WindowOk(time, voltage, starts, ends, ncoeff, inclusiveEnd, i));
    Collect(rs)
  }

  /** Every problem of a successful run is posed over its own window. */
  lemma FitProblemsPosed(time: seq<real>, voltage: seq<real>, starts: seq<nat>, ends: seq<nat>, ncoeff: nat,
                         inclusiveEnd: bool, tail3: seq<real>, tail5: seq<real>, ps: seq<FitProblem>)
    requires FitProblems(time, voltage, starts, ends, ncoeff, inclusiveEnd, tail3, tail5, |starts|) == Ok(ps)
    ensures |ps| == |starts| && |ps| <= |ends| && forall i :: 0 <= i < |ps| ==>
      Posed(ps[i], time, voltage, starts[i], if inclusiveEnd then ends[i] + 1 else ends[i], if ncoeff == 3 then tail3 else tail5)
  {
    if |ps| > 0 {
      assert FitProblemAt(time, voltage, starts, ends, ncoeff, inclusiveEnd, tail3, tail5, |ps| - 1).Ok?;
    }
    forall i | 0 <= i < |ps|
      ensures Posed(ps[i], time, voltage, starts[i], if inclusiveEnd then ends[i] + 1 else ends[i], if ncoeff == 3 then tail3 else tail5)
    {
      var at := FitProblemAt(time, voltage, starts, ends, ncoeff, inclusiveEnd, tail3, tail5, i);
      assert at.Ok? && ps[i] == at.value;
      FitProblemPosed(time, voltage, starts, ends, ncoeff, inclusiveEnd, tail3, tail5, i);
    }
  }
}

=== FILE: scripts.dfy ===
/** The cell-to-pack scripts: a pack of `n_series` modules, each of
    `n_parallel` cells in parallel, driven at three times the measured cell
    current. The initial cell SOCs are drawn at random in the scripts; here
    they are a parameter. */
module PackScripts {
  import opened Outcome
  import opened Numeric
  import opened RcParams
  import opened CurrentSplit

  /** The pack is driven at 3C: three times the 1C cell current. */
  const PackFactor: real := 3.0

  /** `i_pack = ecm.current * 3`, split over the cells of the pack: every
      stage is the balanced split of three times the cell current over its own
      cell OCVs, so it carries that current in total at every sample after the
      first, and a stage whose cells start at one SOC gives every cell an equal
      share of it. An empty current is an IndexError. */
  method ScaledSplit(vPts: seq<real>, zPts: seq<real>, zi: seq<seq<real>>, rctau: seq<RcRow>, current: seq<real>,
                     nSeries: nat, nParallel: nat)
    returns (r: Result<seq<seq<real>>>)
    requires nParallel > 0 && Grid(zi, nSeries, nParallel)
    requires forall j :: 0 <= j < |rctau| ==> rctau[j].r0 > 0.0
    ensures r.Ok? <==> |vPts| == |zPts| > 0 && |rctau| > 0 && |current| > 0
    ensures r.Ok? ==> CellRows(r.value, nSeries * nParallel, |current|)
    ensures r.Ok? ==> forall s, p :: 0 <= s < nSeries && 0 <= p < nParallel ==> CellIndex(s, p, nParallel) < |r.value|
    ensures r.Ok? ==> forall c :: 0 <= c < |r.value| ==> r.value[c][0] == 0.0
    ensures r.Ok? ==> forall s, k :: 0 <= s < nSeries && 1 <= k < |current| ==>
      Sum(StageAt(r.value, s, nParallel, k)) == PackFactor * current[k]
    ensures r.Ok? ==> forall s, k :: 0 <= s < nSeries && 1 <= k < |current| && EvenStage(zi, s) ==>
      forall p :: 0 <= p < nParallel ==> StageAt(r.value, s, nParallel, k)[p] == PackFactor * current[k] / nParallel as real
    ensures r.Ok? ==>
      && MeanR0(rctau).Ok? && MeanR0(rctau).value > 0.0 && OcvCells(vPts, zPts, zi).Ok?
      && forall s, k :: 0 <= s < nSeries && 1 <= k < |current| ==>
           StageAt(r.value, s, nParallel, k)
           == StageCurrents(OcvCells(vPts, zPts, zi).value[s], Fill(MeanR0(rctau).value, nSeries, nParallel)[s], PackFactor * current[k])
  {
    var iPack := Scale(current, PackFactor);
    r := SplitPack(vPts, zPts, zi, rctau, iPack, nSeries, nParallel);
  }

  /** Two modules of three cells: six rows; each module is the balanced split
      of the 3C pack current over its own cell OCVs and carries it in total,
      and when a module's cells start at one SOC each of them carries exactly
      the measured 1C cell current. An empty current is an IndexError. */
  method SixCells(vPts: seq<real>, zPts: seq<real>, zi: seq<seq<real>>, rctau: seq<RcRow>, current: seq<real>)
    returns (r: Result<seq<seq<real>>>)
    requires Grid(zi, 2, 3)
    requires forall j :: 0 <= j < |rctau| ==> rctau[j].r0 > 0.0
    ensures r.Ok? <==> |vPts| == |zPts| > 0 && |rctau| > 0 && |current| > 0
    ensures r.Ok? ==> CellRows(r.value, 6, |current|)
    ensures r.Ok? ==> forall s, k :: 0 <= s < 2 && 1 <= k < |current| ==>
      Sum(StageAt(r.value, s, 3, k)) == PackFactor * current[k]
    ensures r.Ok? ==>
      && MeanR0(rctau).Ok? && MeanR0(rctau).value > 0.0 && OcvCells(vPts, zPts, zi).Ok?
      && forall s, k :: 0 <= s < 2 && 1 <= k < |current| ==>
           StageAt(r.value, s, 3, k)
           == StageCurrents(OcvCells(vPts, zPts, zi).value[s], Fill(MeanR0(rctau).value, 2, 3)[s], PackFactor * current[k])
    ensures r.Ok? ==> forall s, p, k :: 0 <= s < 2 && 0 <= p < 3 && 1 <= k < |current| && EvenStage(zi, s) ==>
      r.value[CellIndex(s, p, 3)][k] == current[k]
  {
    r := ScaledSplit(vPts, zPts, zi, rctau, current, 2, 3);
    if r.Ok? {
      forall s, p, k | 0 <= s < 2 && 0 <= p < 3 && 1 <= k < |current| && EvenStage(zi, s)
        ensures r.value[CellIndex(s, p, 3)][k] == current[k]
      {
        assert StageAt(r.value, s, 3, k)[p] == PackFactor * current[k] / 3.0;
      }
    }
  }
}

/** The cell-to-module script: a module of two cells in parallel, two in
    series, every cell starting full, and the module voltage taken as twice the
    first cell's voltage. */
module ModuleScript {
  import opened Outcome
  import opened Numeric
  import opened RcParams
  import opened OpenCircVoltage
  import opened CurrentSplit

  const NSeries: nat := 2
  const NParallel: nat := 2

  /** `zi = np.ones((n_series, n_parallel))`. */
  function InitialSoc(): (zi: seq<seq<real>>)
    ensures Grid(zi, NSeries, NParallel)
    ensures forall s :: 0 <= s < NSeries ==> EvenStage(zi, s)
  {
    Fill(1.0, NSeries, NParallel)
  }

  /** The module current split over the four cells. Every cell starts at the
      same SOC, so every cell carries half the module current after the first
      sample: the even split the script assumes when it fits the cell model to
      half the module current. An empty module current is an IndexError. */
  method CellCurrents(vPts: seq<real>, zPts: seq<real>, rctau: seq<RcRow>, current: seq<real>)
    returns (r: Result<seq<seq<real>>>)
    requires forall j :: 0 <= j < |rctau| ==> rctau[j].r0 > 0.0
    ensures r.Ok? <==> |vPts| == |zPts| > 0 && |rctau| > 0 && |current| > 0
    ensures r.Ok? ==> CellRows(r.value, 4, |current|)
    ensures r.Ok? ==> forall c, k :: 0 <= c < 4 && 1 <= k < |current| ==> r.value[c][k] == Scale(current, 0.5)[k]
    ensures r.Ok? ==> forall c :: 0 <= c < 4 ==> r.value[c][0] == 0.0
  {
    var zi := InitialSoc();
    r := SplitPack(vPts, zPts, zi, rctau, current, NSeries, NParallel);
    if r.Ok? {
      forall c, k | 0 <= c < 4 && 1 <= k < |current|
        ensures r.value[c][k] == Scale(current, 0.5)[k]
      {
        CellOf(c, NSeries, NParallel);
        var s, p := c / 2, c % 2;
        assert StageAt(r.value, s, 2, k)[p] == current[k] / 2.0;
      }
    }
  }

  /** Every cell starts full, so when the full SOC lies at or above the first
      anchor every cell's OCV is the first anchor voltage. */
  lemma UniformOcv(vPts: seq<real>, zPts: seq<real>)
    requires |vPts| == |zPts| > 0 && StrictlyDecreasing(zPts) && zPts[0] <= 1.0
    ensures OcvCells(vPts, zPts, InitialSoc()).Ok?
    ensures forall s, p :: 0 <= s < NSeries && 0 <= p < NParallel ==>
      OcvCells(vPts, zPts, InitialSoc()).value[s][p] == vPts[0]
  {
    var zi := InitialSoc();
    forall s, p | 0 <= s < NSeries && 0 <= p < NParallel
      ensures OcvCells(vPts, zPts, zi).value[s][p] == vPts[0]
    {
      OcvClamps(vPts, zPts, zi[s], p);
    }
  }

  /** `v_module = v_cells[0] * n_series`: the module voltage from the first
      cell alone; no cell rows is an IndexError. */
  function ModuleVoltage(vCells: seq<seq<real>>): (r: Result<seq<real>>)
    ensures r.Ok? <==> |vCells| > 0
    ensures r.Ok? ==> |r.value| == |vCells[0]|
    ensures r.Ok? ==> forall k :: 0 <= k < |r.value| ==> r.value[k] == NSeries as real * vCells[0][k]
  {
    if |vCells| == 0 then Err(IndexOutOfRange) else Ok(Scale(vCells[0], NSeries as real))
  }

  /** The module voltage reads only the first cell: changing any other cell
      leaves it unchanged. */
  lemma ModuleVoltageFirstCellOnly(vCells: seq<seq<real>>, other: seq<seq<real>>)
    requires |vCells| > 0 && |other| > 0 && vCells[0] == other[0]
    ensures ModuleVoltage(vCells) == ModuleVoltage(other)
  {
  }
}

=== FILE: segments.dfy ===
/** Index tuples cut from the start/stop marker list: the short pulse sections
    (`get_idx`) and the long constant-discharge sections (`get_idrc`). */
module Segments {
  import opened Markers

  /** The five index arrays of one tuple, named as in the source. */
  datatype IndexSet = IndexSet(id0: seq<nat>, id1: seq<nat>, id2: seq<nat>, id3: seq<nat>, id4: seq<nat>)

  /** The layout of `get_idx`: `id0 = ids[0::5]`, `id2 = ids[1::5]`,
      `id4 = ids[2::5]`, `id1 = id0 + 1` and `id3 = id2 + 1` (each stride taken
      to the end of the marker list). */
  predicate PulseLayout(ids: seq<nat>, r: IndexSet) {
    && |r.id1| == |r.id0| && |r.id3| == |r.id2|
    && (forall j :: 0 <= j < |r.id0| ==> 5 * j < |ids| && r.id0[j] == ids[5 * j] && r.id1[j] == r.id0[j] + 1)
    && (forall j :: 0 <= j < |r.id2| ==> 5 * j + 1 < |ids| && r.id2[j] == ids[5 * j + 1] && r.id3[j] == r.id2[j] + 1)
    && (forall j :: 0 <= j < |r.id4| ==> 5 * j + 2 < |ids| && r.id4[j] == ids[5 * j + 2])
    && 5 * |r.id0| >= |ids| && 5 * |r.id2| + 1 >= |ids| && 5 * |r.id4| + 2 >= |ids|
  }

  /** The layout of `get_idrc`: `id0 = ids[3::5][:-1]`, `id2 = ids[4::5]`,
      `id4 = ids[5::5]`, `id1 = id0 + 1` and `id3 = id2 + 1`. */
  predicate DischargeLayout(ids: seq<nat>, r: IndexSet) {
    && |r.id1| == |r.id0| && |r.id3| == |r.id2|
    && (|ids| > 3 ==> 5 * |r.id0| + 3 < |ids| <= 5 * |r.id0| + 8)
    && (|ids| <= 3 ==> |r.id0| == 0)
    && (forall j :: 0 <= j < |r.id0| ==> 5 * j + 3 < |ids| && r.id0[j] == ids[5 * j + 3] && r.id1[j] == r.id0[j] + 1)
    && (forall j :: 0 <= j < |r.id2| ==> 5 * j + 4 < |ids| && r.id2[j] == ids[5 * j + 4] && r.id3[j] == r.id2[j] + 1)
    && (forall j :: 0 <= j < |r.id4| ==> 5 * j + 5 < |ids| && r.id4[j] == ids[5 * j + 5])
    && 5 * |r.id2| + 4 >= |ids| && 5 * |r.id4| + 5 >= |ids|
  }

  /** Pulse sections of an HPPC log. */
  function PulseIndices(ids: seq<nat>): (r: IndexSet)
    ensures PulseLayout(ids, r)
  {
    var id0 := Stride(ids, 0);
    var id2 := Stride(ids, 1);
    IndexSet(id0, Succ(id0), id2, Succ(id2), Stride(ids, 2))
  }

  /** Long constant-discharge sections of an HPPC log. */
  function DischargeIndices(ids: seq<nat>): (r: IndexSet)
    ensures DischargeLayout(ids, r)
  {
    var all3 := Stride(ids, 3);
    var id0, id2 := DropLast(all3), Stride(ids, 4);
    assert |all3| > 0 ==> 3 + 5 * (|all3| - 1) < |ids|;
    IndexSet(id0, Succ(id0), id2, Succ(id2), Stride(ids, 5))
  }

  /** Within one group the indices are ordered the way the protocol lays them out. */
  predicate GroupOrdered(r: IndexSet, j: nat)
    requires j < |r.id0| && j < |r.id1| && j < |r.id2| && j < |r.id3| && j < |r.id4|
  {
    r.id0[j] < r.id1[j] <= r.id2[j] < r.id3[j] <= r.id4[j]
  }

  /** Pulse groups: the arrays shrink by at most one element from id0 to id4, and
      every complete group (one that has an id4) is ordered. */
  lemma PulseGroupsOrdered(ids: seq<nat>, r: IndexSet)
    requires Increasing(ids) && PulseLayout(ids, r)
    ensures
      && |r.id4| <= |r.id2| <= |r.id0| <= |r.id4| + 1
      && forall j :: 0 <= j < |r.id4| ==> GroupOrdered(r, j)
  {
    assert |r.id2| <= |r.id0| by {
      if |r.id2| > 0 { assert 5 * (|r.id2| - 1) + 1 < |ids|; }
    }
    assert |r.id4| <= |r.id2| by {
      if |r.id4| > 0 { assert 5 * (|r.id4| - 1) + 2 < |ids|; }
    }
    assert |r.id0| <= |r.id4| + 1 by {
      if |r.id0| > 0 { assert 5 * (|r.id0| - 1) < |ids|; }
    }
    forall j | 0 <= j < |r.id4|
      ensures GroupOrdered(r, j)
    {
      assert ids[5 * j] < ids[5 * j + 1] < ids[5 * j + 2];
    }
  }

  /** Dropping the last `ids[3::5]` entry makes every long-discharge group
      complete: id2 and id4 each have an entry for every id0, and each group is ordered. */
  lemma DischargeGroupsComplete(ids: seq<nat>, r: IndexSet)
    requires Increasing(ids) && DischargeLayout(ids, r)
    ensures
      && |r.id0| <= |r.id4| <= |r.id2|
      && forall j :: 0 <= j < |r.id0| ==> GroupOrdered(r, j)
  {
    assert |r.id0| <= |r.id4| by {
      if |r.id0| > 0 { assert 5 * (|r.id0| - 1) + 3 < |ids|; }
    }
    assert |r.id4| <= |r.id2| by {
      if |r.id4| > 0 { assert 5 * (|r.id4| - 1) + 5 < |ids|; }
    }
    forall j | 0 <= j < |r.id0|
      ensures GroupOrdered(r, j)
    {
      assert ids[5 * j + 3] < ids[5 * j + 4] < ids[5 * j + 5];
    }
  }
}

=== FILE: soc.dfy ===
/** Coulomb-counting state of charge (ecmlib/state_of_charge.py): SOC starts at
    1 and each step adds `eta * i[k] * (t[k] - t[k-1]) / (3600 * q)`, with the
    charge efficiency only for strictly positive current. Nothing is clamped. */
module Coulomb {

  const SecondsPerHour: real := 3600.0

  /** Coulombic efficiency of one sample: `eta_chg` if `i > 0`, else `eta_dis`. */
  function Eta(i: real, etaChg: real, etaDis: real): real {
    if i > 0.0 then etaChg else etaDis
  }

  /** Change of SOC over step k (from sample k - 1 to sample k). */
  function Increment(current: seq<real>, time: seq<real>, etaChg: real, etaDis: real, qAh: real, k: nat): real
    requires 1 <= k < |current| && k < |time| && qAh != 0.0
  {
    (Eta(current[k], etaChg, etaDis) * current[k] * (time[k] - time[k - 1])) / (qAh * SecondsPerHour)
  }

  /** Net change of SOC over steps 1 .. k: the sum of the increments. */
  function Charge(current: seq<real>, time: seq<real>, etaChg: real, etaDis: real, qAh: real, k: nat): real
    requires k < |current| && (k == 0 || k < |time|) && qAh != 0.0
  {
    if k == 0 then 0.0
    else Charge(current, time, etaChg, etaDis, qAh, k - 1) + Increment(current, time, etaChg, etaDis, qAh, k)
  }

  /** `soc(current, time, eta_chg, eta_dis, q_cell)`: one SOC per current
      sample, the first exactly 1, each the start value plus the charge counted so far. */
  method Soc(current: seq<real>, time: seq<real>, etaChg: real, etaDis: real, qCell: real) returns (z: seq<real>)
    requires |current| <= 1 || |time| >= |current|
    requires qCell != 0.0
    ensures |z| == |current|
    ensures |z| > 0 ==> z[0] == 1.0
    ensures forall k :: 0 <= k < |z| ==> z[k] == 1.0 + Charge(current, time, etaChg, etaDis, qCell, k)
  {
    var q := qCell * SecondsPerHour;
    var nc := |current|;
    z := seq(nc, _ => 1.0);
    var k := 1;
    while k < nc
      invariant |z| == nc
      invariant nc == 0 || 1 <= k <= nc
      invariant forall j :: 0 <= j < k && j < nc ==> z[j] == 1.0 + Charge(current, time, etaChg, etaDis, qCell, j)
    {
      var i := current[k];
      var eta := if i > 0.0 then etaChg else etaDis;
      var dz := (eta * i * (time[k] - time[k - 1])) / q;
      assert dz == Increment(current, time, etaChg, etaDis, qCell, k);
      z := z[k := z[k - 1] + dz];
      k := k + 1;
    }
  }

  /** Sign of one increment for a discharge sample. */
  lemma IncrementNonPositive(current: seq<real>, time: seq<real>, etaChg: real, etaDis: real, qAh: real, k: nat)
    requires 1 <= k < |current| && k < |time| && qAh > 0.0
    requires current[k] <= 0.0 && time[k - 1] <= time[k] && etaDis >= 0.0
    ensures Increment(current, time, etaChg, etaDis, qAh, k) <= 0.0
  {
    var dt := time[k] - time[k - 1];
    assert Eta(current[k], etaChg, etaDis) == etaDis;
    assert etaDis * current[k] <= 0.0;
    assert etaDis * current[k] * dt <= 0.0;
  }

  /** Sign of one increment for a charge (or idle) sample. */
  lemma IncrementNonNegative(current: seq<real>, time: seq<real>, etaChg: real, etaDis: real, qAh: real, k: nat)
    requires 1 <= k < |current| && k < |time| && qAh > 0.0
    requires current[k] >= 0.0 && time[k - 1] <= time[k] && etaChg >= 0.0
    ensures Increment(current, time, etaChg, etaDis, qAh, k) >= 0.0
  {
    var dt := time[k] - time[k - 1];
    if current[k] > 0.0 {
      assert etaChg * current[k] >= 0.0;
      assert etaChg * current[k] * dt >= 0.0;
    }
  }

  /** Under pure discharge (every current <= 0, time non-decreasing, eta_dis >= 0,
      positive capacity) SOC never rises: sample k is at most sample j for j <= k. */
  lemma {:induction false} SocNonIncreasing(current: seq<real>, time: seq<real>, etaChg: real, etaDis: real, qAh: real, j: nat, k: nat)
    requires j <= k < |current| && k < |time| && qAh > 0.0 && etaDis >= 0.0
    requires forall m :: 1 <= m < |current| ==> current[m] <= 0.0
    requires forall m :: 1 <= m < |current| && m < |time| ==> time[m - 1] <= time[m]
    ensures 1.0 + Charge(current, time, etaChg, etaDis, qAh, k) <= 1.0 + Charge(current, time, etaChg, etaDis, qAh, j)
    decreases k - j
  {
    if j < k {
      SocNonIncreasing(current, time, etaChg, etaDis, qAh, j, k - 1);
      IncrementNonPositive(current, time, etaChg, etaDis, qAh, k);
    }
  }

  /** Under pure charge (every current >= 0, time non-decreasing, eta_chg >= 0,
      positive capacity) SOC never falls. */
  lemma {:induction false} SocNonDecreasing(current: seq<real>, time: seq<real>, etaChg: real, etaDis: real, qAh: real, j: nat, k: nat)
    requires j <= k < |current| && k < |time| && qAh > 0.0 && etaChg >= 0.0
    requires forall m :: 1 <= m < |current| ==> current[m] >= 0.0
    requires forall m :: 1 <= m < |current| && m < |time| ==> time[m - 1] <= time[m]
    ensures 1.0 + Charge(current, time, etaChg, etaDis, qAh, j) <= 1.0 + Charge(current, time, etaChg, etaDis, qAh, k)
    decreases k - j
  {
    if j < k {
      SocNonDecreasing(current, time, etaChg, etaDis, qAh, j, k - 1);
      IncrementNonNegative(current, time, etaChg, etaDis, qAh, k);
    }
  }

  /** An all-zero current leaves SOC at exactly 1 at every sample. */
  lemma {:induction false} SocIdle(current: seq<real>, time: seq<real>, etaChg: real, etaDis: real, qAh: real, k: nat)
    requires k < |current| && (k == 0 || k < |time|) && qAh != 0.0
    requires forall m :: 0 <= m < |current| ==> current[m] == 0.0
    ensures 1.0 + Charge(current, time, etaChg, etaDis, qAh, k) == 1.0
  {
    if k > 0 {
      SocIdle(current, time, etaChg, etaDis, qAh, k - 1);
    }
  }

  /** `eta_chg` matters only for samples with strictly positive current: without
      any, two charge efficiencies give the same SOC (a zero sample uses `eta_dis`). */
  lemma {:induction false} EtaChgOnlyWhenCharging(current: seq<real>, time: seq<real>, etaChg1: real, etaChg2: real, etaDis: real, qAh: real, k: nat)
    requires k < |current| && (k == 0 || k < |time|) && qAh != 0.0
    requires forall m :: 0 <= m < |current| ==> current[m] <= 0.0
    ensures Charge(current, time, etaChg1, etaDis, qAh, k) == Charge(current, time, etaChg2, etaDis, qAh, k)
  {
    if k > 0 {
      EtaChgOnlyWhenCharging(current, time, etaChg1, etaChg2, etaDis, qAh, k - 1);
      assert Eta(current[k], etaChg1, etaDis) == Eta(current[k], etaChg2, etaDis);
      assert Increment(current, time, etaChg1, etaDis, qAh, k) == Increment(current, time, etaChg2, etaDis, qAh, k);
    }
  }

  /** SOC is not clamped to [0, 1]: one hour of 1 A into a 1 Ah cell with unit
      efficiency reaches SOC 2. */
  lemma SocNotClamped()
    ensures 1.0 + Charge([0.0, 1.0], [0.0, 3600.0], 1.0, 1.0, 1.0, 1) == 2.0
  {
  }
}

=== FILE: split.dfy ===
/** Parallel current split of the pack and module scripts: every series stage
    holds cells in parallel, each a voltage source `ocv` behind a resistor
    `r0`. The stage voltage balances the injected currents against the stage
    current, `v = (sum(ocv / r0) - i) / sum(1 / r0)`, and each cell carries
    `(ocv - v) / r0`. */
module CurrentSplit {
  import opened Outcome
  import opened Numeric
  import opened RcParams
  import opened OpenCircVoltage

  predicate AllPositive(s: seq<real>) {
    forall p :: 0 <= p < |s| ==> s[p] > 0.0
  }

  /** `ocv_cells / r0_cells` along one stage. */
  function Ratio(ocv: seq<real>, r0: seq<real>): (r: seq<real>)
    requires |ocv| == |r0| && AllPositive(r0)
    ensures |r| == |ocv| && forall p :: 0 <= p < |r| ==> r[p] * r0[p] == ocv[p]
  {
    seq(|ocv|, p requires 0 <= p < |ocv| => ocv[p] / r0[p])
  }

  /** `1 / r0_cells` along one stage: the cell conductances. */
  function Recip(r0: seq<real>): (r: seq<real>)
    requires AllPositive(r0)
    ensures |r| == |r0| && AllPositive(r) && forall p :: 0 <= p < |r| ==> r[p] * r0[p] == 1.0
  {
    seq(|r0|, p requires 0 <= p < |r0| => 1.0 / r0[p])
  }

  /** The sum of a non-empty sequence of positive reals is positive. */
  lemma {:induction false} SumPositive(s: seq<real>)
    requires |s| > 0 && AllPositive(s)
    ensures Sum(s) > 0.0
    decreases |s|
  {
    var m := |s| - 1;
    if m > 0 {
      assert AllPositive(s[..m]) by {
        forall p | 0 <= p < m ensures s[..m][p] > 0.0 {
          assert s[..m][p] == s[p];
        }
      }
      SumPositive(s[..m]);
    } else {
      assert s[..m] == [];
    }
  }

  /** `c = a - v b` elementwise. */
  predicate AffineOf(a: seq<real>, b: seq<real>, c: seq<real>, v: real) {
    |a| == |b| == |c| && forall p :: 0 <= p < |c| ==> c[p] == a[p] - v * b[p]
  }

  lemma AffinePrefix(a: seq<real>, b: seq<real>, c: seq<real>, v: real, m: nat)
    requires AffineOf(a, b, c, v) && m <= |c|
    ensures AffineOf(a[..m], b[..m], c[..m], v)
  {
    forall p | 0 <= p < m
      ensures c[..m][p] == a[..m][p] - v * b[..m][p]
    {
      assert c[..m][p] == c[p] && a[..m][p] == a[p] && b[..m][p] == b[p];
    }
  }

  /** `np.sum` is linear: if `c = a - v b` elementwise then `sum(c) = sum(a) - v sum(b)`. */
  lemma {:induction false} SumAffine(a: seq<real>, b: seq<real>, c: seq<real>, v: real)
    requires AffineOf(a, b, c, v)
    ensures Sum(c) == Sum(a) - v * Sum(b)
    decreases |c|
  {
    if |c| > 0 {
      var m := |c| - 1;
      AffinePrefix(a, b, c, v, m);
      SumAffine(a[..m], b[..m], c[..m], v);
      SumAffineStep(a, b, c, v, m);
    }
  }

  /** The last element extends the linearity of the prefix sums to the whole. */
  lemma {:induction false} SumAffineStep(a: seq<real>, b: seq<real>, c: seq<real>, v: real, m: nat)
    requires AffineOf(a, b, c, v) && m + 1 == |c|
    requires Sum(c[..m]) == Sum(a[..m]) - v * Sum(b[..m])
    ensures Sum(c) == Sum(a) - v * Sum(b)
  {
    assert c[m] == a[m] - v * b[m];
    AffineStep(Sum(a[..m]), Sum(b[..m]), Sum(c[..m]), a[m], b[m], c[m], v);
  }

  lemma AffineStep(sa: real, sb: real, sc: real, x: real, y: real, z: real, v: real)
    requires sc == sa - v * sb && z == x - v * y
    ensures sc + z == (sa + x) - v * (sb + y)
  {
  }

  /** The sum of n copies of x is `n x`. */
  lemma {:induction false} SumConstant(s: seq<real>, x: real)
    requires forall p :: 0 <= p < |s| ==> s[p] == x
    ensures Sum(s) == |s| as real * x
    decreases |s|
  {
    if |s| > 0 {
      var m := |s| - 1;
      assert forall p :: 0 <= p < m ==> s[..m][p] == s[p];
      SumConstant(s[..m], x);
      assert (m as real + 1.0) * x == m as real * x + x;
    }
  }

  /** `v_modules[s]`: the terminal voltage shared by the cells of a stage that
      carries current i in total. */
  function StageVoltage(ocv: seq<real>, r0: seq<real>, i: real): (v: real)
    requires |ocv| == |r0| > 0 && AllPositive(r0)
    ensures v * Sum(Recip(r0)) == Sum(Ratio(ocv, r0)) - i
  {
    SumPositive(Recip(r0));
    (Sum(Ratio(ocv, r0)) - i) / Sum(Recip(r0))
  }

  /** `i_cells[k][s]`: each cell's current `(ocv - v) / r0` at the stage voltage. */
  function StageCurrents(ocv: seq<real>, r0: seq<real>, i: real): (c: seq<real>)
    requires |ocv| == |r0| > 0 && AllPositive(r0)
    ensures |c| == |ocv|
    ensures forall p :: 0 <= p < |c| ==> c[p] * r0[p] == ocv[p] - StageVoltage(ocv, r0, i)
  {
    var v := StageVoltage(ocv, r0, i);
    seq(|ocv|, p requires 0 <= p < |ocv| => (ocv[p] - v) / r0[p])
  }

  /** The split conserves charge: the cell currents of a stage add up to the
      stage current exactly. */
  lemma {:induction false} StageConserves(ocv: seq<real>, r0: seq<real>, i: real)
    requires |ocv| == |r0| > 0 && AllPositive(r0)
    ensures Sum(StageCurrents(ocv, r0, i)) == i
  {
    var c, a, b := StageCurrents(ocv, r0, i), Ratio(ocv, r0), Recip(r0);
    var v := StageVoltage(ocv, r0, i);
    forall p | 0 <= p < |c|
      ensures c[p] == a[p] - v * b[p]
    {
      CancelR0(c[p], a[p], b[p], v, ocv[p], r0[p]);
    }
    SumAffine(a, b, c, v);
  }

  /** One cell: from `c r = o - v`, `a r = o` and `b r = 1` with r non-zero,
      `c = a - v b`. */
  lemma CancelR0(c: real, a: real, b: real, v: real, o: real, r: real)
    requires r > 0.0 && c * r == o - v && a * r == o && b * r == 1.0
    ensures c == a - v * b
  {
    assert (c - a + v * b) * r == c * r - a * r + v * (b * r);
  }

  /** Cells of a stage with the same `ocv` and the same `r0` share the stage
      current evenly. */
  lemma {:induction false} EvenSplit(ocv: seq<real>, r0: seq<real>, i: real)
    requires |ocv| == |r0| > 0 && AllPositive(r0)
    requires forall p :: 0 <= p < |ocv| ==> ocv[p] == ocv[0] && r0[p] == r0[0]
    ensures forall p :: 0 <= p < |ocv| ==> StageCurrents(ocv, r0, i)[p] == i / |ocv| as real
  {
    var c, v := StageCurrents(ocv, r0, i), StageVoltage(ocv, r0, i);
    StageConserves(ocv, r0, i);
    forall p | 0 <= p < |c|
      ensures c[p] == c[0]
    {
      assert c[p] == (ocv[0] - v) / r0[0];
    }
    SumConstant(c, c[0]);
    EqualShare(c[0], |c|, i);
  }

  lemma {:induction false} EqualShare(x: real, n: nat, total: real)
    requires n > 0 && n as real * x == total
    ensures x == total / n as real
  {
  }

  /** `n_series` stages of `n_parallel` cells each. */
  predicate Grid(g: seq<seq<real>>, nSeries: nat, nParallel: nat) {
    |g| == nSeries && forall s :: 0 <= s < nSeries ==> |g[s]| == nParallel
  }

  predicate GridPositive(g: seq<seq<real>>) {
    forall s :: 0 <= s < |g| ==> AllPositive(g[s])
  }

  /** Every sample of a history is an `n_series` by `n_parallel` grid. */
  predicate Grids(h: seq<seq<seq<real>>>, nSeries: nat, nParallel: nat) {
    forall k :: 0 <= k < |h| ==> |h[k]| == nSeries && forall s :: 0 <= s < nSeries ==> |h[k][s]| == nParallel
  }

  /** The split loop over a pack current profile: sample 0 is left at zero (the
      loop starts at 1) and every later sample splits every stage. */
  method PackCurrents(ocvCells: seq<seq<real>>, r0Cells: seq<seq<real>>, iPack: seq<real>, nSeries: nat, nParallel: nat)
    returns (iCells: seq<seq<seq<real>>>)
    requires nParallel > 0 && Grid(ocvCells, nSeries, nParallel) && Grid(r0Cells, nSeries, nParallel)
    requires GridPositive(r0Cells)
    ensures |iCells| == |iPack| && Grids(iCells, nSeries, nParallel)
    ensures |iCells| > 0 ==> iCells[0] == Fill(0.0, nSeries, nParallel)
    ensures forall k, s :: 1 <= k < |iCells| && 0 <= s < nSeries ==>
      iCells[k][s] == StageCurrents(ocvCells[s], r0Cells[s], iPack[k])
    ensures forall k, s :: 1 <= k < |iCells| && 0 <= s < nSeries ==> Sum(iCells[k][s]) == iPack[k]
  {
    var zero := Fill(0.0, nSeries, nParallel);
    iCells := seq(|iPack|, _ => zero);
    var k := 1;
    while k < |iPack|
      invariant |iCells| == |iPack| && (|iPack| == 0 || 1 <= k <= |iPack|)
      invariant Grids(iCells, nSeries, nParallel)
      invariant |iCells| > 0 ==> iCells[0] == zero
      invariant forall j, s :: 1 <= j < k && j < |iCells| && 0 <= s < nSeries ==>
        iCells[j][s] == StageCurrents(ocvCells[s], r0Cells[s], iPack[j])
      invariant forall j, s :: 1 <= j < k && j < |iCells| && 0 <= s < nSeries ==> Sum(iCells[j][s]) == iPack[j]
    {
      var row := seq(nSeries, s requires 0 <= s < nSeries => StageCurrents(ocvCells[s], r0Cells[s], iPack[k]));
      forall s | 0 <= s < nSeries
        ensures Sum(row[s]) == iPack[k]
      {
        StageConserves(ocvCells[s], r0Cells[s], iPack[k]);
      }
      iCells := iCells[k := row];
      k := k + 1;
    }
  }

  /** Row of cell (s, p) in the flattened order: `s n_parallel + p`. */
  function CellIndex(s: nat, p: nat, nParallel: nat): nat {
    s * nParallel + p
  }

  lemma CellBound(s: nat, p: nat, nSeries: nat, nParallel: nat)
    requires s < nSeries && p < nParallel
    ensures CellIndex(s, p, nParallel) < nSeries * nParallel
  {
    assert s * nParallel + p < (s + 1) * nParallel;
    assert (s + 1) * nParallel <= nSeries * nParallel;
  }

  /** Row `s n_parallel + p` is stage `c / n_parallel`, position `c % n_parallel`. */
  lemma CellDivMod(s: nat, p: nat, nParallel: nat)
    requires p < nParallel
    ensures CellIndex(s, p, nParallel) / nParallel == s && CellIndex(s, p, nParallel) % nParallel == p
  {
    var c := s * nParallel + p;
    var q, m := c / nParallel, c % nParallel;
    var d: int := q - s;
    assert d * nParallel == p - m;
    assert d >= 1 ==> d * nParallel >= nParallel;
    assert d <= -1 ==> d * nParallel <= -(nParallel as int);
  }

  /** Every row of the flattened order is the row of one cell. */
  lemma CellOf(c: nat, nSeries: nat, nParallel: nat)
    requires nParallel > 0 && c < nSeries * nParallel
    ensures c / nParallel < nSeries && c % nParallel < nParallel
    ensures c == CellIndex(c / nParallel, c % nParallel, nParallel)
  {
    var q := c / nParallel;
    assert q * nParallel <= c;
    assert q >= nSeries ==> q * nParallel >= nSeries * nParallel;
  }

  /** `i_cells.transpose(1, 2, 0).reshape(i_cells[0].size, n)`: one row per
      cell, row `s n_parallel + p` holding the current history of cell (s, p).
      The row count is read from `i_cells[0]`, so the history must not be
      empty. */
  function Flatten(iCells: seq<seq<seq<real>>>, nSeries: nat, nParallel: nat): (r: seq<seq<real>>)
    requires nParallel > 0 && |iCells| > 0 && Grids(iCells, nSeries, nParallel)
    ensures |r| == nSeries * nParallel
    ensures forall c :: 0 <= c < |r| ==> |r[c]| == |iCells|
  {
    var n := nSeries * nParallel;
    seq(n, c requires 0 <= c < n =>
      CellOf(c, nSeries, nParallel);
      seq(|iCells|, k requires 0 <= k < |iCells| => iCells[k][c / nParallel][c % nParallel]))
  }

  /** Flattening loses nothing: row `s n_parallel + p` at sample k is cell (s, p). */
  lemma FlattenCell(iCells: seq<seq<seq<real>>>, nSeries: nat, nParallel: nat, s: nat, p: nat, k: nat)
    requires nParallel > 0 && Grids(iCells, nSeries, nParallel)
    requires s < nSeries && p < nParallel && k < |iCells|
    ensures CellIndex(s, p, nParallel) < nSeries * nParallel
    ensures Flatten(iCells, nSeries, nParallel)[CellIndex(s, p, nParallel)][k] == iCells[k][s][p]
  {
    CellBound(s, p, nSeries, nParallel);
    CellDivMod(s, p, nParallel);
  }

  /** Sample k of the rows of stage s: `i_cells[k][s]` read back from the flattened rows. */
  function StageAt(rows: seq<seq<real>>, s: nat, nParallel: nat, k: nat): (r: seq<real>)
    requires forall p :: 0 <= p < nParallel ==> CellIndex(s, p, nParallel) < |rows| && k < |rows[CellIndex(s, p, nParallel)]|
    ensures |r| == nParallel
  {
    seq(nParallel, p requires 0 <= p < nParallel => rows[CellIndex(s, p, nParallel)][k])
  }

  /** Flattening keeps every stage: stage s at sample k reads back unchanged. */
  lemma FlattenStage(iCells: seq<seq<seq<real>>>, nSeries: nat, nParallel: nat, s: nat, k: nat)
    requires nParallel > 0 && Grids(iCells, nSeries, nParallel) && s < nSeries && k < |iCells|
    ensures var rows := Flatten(iCells, nSeries, nParallel);
      (forall p :: 0 <= p < nParallel ==> CellIndex(s, p, nParallel) < |rows| && k < |rows[CellIndex(s, p, nParallel)]|)
      && StageAt(rows, s, nParallel, k) == iCells[k][s]
  {
    var rows := Flatten(iCells, nSeries, nParallel);
    forall p | 0 <= p < nParallel
      ensures CellIndex(s, p, nParallel) < |rows| && rows[CellIndex(s, p, nParallel)][k] == iCells[k][s][p]
    {
      FlattenCell(iCells, nSeries, nParallel, s, p, k);
    }
  }

  /** `rctau[:, 2].mean()`: the mean series resistance of the RC table; an
      empty table gives numpy's NaN, here an error. */
  function MeanR0(rctau: seq<RcRow>): (r: Result<real>)
    ensures r.Ok? <==> |rctau| > 0
    ensures r.Ok? ==> r.value * |rctau| as real == Sum(R0Column(rctau))
  {
    if |rctau| == 0 then Err(EmptyInput) else Ok(Sum(R0Column(rctau)) / |rctau| as real)
  }

  function R0Column(rctau: seq<RcRow>): (r: seq<real>)
    ensures |r| == |rctau| && forall j :: 0 <= j < |r| ==> r[j] == rctau[j].r0
  {
    seq(|rctau|, j requires 0 <= j < |rctau| => rctau[j].r0)
  }

  /** Rows with positive series resistance have a positive mean. */
  lemma MeanR0Positive(rctau: seq<RcRow>)
    requires |rctau| > 0 && forall j :: 0 <= j < |rctau| ==> rctau[j].r0 > 0.0
    ensures MeanR0(rctau).value > 0.0
  {
    SumPositive(R0Column(rctau));
  }

  /** A grid holding x in every cell. */
  function Fill(x: real, nSeries: nat, nParallel: nat): (g: seq<seq<real>>)
    ensures Grid(g, nSeries, nParallel)
    ensures forall s, p :: 0 <= s < nSeries && 0 <= p < nParallel ==> g[s][p] == x
  {
    seq(nSeries, _ => seq(nParallel, _ => x))
  }

  /** `np.interp(zi, z_pts[::-1], v_pts[::-1])` over a grid of initial SOCs:
      the open-circuit voltage of every cell. */
  function OcvCells(vPts: seq<real>, zPts: seq<real>, zi: seq<seq<real>>): (r: Result<seq<seq<real>>>)
    ensures r.Ok? <==> |vPts| == |zPts| > 0
    ensures r.Ok? ==> |r.value| == |zi| && forall s :: 0 <= s < |zi| ==> r.value[s] == Ocv(vPts, zPts, zi[s]).value
  {
    if |zPts| == 0 then Err(EmptyInput)
    else if |vPts| != |zPts| then Err(LengthMismatch)
    else Ok(seq(|zi|, s requires 0 <= s < |zi| => Ocv(vPts, zPts, zi[s]).value))
  }

  /** Stage s starts with every cell at the same SOC. */
  predicate EvenStage(zi: seq<seq<real>>, s: nat)
    requires s < |zi|
  {
    forall p :: 0 <= p < |zi[s]| ==> zi[s][p] == zi[s][0]
  }

  /** Stage s at sample k, read back from the flattened rows, carries the stage
      current in total, and an even share of it when its cells agree. */
  lemma SplitStage(iCells: seq<seq<seq<real>>>, ocv: seq<real>, r0: seq<real>, i: real,
                   nSeries: nat, nParallel: nat, s: nat, k: nat)
    requires nParallel > 0 && Grids(iCells, nSeries, nParallel) && s < nSeries && k < |iCells|
    requires |ocv| == |r0| == nParallel && AllPositive(r0)
    requires iCells[k][s] == StageCurrents(ocv, r0, i)
    ensures var rows := Flatten(iCells, nSeries, nParallel);
      && (forall p :: 0 <= p < nParallel ==> CellIndex(s, p, nParallel) < |rows| && k < |rows[CellIndex(s, p, nParallel)]|)
      && Sum(StageAt(rows, s, nParallel, k)) == i
      && ((forall p :: 0 <= p < nParallel ==> ocv[p] == ocv[0] && r0[p] == r0[0]) ==>
            forall p :: 0 <= p < nParallel ==> StageAt(rows, s, nParallel, k)[p] == i / nParallel as real)
  {
    FlattenStage(iCells, nSeries, nParallel, s, k);
    StageConserves(ocv, r0, i);
    if forall p :: 0 <= p < nParallel ==> ocv[p] == ocv[0] && r0[p] == r0[0] {
      EvenSplit(ocv, r0, i);
    }
  }

  /** Cells of a stage that start at one SOC start at one open-circuit voltage. */
  lemma EvenStageOcv(vPts: seq<real>, zPts: seq<real>, zi: seq<seq<real>>, s: nat)
    requires |vPts| == |zPts| > 0 && s < |zi| && EvenStage(zi, s)
    ensures var o := OcvCells(vPts, zPts, zi).value[s];
      |o| == |zi[s]| && forall p :: 0 <= p < |o| ==> o[p] == o[0]
  {
  }

  /** Rows of a split: one per cell, each as long as the pack current. */
  predicate CellRows(rows: seq<seq<real>>, n: nat, samples: nat) {
    |rows| == n && forall c :: 0 <= c < n ==> |rows[c]| == samples
  }

  /** The flattened rows of a split history: every cell is a row, sample 0 is
      zero, and each stage carries its current in total and evenly when its
      cells start at one SOC. */
  lemma FlattenedSplit(vPts: seq<real>, zPts: seq<real>, zi: seq<seq<real>>, ocv: seq<seq<real>>, r0: seq<seq<real>>,
                       iCells: seq<seq<seq<real>>>, iPack: seq<real>, nSeries: nat, nParallel: nat)
    requires nParallel > 0 && Grid(zi, nSeries, nParallel) && |vPts| == |zPts| > 0
    requires ocv == OcvCells(vPts, zPts, zi).value
    requires Grid(r0, nSeries, nParallel) && GridPositive(r0)
    requires forall s, p :: 0 <= s < nSeries && 0 <= p < nParallel ==> r0[s][p] == r0[0][0]
    requires |iCells| == |iPack| > 0 && Grids(iCells, nSeries, nParallel)
    requires iCells[0] == Fill(0.0, nSeries, nParallel)
    requires forall k, s :: 1 <= k < |iCells| && 0 <= s < nSeries ==>
      iCells[k][s] == StageCurrents(ocv[s], r0[s], iPack[k])
    ensures var rows := Flatten(iCells, nSeries, nParallel);
      && CellRows(rows, nSeries * nParallel, |iPack|)
      && (forall s, p :: 0 <= s < nSeries && 0 <= p < nParallel ==> CellIndex(s, p, nParallel) < |rows|)
      && (forall c :: 0 <= c < |rows| ==> rows[c][0] == 0.0)
      && (forall s, k :: 0 <= s < nSeries && 1 <= k < |iPack| ==> Sum(StageAt(rows, s, nParallel, k)) == iPack[k])
      && (forall s, k :: 0 <= s < nSeries && 1 <= k < |iPack| && EvenStage(zi, s) ==>
            forall p :: 0 <= p < nParallel ==> StageAt(rows, s, nParallel, k)[p] == iPack[k] / nParallel as real)
  {
    var rows := Flatten(iCells, nSeries, nParallel);
    forall s, p | 0 <= s < nSeries && 0 <= p < nParallel
      ensures CellIndex(s, p, nParallel) < |rows|
    {
      CellBound(s, p, nSeries, nParallel);
    }
    forall c | 0 <= c < |rows|
      ensures rows[c][0] == 0.0
    {
      CellOf(c, nSeries, nParallel);
      FlattenCell(iCells, nSeries, nParallel, c / nParallel, c % nParallel, 0);
    }
    forall s, k | 0 <= s < nSeries && 1 <= k < |iPack|
      ensures Sum(StageAt(rows, s, nParallel, k)) == iPack[k]
      ensures EvenStage(zi, s) ==> forall p :: 0 <= p < nParallel ==> StageAt(rows, s, nParallel, k)[p] == iPack[k] / nParallel as real
    {
      if EvenStage(zi, s) {
        EvenStageOcv(vPts, zPts, zi, s);
      }
      SplitStage(iCells, ocv[s], r0[s], iPack[k], nSeries, nParallel, s, k);
    }
  }

  /** The whole split of a script: cell OCVs from the initial SOCs, every `r0`
      the table mean, the pack current split stage by stage (nothing at sample
      0) and flattened to one row per cell. Every stage is the balanced split
      of the pack current over its own cell OCVs and the mean `r0`, whatever
      the initial SOCs; it carries the pack current in total, and a stage whose
      cells start at one SOC shares it evenly. An empty pack current fails at
      the flattening, which reads `i_cells[0]`: an IndexError. */
  method SplitPack(vPts: seq<real>, zPts: seq<real>, zi: seq<seq<real>>, rctau: seq<RcRow>, iPack: seq<real>,
                   nSeries: nat, nParallel: nat)
    returns (r: Result<seq<seq<real>>>)
    requires nParallel > 0 && Grid(zi, nSeries, nParallel)
    requires forall j :: 0 <= j < |rctau| ==> rctau[j].r0 > 0.0
    ensures r.Ok? <==> |vPts| == |zPts| > 0 && |rctau| > 0 && |iPack| > 0
    ensures |vPts| == |zPts| > 0 && |rctau| > 0 && |iPack| == 0 ==> r == Err(IndexOutOfRange)
    ensures r.Ok? ==> CellRows(r.value, nSeries * nParallel, |iPack|)
    ensures r.Ok? ==> forall s, p :: 0 <= s < nSeries && 0 <= p < nParallel ==> CellIndex(s, p, nParallel) < |r.value|
    ensures r.Ok? ==> forall c :: 0 <= c < |r.value| ==> r.value[c][0] == 0.0
    ensures r.Ok? ==> forall s, k :: 0 <= s < nSeries && 1 <= k < |iPack| ==>
      Sum(StageAt(r.value, s, nParallel, k)) == iPack[k]
    ensures r.Ok? ==> forall s, k :: 0 <= s < nSeries && 1 <= k < |iPack| && EvenStage(zi, s) ==>
      forall p :: 0 <= p < nParallel ==> StageAt(r.value, s, nParallel, k)[p] == iPack[k] / nParallel as real
    ensures r.Ok? ==>
      && MeanR0(rctau).Ok? && MeanR0(rctau).value > 0.0 && OcvCells(vPts, zPts, zi).Ok?
      && forall s, k :: 0 <= s < nSeries && 1 <= k < |iPack| ==>
           StageAt(r.value, s, nParallel, k)
           == StageCurrents(OcvCells(vPts, zPts, zi).value[s], Fill(MeanR0(rctau).value, nSeries, nParallel)[s], iPack[k])
  {
    var ocv :- OcvCells(vPts, zPts, zi);
    var mean :- MeanR0(rctau);
    if |iPack| == 0 {
      return Err(IndexOutOfRange);
    }
    MeanR0Positive(rctau);
    var r0 := Fill(mean, nSeries, nParallel);
    var iCells := PackCurrents(ocv, r0, iPack, nSeries, nParallel);
    FlattenedSplit(vPts, zPts, zi, ocv, r0, iCells, iPack, nSeries, nParallel);
    var rows := Flatten(iCells, nSeries, nParallel);
    forall s, k | 0 <= s < nSeries && 1 <= k < |iPack|
      ensures StageAt(rows, s, nParallel, k) == StageCurrents(ocv[s], r0[s], iPack[k])
    {
      FlattenStage(iCells, nSeries, nParallel, s, k);
    }
    return Ok(rows);
  }
}

=== FILE: temperature_loader.dfy ===
/** `CellTemperatureData` (ecm/cell_temperature_data.py): a thermocouple log
    sampled every 3 s, its min/average/max channels, and its alignment to the
    window of a discharge test by nearest sample time. */
module CellTemperatureData {
  import opened Outcome
  import opened Numeric

  /** Sampling period of the thermocouple logger [s]. */
  const SamplePeriod: real := 3.0

  /** The eight series of the log, plus the indices nearest to ti and tf. */
  datatype TemperatureLog = TemperatureLog(
    tc1: seq<real>, tc2: seq<real>, tc3: seq<real>, tc4: seq<real>,
    tmax: seq<real>, tavg: seq<real>, tmin: seq<real>, time: seq<real>,
    id0: nat, id1: nat)
  {
    predicate Aligned() {
      |tc1| == |tc2| == |tc3| == |tc4| == |tmax| == |tavg| == |tmin| == |time|
    }
  }

  function Max3(a: real, b: real, c: real): (m: real)
    ensures a <= m && b <= m && c <= m && (m == a || m == b || m == c)
  {
    if a >= b && a >= c then a else if b >= c then b else c
  }

  function Min3(a: real, b: real, c: real): (m: real)
    ensures m <= a && m <= b && m <= c && (m == a || m == b || m == c)
  {
    if a <= b && a <= c then a else if b <= c then b else c
  }

  /** One sample of the max, mean and min channels against its three readings:
      the max and min are among the readings and bound them, and the mean lies
      between them. */
  predicate SampleStats(mx: real, avg: real, mn: real, a: real, b: real, c: real) {
    && a <= mx && b <= mx && c <= mx && mx in {a, b, c}
    && mn <= a && mn <= b && mn <= c && mn in {a, b, c}
    && 3.0 * avg == a + b + c && mn <= avg <= mx
  }

  lemma {:induction false} ChannelStats(tc1: seq<real>, tc2: seq<real>, tc3: seq<real>)
    requires |tc1| == |tc2| == |tc3|
    ensures forall k :: 0 <= k < |tc1| ==>
      SampleStats(Max3(tc1[k], tc2[k], tc3[k]), (tc1[k] + tc2[k] + tc3[k]) / 3.0, Min3(tc1[k], tc2[k], tc3[k]),
                  tc1[k], tc2[k], tc3[k])
  {
  }

  /** `np.argmin(np.abs(t - time))`: the first sample time nearest to t. */
  function Nearest(time: seq<real>, t: real): (k: nat)
    requires |time| > 0
    ensures k < |time|
    ensures forall j :: 0 <= j < |time| ==> Abs(t - time[k]) <= Abs(t - time[j])
    ensures forall j :: 0 <= j < k ==> Abs(t - time[j]) > Abs(t - time[k])
  {
    var dist := seq(|time|, j requires 0 <= j < |time| => Abs(t - time[j]));
    assert forall j :: 0 <= j < |time| ==> dist[j] == Abs(t - time[j]);
    ArgMin(dist)
  }

  /** `__init__` after parsing: channels tc1..tc4, the elementwise max, mean and
      min of tc1..tc3 (tc4 is not part of them), the 3 s timebase, and the
      nearest indices of ti and tf. An empty log is the ValueError of argmin. */
  function Init(tc1: seq<real>, tc2: seq<real>, tc3: seq<real>, tc4: seq<real>, ti: real, tf: real)
    : (r: Result<TemperatureLog>)
    requires |tc1| == |tc2| == |tc3| == |tc4|
    ensures r.Ok? <==> |tc1| > 0
    ensures r.Ok? ==> var t := r.value;
      && t.Aligned() && |t.time| == |tc1|
      && t.tc1 == tc1 && t.tc2 == tc2 && t.tc3 == tc3 && t.tc4 == tc4
      && (forall k :: 0 <= k < |tc1| ==> t.time[k] == SamplePeriod * k as real)
      && (forall k :: 0 <= k < |tc1| ==> SampleStats(t.tmax[k], t.tavg[k], t.tmin[k], tc1[k], tc2[k], tc3[k]))
      && t.id0 == Nearest(t.time, ti) && t.id1 == Nearest(t.time, tf)
  {
    var n := |tc1|;
    if n == 0 then Err(EmptyInput)
    else
      var time := seq(n, k requires 0 <= k < n => SamplePeriod * k as real);
      ChannelStats(tc1, tc2, tc3);
      Ok(TemperatureLog(
        tc1, tc2, tc3, tc4,
        seq(n, k requires 0 <= k < n => Max3(tc1[k], tc2[k], tc3[k])),
        seq(n, k requires 0 <= k < n => (tc1[k] + tc2[k] + tc3[k]) / 3.0),
        seq(n, k requires 0 <= k < n => Min3(tc1[k], tc2[k], tc3[k])),
        time, Nearest(time, ti), Nearest(time, tf)))
  }

  /** On the increasing 3 s grid, a later time never has an earlier nearest
      index: `ti <= tf` implies `id0 <= id1` (ties go to the lower index for both). */
  lemma NearestMonotone(time: seq<real>, ti: real, tf: real)
    requires |time| > 0
    requires forall k :: 0 <= k < |time| ==> time[k] == SamplePeriod * k as real
    requires ti <= tf
    ensures Nearest(time, ti) <= Nearest(time, tf)
  {
  }

  /** `r` holds rows lo .. lo + len - 1 of the seven data series of `t`, and a
      timebase that starts at 0 and keeps the spacing of `t.time`. */
  ghost predicate SeriesWindow(r: TemperatureLog, t: TemperatureLog, lo: nat, len: nat)
    requires t.Aligned()
  {
    && r.Aligned() && |r.time| == len && lo + len <= |t.time|
    && (forall k :: 0 <= k < len ==> r.tc1[k] == t.tc1[lo + k] && r.tc2[k] == t.tc2[lo + k])
    && (forall k :: 0 <= k < len ==> r.tc3[k] == t.tc3[lo + k] && r.tc4[k] == t.tc4[lo + k])
    && (forall k :: 0 <= k < len ==> r.tmax[k] == t.tmax[lo + k] && r.tavg[k] == t.tavg[lo + k])
    && (forall k :: 0 <= k < len ==> r.tmin[k] == t.tmin[lo + k])
    && (len > 0 ==> r.time[0] == 0.0)
    && (forall k :: 0 <= k < len ==> r.time[k] == t.time[lo + k] - t.time[lo])
  }

  /** `x[lo:lo + len]` of every series, the timebase rebased to its first sample. */
  function Cut(t: TemperatureLog, lo: nat, len: nat): (r: TemperatureLog)
    requires t.Aligned() && 0 < len && lo + len <= |t.time|
    ensures SeriesWindow(r, t, lo, len)
  {
    var hi := lo + len;
    t.(tc1 := t.tc1[lo..hi], tc2 := t.tc2[lo..hi], tc3 := t.tc3[lo..hi], tc4 := t.tc4[lo..hi],
       tmax := t.tmax[lo..hi], tavg := t.tavg[lo..hi], tmin := t.tmin[lo..hi],
       time := Rebase(t.time[lo..hi], t.time[lo]))
  }

  /** `process`: when ti and tf fall on different samples, keep samples
      id0 .. id1; when they fall on the same one (the 3C test), keep samples
      0 .. max_id, max_id being the first index of the largest tc2 reading.
      If id0 > id1 the slice is empty and taking its first time is an IndexError. */
  function Process(t: TemperatureLog): (r: Result<TemperatureLog>)
    requires t.Aligned() && |t.time| > 0 && t.id0 < |t.time| && t.id1 < |t.time|
    ensures r.Ok? <==> t.id0 <= t.id1
    ensures r.Ok? && t.id0 != t.id1 ==> SeriesWindow(r.value, t, t.id0, t.id1 - t.id0 + 1)
    ensures r.Ok? && t.id0 == t.id1 ==>
      var maxId := |r.value.time| - 1;
      && |r.value.time| > 0
      && SeriesWindow(r.value, t, 0, maxId + 1)
      && (forall k :: 0 <= k < |t.tc2| ==> t.tc2[k] <= t.tc2[maxId])
      && (forall k :: 0 <= k < maxId ==> t.tc2[k] < t.tc2[maxId])
  {
    if t.id0 == t.id1 then Ok(Cut(t, 0, ArgMax(t.tc2) + 1))
    else if t.id0 > t.id1 then Err(IndexOutOfRange)
    else Ok(Cut(t, t.id0, t.id1 - t.id0 + 1))
  }
}

=== FILE: thermal.dfy ===
/** Lumped thermal model of a cell or module (ecm/thermal_model.py, and
    `calc_temperature` in ecm/module_ecm.py): the body heats by
    `i (vt - ocv)`, exchanges `h sa (tf - t)` with the ambient air, and its
    temperature advances by forward Euler over each time step. */
module ThermalModel {
  import opened Outcome

  /** Ambient temperature, mass, convection coefficient, heat capacity and
      surface area (`tf`, `m`, `h`, `cp`, `sa`). */
  datatype Lumped = Lumped(tf: real, m: real, h: real, cp: real, sa: real)

  /** The heat capacity `m cp` the Euler step divides by is nonzero. */
  predicate Valid(p: Lumped) {
    p.m * p.cp != 0.0
  }

  /** Irreversible heat of one sample: current times overpotential. */
  function Irreversible(i: real, vt: real, ocv: real): real {
    i * (vt - ocv)
  }

  /** Heat taken in from the ambient air by a body at temperature t. */
  function Convection(p: Lumped, t: real): real {
    p.h * p.sa * (p.tf - t)
  }

  /** Forward-Euler temperature step: heat q over dt raises t by `q dt / (m cp)`. */
  function EulerStep(p: Lumped, t: real, q: real, dt: real): real
    requires Valid(p)
  {
    t + (q / (p.m * p.cp)) * dt
  }

  /** Steps 0 .. n - 1 have a current, voltages and a time step. */
  predicate Covers(i: seq<real>, ocv: seq<real>, vt: seq<real>, time: seq<real>, n: nat) {
    n == 0 || (n <= |i| && n <= |ocv| && n <= |vt| && n < |time|)
  }

  /** Total heat of step n at body temperature t. */
  function Heat(p: Lumped, i: seq<real>, ocv: seq<real>, vt: seq<real>, t: real, n: nat): real
    requires n < |i| && n < |ocv| && n < |vt|
  {
    Irreversible(i[n], vt[n], ocv[n]) + Convection(p, t)
  }

  /** Temperature at sample n, starting from ti. */
  function Temp(p: Lumped, i: seq<real>, ocv: seq<real>, vt: seq<real>, time: seq<real>, ti: real, n: nat): real
    requires Valid(p) && Covers(i, ocv, vt, time, n)
  {
    if n == 0 then ti
    else
      var t := Temp(p, i, ocv, vt, time, ti, n - 1);
      EulerStep(p, t, Heat(p, i, ocv, vt, t, n - 1), time[n] - time[n - 1])
  }

  /** `calc_q(i, ocv, vt)`: one value per terminal-voltage sample, none at
      sample 0, and at sample n + 1 the irreversible heat of sample n. The loop
      reads `i[n]` and `ocv[n]` for every n below `len(vt) - 1`, so a shorter
      current or OCV array is an IndexError. */
  function CalcQ(i: seq<real>, ocv: seq<real>, vt: seq<real>): (r: Result<seq<real>>)
    ensures r.Ok? <==> |vt| <= 1 || (|vt| - 1 <= |i| && |vt| - 1 <= |ocv|)
    ensures r.Err? ==> r.error == IndexOutOfRange
    ensures r.Ok? ==> |r.value| == |vt|
    ensures r.Ok? && |vt| > 0 ==> r.value[0] == 0.0
    ensures r.Ok? ==> forall n :: 0 <= n < |vt| - 1 ==> r.value[n + 1] == Irreversible(i[n], vt[n], ocv[n])
  {
    if |vt| > 1 && (|vt| - 1 > |i| || |vt| - 1 > |ocv|) then Err(IndexOutOfRange)
    else Ok(seq(|vt|, k requires 0 <= k < |vt| => if k == 0 then 0.0 else Irreversible(i[k - 1], vt[k - 1], ocv[k - 1])))
  }

  /** Heat generation and temperature of `calc_q_temp`. */
  datatype Heating = Heating(q: seq<real>, tk: seq<real>)

  /** Loop state of `calc_q_temp`: the first n temperatures and heats. */
  ghost predicate Tracks(p: Lumped, i: seq<real>, ocv: seq<real>, vt: seq<real>, time: seq<real>, ti: real,
                         q: seq<real>, tk: seq<real>, n: nat)
    requires Valid(p)
  {
    && |q| == |tk| == n && n >= 1 && Covers(i, ocv, vt, time, n - 1)
    && (n > 0 ==> q[0] == 0.0)
    && (forall k :: 0 <= k < n ==> Covers(i, ocv, vt, time, k) && tk[k] == Temp(p, i, ocv, vt, time, ti, k))
    && (forall k :: 0 <= k < n - 1 ==> q[k + 1] == Heat(p, i, ocv, vt, tk[k], k))
  }

  lemma TracksStep(p: Lumped, i: seq<real>, ocv: seq<real>, vt: seq<real>, time: seq<real>, ti: real,
                   q: seq<real>, tk: seq<real>, n: nat)
    requires Valid(p) && 1 <= n && Covers(i, ocv, vt, time, n)
    requires Tracks(p, i, ocv, vt, time, ti, q, tk, n)
    ensures var h := Heat(p, i, ocv, vt, tk[n - 1], n - 1);
      Tracks(p, i, ocv, vt, time, ti, q + [h], tk + [EulerStep(p, tk[n - 1], h, time[n] - time[n - 1])], n + 1)
  {
    var h := Heat(p, i, ocv, vt, tk[n - 1], n - 1);
    var q', tk' := q + [h], tk + [EulerStep(p, tk[n - 1], h, time[n] - time[n - 1])];
    assert tk[n - 1] == Temp(p, i, ocv, vt, time, ti, n - 1);
    assert tk'[n] == Temp(p, i, ocv, vt, time, ti, n);
    assert forall k :: 0 <= k < n ==> tk'[k] == tk[k];
    assert forall k :: 1 <= k < n ==> q'[k] == q[k];
  }

  /** `calc_q_temp(i, ocv, time, ti, vt)`: temperatures from `ti` by forward
      Euler and the total heat behind each step, shifted by one like `calc_q`;
      no voltage sample leaves nowhere to store `ti`, an IndexError. */
  method CalcQTemp(p: Lumped, i: seq<real>, ocv: seq<real>, time: seq<real>, ti: real, vt: seq<real>)
    returns (r: Result<Heating>)
    requires Valid(p) && (|vt| == 0 || Covers(i, ocv, vt, time, |vt| - 1))
    ensures r.Ok? <==> |vt| > 0
    ensures r.Ok? ==> |r.value.q| == |r.value.tk| == |vt| && r.value.tk[0] == ti && r.value.q[0] == 0.0
    ensures r.Ok? ==> forall n :: 0 <= n < |vt| ==> r.value.tk[n] == Temp(p, i, ocv, vt, time, ti, n)
    ensures r.Ok? ==> forall n :: 0 <= n < |vt| - 1 ==>
      CalcQ(i, ocv, vt).Ok? && r.value.q[n + 1] == CalcQ(i, ocv, vt).value[n + 1] + Convection(p, r.value.tk[n])
  {
    var nt := |vt|;
    if nt == 0 {
      return Err(IndexOutOfRange);
    }
    var q, tk := [0.0], [ti];
    var n := 1;
    while n < nt
      invariant 1 <= n <= nt && Tracks(p, i, ocv, vt, time, ti, q, tk, n)
    {
      TracksStep(p, i, ocv, vt, time, ti, q, tk, n);
      var qIrrev := Irreversible(i[n - 1], vt[n - 1], ocv[n - 1]);
      var qConv := Convection(p, tk[n - 1]);
      var h := qIrrev + qConv;
      q := q + [h];
      tk := tk + [EulerStep(p, tk[n - 1], h, time[n] - time[n - 1])];
      n := n + 1;
    }
    r := Ok(Heating(q, tk));
  }

  /** A body at ambient temperature with no current stays at ambient. */
  lemma AmbientFixedPoint(p: Lumped, i: seq<real>, ocv: seq<real>, vt: seq<real>, time: seq<real>, ti: real, n: nat)
    requires Valid(p) && Covers(i, ocv, vt, time, n + 1)
    requires i[n] == 0.0 && Temp(p, i, ocv, vt, time, ti, n) == p.tf
    ensures Temp(p, i, ocv, vt, time, ti, n + 1) == p.tf
  {
    assert Heat(p, i, ocv, vt, p.tf, n) == 0.0;
  }

  /** With no current, positive `h`, `sa`, `m`, `cp` and a positive step, the
      temperature moves towards the ambient: up when below it, down when above. */
  lemma RelaxesTowardAmbient(p: Lumped, i: seq<real>, ocv: seq<real>, vt: seq<real>, time: seq<real>, ti: real, n: nat)
    requires Covers(i, ocv, vt, time, n + 1) && i[n] == 0.0
    requires p.h > 0.0 && p.sa > 0.0 && p.m > 0.0 && p.cp > 0.0 && time[n + 1] > time[n]
    ensures Valid(p)
    ensures var t, t' := Temp(p, i, ocv, vt, time, ti, n), Temp(p, i, ocv, vt, time, ti, n + 1);
      (t' > t <==> p.tf > t) && (t' < t <==> p.tf < t)
  {
    assert p.m * p.cp > 0.0;
    var t := Temp(p, i, ocv, vt, time, ti, n);
    var c, dt := p.m * p.cp, time[n + 1] - time[n];
    assert Irreversible(i[n], vt[n], ocv[n]) == 0.0;
    var t' := Temp(p, i, ocv, vt, time, ti, n + 1);
    assert t' == EulerStep(p, t, Convection(p, t), dt);
    var d := p.tf - t;
    var step := (p.h * p.sa * d / c) * dt;
    assert t' == t + step;
    SignOfStep(p.h, p.sa, d, c, dt);
  }

  lemma SignOfStep(h: real, sa: real, d: real, c: real, dt: real)
    requires h > 0.0 && sa > 0.0 && c > 0.0 && dt > 0.0
    ensures (h * sa * d / c) * dt > 0.0 <==> d > 0.0
    ensures (h * sa * d / c) * dt < 0.0 <==> d < 0.0
  {
    var hs := h * sa;
    assert hs > 0.0;
    if d > 0.0 {
      assert hs * d > 0.0;
      assert hs * d / c > 0.0;
    } else if d < 0.0 {
      assert hs * d < 0.0;
      assert hs * d / c < 0.0;
    } else {
      assert hs * d == 0.0;
    }
  }

  /** With no current at any step, a body that starts at ambient stays there. */
  lemma {:induction false} IdleAtAmbient(p: Lumped, i: seq<real>, ocv: seq<real>, vt: seq<real>, time: seq<real>, n: nat)
    requires Valid(p) && Covers(i, ocv, vt, time, n)
    requires forall k :: 0 <= k < |i| ==> i[k] == 0.0
    ensures Temp(p, i, ocv, vt, time, p.tf, n) == p.tf
  {
    if n > 0 {
      IdleAtAmbient(p, i, ocv, vt, time, n - 1);
      AmbientFixedPoint(p, i, ocv, vt, time, p.tf, n - 1);
    }
  }
}

=== FILE: tworc.dfy ===
/** Terminal voltage of the two-RC equivalent circuit (`v_ecm` in
    ecmlib/voltage_ecm.py, repeated as `vt` in ecm/module_ecm.py and `v_ecm` in
    ecmlib/equiv_circ_model.py): `v = ocv + r0 i + v1 + v2`, each branch voltage
    relaxing towards `r i` with its own time constant. */
module TwoRc {
  import opened Outcome
  import opened Numeric
  import opened RcParams
  import opened SocBins

  /** One step of an RC branch over dt: the old voltage decays by
      `e^(-dt/tau)` and the current charges it by `r (1 - e^(-dt/tau)) i`. */
  function BranchStep(v: real, r: real, tau: real, dt: real, i: real, exp: real -> real): real
    requires tau != 0.0
  {
    v * exp(-dt / tau) + r * (1.0 - exp(-dt / tau)) * i
  }

  predicate NonzeroTaus(ps: seq<Rtau>) {
    forall k :: 0 <= k < |ps| ==> ps[k].tau1 != 0.0 && ps[k].tau2 != 0.0
  }

  predicate NonzeroRowTaus(rctau: seq<RcRow>) {
    forall k :: 0 <= k < |rctau| ==> rctau[k].tau1 != 0.0 && rctau[k].tau2 != 0.0
  }

  /** Voltages of the two RC branches at one sample. */
  datatype State = State(v1: real, v2: real)

  /** Branch voltages at sample k, starting from rest; `ps[k - 1]` holds the
      parameters of step k. */
  function Branches(curr: seq<real>, time: seq<real>, ps: seq<Rtau>, k: nat, exp: real -> real): State
    requires k < |curr| && k <= |ps| && (k == 0 || k < |time|) && NonzeroTaus(ps)
  {
    if k == 0 then State(0.0, 0.0)
    else Step(Branches(curr, time, ps, k - 1, exp), ps[k - 1], time[k] - time[k - 1], curr[k], exp)
  }

  /** Both branches advanced over dt under current i with parameters p. */
  function Step(s: State, p: Rtau, dt: real, i: real, exp: real -> real): State
    requires p.tau1 != 0.0 && p.tau2 != 0.0
  {
    State(BranchStep(s.v1, p.r1, p.tau1, dt, i, exp), BranchStep(s.v2, p.r2, p.tau2, dt, i, exp))
  }

  /** `v0[k]`: the drop over the series resistor, none at the resting sample 0. */
  function SeriesDrop(curr: seq<real>, ps: seq<Rtau>, k: nat): real
    requires k < |curr| && k <= |ps|
  {
    if k == 0 then 0.0 else ps[k - 1].r0 * curr[k]
  }

  /** `v0[k] + v1[k] + v2[k]`: the drop over the series resistor and both branches. */
  function Overpotential(curr: seq<real>, time: seq<real>, ps: seq<Rtau>, k: nat, exp: real -> real): real
    requires k < |curr| && k <= |ps| && (k == 0 || k < |time|) && NonzeroTaus(ps)
  {
    var s := Branches(curr, time, ps, k, exp);
    SeriesDrop(curr, ps, k) + s.v1 + s.v2
  }

  /** Step k has an SOC sample and the table has the row of its bin. */
  predicate Available(rctau: seq<RcRow>, soc: seq<real>, k: nat) {
    k < |soc| && NearestBin(soc[k]) < |rctau|
  }

  /** `get_rtau(rctau, soc[k])` for step k; a missing SOC sample is an IndexError. */
  function LookupStep(rctau: seq<RcRow>, soc: seq<real>, k: nat): (r: Result<Rtau>)
    ensures r.Ok? <==> Available(rctau, soc, k)
    ensures r.Ok? ==> r == GetRtau(rctau, soc[k])
  {
    if k >= |soc| then Err(IndexOutOfRange) else GetRtau(rctau, soc[k])
  }

  /** `get_rtau(rctau, soc[k])` for the steps k = 1 .. m, entry j for step j + 1;
      the first step without a row stops the run. */
  function LookupSteps(rctau: seq<RcRow>, soc: seq<real>, m: nat): (r: Result<seq<Rtau>>)
    ensures r.Ok? <==> forall k :: 1 <= k <= m ==> Available(rctau, soc, k)
    ensures r.Ok? ==> |r.value| == m
    ensures r.Ok? ==> forall j :: 0 <= j < m ==> Available(rctau, soc, j + 1) && r.value[j] == GetRtau(rctau, soc[j + 1]).value
  {
    var rs := seq(m, j requires 0 <= j < m => LookupStep(rctau, soc, j + 1));
    assert forall j :: 0 <= j < m ==> rs[j] == LookupStep(rctau, soc, j + 1);
    assert forall k :: 1 <= k <= m ==> (Available(rctau, soc, k) <==> rs[k - 1].Ok?);
    Collect(rs)
  }

  lemma LookupKeepsTaus(rctau: seq<RcRow>, soc: seq<real>, m: nat)
    requires NonzeroRowTaus(rctau) && LookupSteps(rctau, soc, m).Ok?
    ensures NonzeroTaus(LookupSteps(rctau, soc, m).value)
  {
    var ps := LookupSteps(rctau, soc, m).value;
    forall k | 0 <= k < |ps|
      ensures ps[k].tau1 != 0.0 && ps[k].tau2 != 0.0
    {
      var p := ps[k];
      assert Available(rctau, soc, k + 1) && p == GetRtau(rctau, soc[k + 1]).value;
    }
  }

  /** Number of steps of a run over n samples. */
  function Steps(n: nat): nat {
    if n == 0 then 0 else n - 1
  }

  /** The first n entries of the three loop arrays of `v_ecm` follow the
      recurrence: series drop, branch 1 and branch 2. */
  ghost predicate Tracks(v0: seq<real>, v1: seq<real>, v2: seq<real>, curr: seq<real>, time: seq<real>,
                         ps: seq<Rtau>, n: nat, exp: real -> real)
    requires n <= |curr| && n <= |ps| + 1 && (n <= 1 || n <= |time|) && NonzeroTaus(ps)
  {
    && |v0| == |v1| == |v2| == n
    && forall j :: 0 <= j < n ==>
         && v0[j] == SeriesDrop(curr, ps, j)
         && v1[j] == Branches(curr, time, ps, j, exp).v1
         && v2[j] == Branches(curr, time, ps, j, exp).v2
  }

  /** One pass of the loop body extends the arrays by sample k. */
  lemma TracksStep(v0: seq<real>, v1: seq<real>, v2: seq<real>, curr: seq<real>, time: seq<real>,
                   ps: seq<Rtau>, k: nat, exp: real -> real)
    requires 1 <= k < |curr| && k <= |ps| && k < |time| && NonzeroTaus(ps)
    requires Tracks(v0, v1, v2, curr, time, ps, k, exp)
    ensures var p, dt := ps[k - 1], time[k] - time[k - 1];
      Tracks(v0 + [p.r0 * curr[k]],
             v1 + [BranchStep(v1[k - 1], p.r1, p.tau1, dt, curr[k], exp)],
             v2 + [BranchStep(v2[k - 1], p.r2, p.tau2, dt, curr[k], exp)],
             curr, time, ps, k + 1, exp)
  {
    var p, dt := ps[k - 1], time[k] - time[k - 1];
    var b := Branches(curr, time, ps, k - 1, exp);
    assert v1[k - 1] == b.v1 && v2[k - 1] == b.v2;
    assert Branches(curr, time, ps, k, exp)
      == State(BranchStep(b.v1, p.r1, p.tau1, dt, curr[k], exp), BranchStep(b.v2, p.r2, p.tau2, dt, curr[k], exp));
  }

  /** One pass of the loop body of `v_ecm`: `v0[k] = r0 i` and both branches
      advanced over `time[k] - time[k - 1]`. */
  method Advance(v0: seq<real>, v1: seq<real>, v2: seq<real>, curr: seq<real>, time: seq<real>,
                 ps: seq<Rtau>, k: nat, exp: real -> real)
    returns (w0: seq<real>, w1: seq<real>, w2: seq<real>)
    requires 1 <= k < |curr| && k <= |ps| && k < |time| && NonzeroTaus(ps)
    requires Tracks(v0, v1, v2, curr, time, ps, k, exp)
    ensures Tracks(w0, w1, w2, curr, time, ps, k + 1, exp)
  {
    var i, p, dt := curr[k], ps[k - 1], time[k] - time[k - 1];
    TracksStep(v0, v1, v2, curr, time, ps, k, exp);
    w0 := v0 + [p.r0 * i];
    w1 := v1 + [BranchStep(v1[k - 1], p.r1, p.tau1, dt, i, exp)];
    w2 := v2 + [BranchStep(v2[k - 1], p.r2, p.tau2, dt, i, exp)];
  }

  /** The three loop arrays of `v_ecm` once every step's RC row is known:
      from rest at sample 0, step k sets `v0 = r0 i` and advances both branches
      over `time[k] - time[k - 1]`. */
  method Run(curr: seq<real>, time: seq<real>, ps: seq<Rtau>, exp: real -> real)
    returns (v0: seq<real>, v1: seq<real>, v2: seq<real>)
    requires 0 < |curr| && (|curr| == 1 || |time| >= |curr|) && |ps| >= |curr| - 1 && NonzeroTaus(ps)
    ensures Tracks(v0, v1, v2, curr, time, ps, |curr|, exp)
  {
    v0, v1, v2 := [0.0], [0.0], [0.0];
    var k := 1;
    while k < |curr|
      invariant 1 <= k <= |curr| && Tracks(v0, v1, v2, curr, time, ps, k, exp)
    {
      v0, v1, v2 := Advance(v0, v1, v2, curr, time, ps, k, exp);
      k := k + 1;
    }
  }

  /** The voltage of `v_ecm` once every step's RC row is known: `ocv + v0 + v1 + v2`. */
  method Simulate(curr: seq<real>, time: seq<real>, ocv: seq<real>, ps: seq<Rtau>, exp: real -> real)
    returns (v: seq<real>)
    requires |ocv| == |curr| && (|curr| <= 1 || |time| >= |curr|)
    requires |ps| >= Steps(|curr|) && NonzeroTaus(ps)
    ensures |v| == |curr|
    ensures |curr| > 0 ==> v[0] == ocv[0]
    ensures forall k :: 0 <= k < |curr| ==> v[k] == ocv[k] + Overpotential(curr, time, ps, k, exp)
  {
    var nc := |curr|;
    if nc == 0 {
      return [];
    }
    var v0, v1, v2 := Run(curr, time, ps, exp);
    v := seq(nc, j requires 0 <= j < nc => ocv[j] + v0[j] + v1[j] + v2[j]);
  }

  /** Every loop step k of `v_ecm` over n samples finds its SOC sample, its
      table row and its time step `dt[k - 1]`, which needs `k < len(time)`. */
  predicate Steppable(rctau: seq<RcRow>, soc: seq<real>, time: seq<real>, n: nat) {
    && (forall k :: 1 <= k < n ==> Available(rctau, soc, k))
    && (n <= 1 || n <= |time|)
  }

  /** numpy adds two arrays of lengths a and b when the lengths agree or one
      of them is 1; otherwise it raises a ValueError. */
  predicate Broadcasts(a: nat, b: nat) {
    a == b || a == 1 || b == 1
  }

  /** Sample k of `ocv` as broadcast against the loop arrays. */
  function OcvAt(ocv: seq<real>, k: nat): real
    requires |ocv| == 1 || k < |ocv|
  {
    if |ocv| == 1 then ocv[0] else ocv[k]
  }

  /** `v_ecm(curr, time, soc, ocv, rctau)`: step k uses the RC row of `soc[k]`
      (`get_rtau`) and the step `dt[k - 1]` of `np.diff(time)`, so a missing
      row, SOC sample or time sample is an IndexError. The final
      `ocv + v0 + v1 + v2` follows numpy broadcasting: a one-sample `ocv` is
      added to every sample, a one-sample run gives `ocv` itself, and any other
      length mismatch is a ValueError. */
  method VEcm(curr: seq<real>, time: seq<real>, soc: seq<real>, ocv: seq<real>, rctau: seq<RcRow>, exp: real -> real)
    returns (r: Result<seq<real>>)
    requires NonzeroRowTaus(rctau)
    ensures r.Ok? <==> Steppable(rctau, soc, time, |curr|) && Broadcasts(|ocv|, |curr|)
    ensures !Steppable(rctau, soc, time, |curr|) ==> r == Err(IndexOutOfRange)
    ensures Steppable(rctau, soc, time, |curr|) && !Broadcasts(|ocv|, |curr|) ==> r == Err(LengthMismatch)
    ensures r.Ok? ==> |r.value| == (if |curr| == 1 then |ocv| else |curr|)
    ensures r.Ok? && |r.value| > 0 ==> r.value[0] == ocv[0]
    ensures r.Ok? && |curr| == 1 ==> r.value == ocv
    ensures r.Ok? && |curr| != 1 ==>
      var ps := LookupSteps(rctau, soc, Steps(|curr|)).value;
      NonzeroTaus(ps) &&
      forall k :: 0 <= k < |curr| ==> r.value[k] == OcvAt(ocv, k) + Overpotential(curr, time, ps, k, exp)
  {
    var steps := LookupSteps(rctau, soc, Steps(|curr|));
    if steps.Err? || !(|curr| <= 1 || |time| >= |curr|) {
      return Err(IndexOutOfRange);
    }
    if !Broadcasts(|ocv|, |curr|) {
      return Err(LengthMismatch);
    }
    if |curr| == 1 {
      // the loop arrays are the single sample 0.0
      return Ok(ocv);
    }
    LookupKeepsTaus(rctau, soc, Steps(|curr|));
    var ocvB := seq(|curr|, k requires 0 <= k < |curr| => OcvAt(ocv, k));
    var v := Simulate(curr, time, ocvB, steps.value, exp);
    return Ok(v);
  }

  /** With no current at any sample the branches stay at rest, so the terminal
      voltage is the open-circuit voltage throughout. */
  lemma {:induction false} ZeroCurrentRests(curr: seq<real>, time: seq<real>, ps: seq<Rtau>, k: nat, exp: real -> real)
    requires k < |curr| && k <= |ps| && (k == 0 || k < |time|) && NonzeroTaus(ps)
    requires forall j :: 0 <= j < |curr| ==> curr[j] == 0.0
    ensures Branches(curr, time, ps, k, exp) == State(0.0, 0.0)
    ensures Overpotential(curr, time, ps, k, exp) == 0.0
  {
    if k > 0 {
      ZeroCurrentRests(curr, time, ps, k - 1, exp);
      var p, dt := ps[k - 1], time[k] - time[k - 1];
      assert BranchStep(0.0, p.r1, p.tau1, dt, 0.0, exp) == 0.0;
      assert BranchStep(0.0, p.r2, p.tau2, dt, 0.0, exp) == 0.0;
    }
  }

  /** Under a constant current and constant parameters, `r i` is a fixed point
      of the branch update: a branch at `r i` stays there. */
  lemma BranchFixedPoint(r: real, tau: real, dt: real, i: real, exp: real -> real)
    requires tau != 0.0
    ensures BranchStep(r * i, r, tau, dt, i, exp) == r * i
  {
    var e := exp(-dt / tau);
    assert r * i * e + r * (1.0 - e) * i == r * i;
  }

  /** The branch update is linear in the branch voltage and the current together. */
  lemma BranchStepLinear(v: real, v': real, r: real, tau: real, dt: real, i: real, i': real, c: real, exp: real -> real)
    requires tau != 0.0 && v' == c * v && i' == c * i
    ensures BranchStep(v', r, tau, dt, i', exp) == c * BranchStep(v, r, tau, dt, i, exp)
  {
    var e := exp(-dt / tau);
    assert c * v * e + r * (1.0 - e) * (c * i) == c * (v * e + r * (1.0 - e) * i);
  }

  /** Both branch voltages of s' are c times those of s. */
  predicate ScaledState(s': State, s: State, c: real) {
    s'.v1 == c * s.v1 && s'.v2 == c * s.v2
  }

  /** A step keeps the scaling when the current is scaled with the state. */
  lemma StepScaled(s: State, s': State, p: Rtau, dt: real, i: real, i': real, c: real, exp: real -> real)
    requires p.tau1 != 0.0 && p.tau2 != 0.0 && ScaledState(s', s, c) && i' == c * i
    ensures ScaledState(Step(s', p, dt, i', exp), Step(s, p, dt, i, exp), c)
  {
    BranchStepLinear(s.v1, s'.v1, p.r1, p.tau1, dt, i, i', c, exp);
    BranchStepLinear(s.v2, s'.v2, p.r2, p.tau2, dt, i, i', c, exp);
  }

  /** Scaling every current by c scales both branch voltages by c. */
  lemma {:induction false} ScaledBranches(curr: seq<real>, time: seq<real>, ps: seq<Rtau>, k: nat, c: real, exp: real -> real)
    requires k < |curr| && k <= |ps| && (k == 0 || k < |time|) && NonzeroTaus(ps)
    ensures ScaledState(Branches(Scale(curr, c), time, ps, k, exp), Branches(curr, time, ps, k, exp), c)
  {
    if k > 0 {
      ScaledBranches(curr, time, ps, k - 1, c, exp);
      var curr' := Scale(curr, c);
      StepScaled(Branches(curr, time, ps, k - 1, exp), Branches(curr', time, ps, k - 1, exp),
                 ps[k - 1], time[k] - time[k - 1], curr[k], curr'[k], c, exp);
    }
  }

  /** Scaling every current by c scales the whole overpotential `v - ocv` by c. */
  lemma ScaledCurrent(curr: seq<real>, time: seq<real>, ps: seq<Rtau>, k: nat, c: real, exp: real -> real)
    requires k < |curr| && k <= |ps| && (k == 0 || k < |time|) && NonzeroTaus(ps)
    ensures Overpotential(Scale(curr, c), time, ps, k, exp) == c * Overpotential(curr, time, ps, k, exp)
  {
    ScaledBranches(curr, time, ps, k, c, exp);
    var b := Branches(curr, time, ps, k, exp);
    if k > 0 {
      var r0 := ps[k - 1].r0;
      assert SeriesDrop(Scale(curr, c), ps, k) == r0 * (c * curr[k]);
      assert r0 * (c * curr[k]) + c * b.v1 + c * b.v2 == c * (r0 * curr[k] + b.v1 + b.v2);
    }
  }

  /** The branch voltages at sample k depend on the current only up to sample k:
      two current profiles that agree there give the same branches. */
  lemma {:induction false} Causal(curr: seq<real>, curr': seq<real>, time: seq<real>, ps: seq<Rtau>, k: nat, exp: real -> real)
    requires k < |curr| && k < |curr'| && k <= |ps| && (k == 0 || k < |time|) && NonzeroTaus(ps)
    requires forall j :: 0 <= j <= k ==> curr[j] == curr'[j]
    ensures Branches(curr, time, ps, k, exp) == Branches(curr', time, ps, k, exp)
    ensures Overpotential(curr, time, ps, k, exp) == Overpotential(curr', time, ps, k, exp)
  {
    if k > 0 {
      Causal(curr, curr', time, ps, k - 1, exp);
    }
  }
}
